=== FILE: README.md ===
# balance-engine: a Dafny model of its bookkeeping

balance-engine is a Node.js framework for horizontally scaled websocket game
servers. Several server instances share one Redis. Each instance holds some
client sockets and relays messages for the other clients over Redis pub/sub.
On top of the socket layer sit:

- a JSON envelope layer;
- a group protocol that keeps group memberships in Redis lists, indexed both
  ways;
- a matchmaking server that cuts a queue into lobbies and runs a confirmation
  round for each match;
- a spatial server that maps world positions to grid-cell groups;
- a UDP companion server, with identity binding for per-match state updates;
- a websocket load balancer.

This project models the deterministic part of all that as pure functions over
immutable state, and proves what the code promises about it.

- **Redis** is a value. A `Groups.Store` holds:
  - the membership lists: group id → client ids and client id → group ids;
  - the group directory, a hash kept in insertion order.

  The confirmation lists are a separate `Confirmation.Records` value with
  expiry times.
- **Outgoing traffic** is a list of effects, in order. `Wire.Out` covers sends,
  list sends and events; `Relay.Effect` covers socket deliveries and
  publications.
- **Inputs from outside** are parameters:
  - `Date.now()`;
  - the ids `uuid.v4()` returns;
  - `JSON.parse` of stored text;
  - whether a socket send succeeds;
  - the draw of `Math.random()`;
  - the packet header strings a state-update logic is given.
- **JavaScript values** that the code inspects with `typeof`, truthiness or
  property reads are a `JsValue.Js` datatype.

| file | module | models |
|---|---|---|
| groups.dfy | Groups | `Group` / `ClientGroup` push, remove, erase, list (lib/groups/Group.js) |
| groupmanager.dfy | GroupManager | the directory hash (lib/groups/GroupManager.js) |
| grouphandler.dfy | GroupHandler | instance creation and lookup, the client scan (lib/groups/GroupHandler.js) |
| confirmation.dfy | Confirmation | the duplicate-free confirmation list with its TTL (lib/groups/MatchMakingConfirmation.js) |
| groupserver.dfy | GroupProtocol | the `GS:` handlers and their dispatch (lib/GroupServer.js) |
| lobbies.dfy | Lobbies | the queue partition into lobbies (lib/RoomGroupServer.js) |
| matchmaker.dfy | Matchmaking | formation tick, confirmation tick, the `RGS:` handlers (lib/RoomGroupServer.js) |
| relay.dfy | Relay | the client registry, local send versus relay, the pub/sub filters (lib/Server.js) |
| envelope.dfy | Envelope | `getJMessage`, `isValidMessage`, the message routing (lib/JsonMessageLayerServer.js) |
| statesync.dfy | StateSync | identifier issue and binding, the UDP switch, the tick's channel (lib/logic/StateUpdateLogic.js) |
| cells.dfy | Cells | cell preheating, position updates, cell broadcast (lib/VectorGroupServer.js) |
| vectors.dfy | Vectors | integer vector maths and vector ids (lib/tools/vector.js) |
| uniquify.dfy | Uniquify | `uniquify` (lib/tools/uniquify.js) |
| udp.dfy | Udp | the UDP reaction table (lib/unreliable/UDPServer.js) |
| balancer.dfy | Balancer | upstream selection and failover flags (lib/balance/WSProxy.js) |
| js.dfy, wire.dfy, seqs.dfy, arith.dfy, wrappers.dfy | helpers | JS values, output messages, sequence and arithmetic lemmas, `Option`/`Result` |

The central invariant is `Groups.Mirrored`: `c` is in the list of `g` exactly
when `g` is in the list of `c`. Every mirrored mutation keeps it. So does every
group-protocol handler (`GroupProtocol.DispatchKeepsMirrored`).

The `...NoCalls` instance getters (lib/groups/GroupHandler.js:95-97, 144-146)
never touch the store. In the model that is a direct read of
`Groups.List`, which is all a broadcast does.

## Model

| member | source | states |
|---|---|---|
| Groups.GroupPush | lib/groups/Group.js:30-42 | The mirrored push puts `g` at the head of the client's list and `c` at the head of the group's list. The simple push writes only the group's list. No other list and not the directory changes. There is no duplicate check. |
| Groups.GroupRemove | lib/groups/Group.js:48-60 | Every occurrence of `c` leaves the group's list. In mirrored mode every `g` also leaves the client's list. Nothing else changes. |
| Groups.ClientPush | lib/groups/Group.js:112-124 | The client-side push, with the same effect on both lists as the group-side one. |
| Groups.ClientRemove | lib/groups/Group.js:130-142 | The client-side remove, with the same effect on both lists as the group-side one. |
| Groups.StripFrom | lib/groups/Group.js:69-73 | Removing `key` from each listed id's list changes exactly those lists. |
| Groups.EraseMirrored | lib/groups/Group.js:62-81 | The erased key's list is gone and so is its directory field. The key is stripped from exactly the lists its own list named. |
| Groups.GroupErase | lib/groups/Group.js:62-81 | The simple erase deletes only the group's list. The mirrored erase leaves no former member listing the group and drops its directory entry. |
| Groups.ClientErase | lib/groups/Group.js:144-163 | The client's list is gone. The mirrored form also takes the client out of every group it listed and drops its directory field. |
| Groups.PushMirror | lib/groups/Group.js:112-124 | Pushing through `ClientGroup` leaves the same store as pushing through `Group`. |
| Groups.RemoveMirror | lib/groups/Group.js:130-142 | Removing through `ClientGroup` leaves the same store as removing through `Group`. |
| Groups.PushKeepsMirrored | lib/groups/Group.js:30-42 | A mirrored push keeps the dual index, and afterwards both sides reference each other. |
| Groups.RemoveKeepsMirrored | lib/groups/Group.js:48-60 | A mirrored remove keeps the dual index, and afterwards neither side references the other. |
| Groups.RemoveAbsentIsNoop | lib/groups/Group.js:48-60 | Removing a member that is on neither side returns the identical store. |
| Groups.EraseKeepsMirrored | lib/groups/Group.js:62-81 | A mirrored erase keeps the dual index, and afterwards no list names the erased group. |
| Groups.SimplePushIsOneSided | lib/groups/Group.js:30-34 | A simple push of a new member writes one side only, which breaks the dual index. |
| GroupManager.Keys | lib/groups/GroupManager.js:26-28 | HKEYS names every field of the hash exactly once. |
| GroupManager.Size | lib/groups/GroupManager.js:18-20 | HLEN equals the number of keys and the number of stored fields. |
| GroupManager.Set | lib/groups/GroupManager.js:50-57 | A string is stored verbatim and any other value JSON-encoded. An existing field is overwritten in place and a new key is appended. Every other field is untouched. |
| GroupManager.Get | lib/groups/GroupManager.js:34-48 | A missing field reads as `null`. A present field reads as its truthy decoded value or else as its raw string. |
| GroupManager.Remove | lib/groups/GroupManager.js:59-61 | Only field `k` goes, from both the values and the key order. Removing an absent key changes nothing. |
| GroupManager.RemoveShrinks | lib/groups/GroupManager.js:59-61 | Removing a present field lowers the size by exactly one. |
| GroupManager.Erase | lib/groups/GroupManager.js:63-65 | The erased hash has no keys, size 0, and no field. |
| GroupManager.SetThenGetValue | lib/groups/GroupManager.js:34-57 | A truthy non-string value that is `set` reads back unchanged. |
| GroupManager.SetThenGetText | lib/groups/GroupManager.js:34-57 | A string that is `set` reads back verbatim, unless it parses as JSON to a truthy value, which is returned instead. |
| GroupManager.OtherFieldsUntouched | lib/groups/GroupManager.js:50-61 | `set` and `remove` of one field leave what `get` returns for every other field. |
| GroupManager.GetReadsLookup | lib/groups/GroupManager.js:34-48 | `get` depends on nothing but the field's stored value. |
| GroupHandler.CreateGroupInstance | lib/groups/GroupHandler.js:40-49 | The fresh group key is registered with `createdAt` before it is returned. No list and no other field changes. |
| GroupHandler.GetGroupInstance | lib/groups/GroupHandler.js:57-88 | A non-string id is refused and the store is untouched. A truthy directory value gives the group and changes nothing. Otherwise leftover lists are erased and DOES_NOT_EXIST is returned. A group is only given for a directory key. |
| GroupHandler.GetClientInstance | lib/groups/GroupHandler.js:114-137 | A non-string id is refused and the store is untouched. An object entry gets `lastAction = now` and keeps its other fields. An array entry is written back as it is. A missing or falsy entry becomes a fresh `{createdAt, lastAction}`. Any other truthy entry (a number, a string or `true`, as `get` returns stored text verbatim when it does not decode to a truthy value) cannot take the `lastAction` property in strict mode, so the call fails and nothing changes. It succeeds in every other case. No list and no other field changes. |
| GroupHandler.ScanGroupsForClient | lib/groups/GroupHandler.js:176-202 | The result holds exactly the directory keys whose list contains the client, each once, in directory order. |
| GroupHandler.ScanMatchesMembership | lib/groups/GroupHandler.js:176-202 | On a mirrored store whose client list names only registered groups, the scan finds exactly the client's own groups. |
| Confirmation.View | lib/groups/MatchMakingConfirmation.js:24-26 | `list()` is the stored list while the key is live. A missing or expired key reads as empty and stays gone at every later time. |
| Confirmation.Size | lib/groups/MatchMakingConfirmation.js:20-22 | `size()` is the length of `list()`, and it is zero iff the key is missing, expired or empty. |
| Confirmation.Push | lib/groups/MatchMakingConfirmation.js:28-37 | Pushing a client that already confirmed is rejected and changes nothing. A new client is prepended and the size grows by one. Other records are untouched. |
| Confirmation.Expire | lib/groups/MatchMakingConfirmation.js:1-18 | A live record reads the same until 120 s from now and is gone from then on. A missing or expired record is left alone. No other record changes. |
| Confirmation.Erase | lib/groups/MatchMakingConfirmation.js:39-41 | The record is empty at every time and others are untouched. |
| Confirmation.Key | lib/groups/MatchMakingConfirmation.js:13 | The record key is `mmc:` followed by the group id. |
| Confirmation.KeyInjective | lib/groups/MatchMakingConfirmation.js:13 | The `mmc:` key determines its group. |
| Confirmation.PushKeepsDistinct | lib/groups/MatchMakingConfirmation.js:28-37 | `push` never creates a duplicate, so the size counts distinct confirmers. |
| Confirmation.PushTwiceCountsOnce | lib/groups/MatchMakingConfirmation.js:28-33 | A second push of the same client is rejected and leaves the record unchanged. |
| Uniquify.AddAll | lib/tools/uniquify.js:17-19 | Adding items keeps the accumulator duplicate-free and as a prefix. The result holds exactly the old and new elements. |
| Uniquify.Collect | lib/tools/uniquify.js:11-20 | The result is duplicate-free and holds exactly the elements of the array entries. Non-arrays are skipped. |
| Uniquify.Uniquify | lib/tools/uniquify.js:1-23 | A non-array gives `[]`. Otherwise an element is in the result iff it is in some inner array, and the result has no duplicates. |
| GroupProtocol.BroadcastToGroup | lib/GroupServer.js:430-446 | One message with the given header and body goes to the group's members, minus the sender when a non-empty sender id is given, and to nobody else. |
| GroupProtocol.NamedGroupNoMissingReply | lib/GroupServer.js:237-310 | JOIN and LEAVE with a non-empty string group id never answer "missing groupId". |
| GroupProtocol.Recipients | lib/GroupServer.js:430-446 | The recipients are the group's members. When a non-empty sender id is given, the sender is left out, and nobody else is. |
| GroupProtocol.MemberLists | lib/GroupServer.js:448-451 | The i-th list handed to `uniquify` is the i-th group's member list. |
| GroupProtocol.BroadcastToGroupList | lib/GroupServer.js:448-454 | One list send that reaches each member of any of the groups exactly once. |
| GroupProtocol.BroadcastToAllGroupsOfClient | lib/GroupServer.js:456-465 | The recipients are each client in any group the client's list names, once. |
| GroupProtocol.AllGroupsOfClientReachCoMembers | lib/GroupServer.js:456-465 | On a mirrored store, these are exactly the clients that share a group with the client. |
| GroupProtocol.Create | lib/GroupServer.js:143-175 | CREATE registers a fresh group and prepends the creator and the group to each other's lists. Every other list and every other directory field is unchanged. The reply is the create event and then the new groupId. |
| GroupProtocol.Delete | lib/GroupServer.js:177-235 | A missing groupId gets "missing groupId" and the store is unchanged. An unknown group gets "group does not exist.". Otherwise the group is erased everywhere. Besides its own list, only its members' lists change, and no other directory field changes. The outputs are listed in call order: the event, a notification to the now empty member list, and the ack. The ack is sent first, since the notification waits for a list read. |
| GroupProtocol.DeleteNotifyingMembers | lib/GroupServer.js:195-210 | The corrected DELETE leaves the same store and notifies exactly the former members other than the deleter. |
| GroupProtocol.DeleteNotifiesNobody | lib/GroupServer.js:196-201 | A member other than the deleter is missed by the DELETE as written and reached by the corrected one. |
| GroupProtocol.Join | lib/GroupServer.js:237-295 | A missing groupId gets "missing groupId" and the store is unchanged. An unknown group is erased and gets "group does not exist.". Otherwise both sides are linked (a second join adds a second entry), and the other members are notified. The outputs are listed in call order: the event, the notification, the ack. The ack is sent first, since the notification waits for a list read. |
| GroupProtocol.Leave | lib/GroupServer.js:297-360 | The error cases are as for JOIN. Otherwise every link between the two goes and nothing else changes. The remaining members are notified. The ack is sent only when `reply` is set. |
| GroupProtocol.Broadcast | lib/GroupServer.js:362-406 | A missing groupId gets "missing groupId". A sender whose list lacks the group gets "client is not a member of this group". Otherwise the delivery goes to the group's other members. Membership lists are never changed. |
| GroupProtocol.BroadcastSkipsSender | lib/GroupServer.js:397-403 | A group broadcast reaches every other member and never the sender. |
| GroupProtocol.Ping | lib/GroupServer.js:134-141 | PING is answered with PONG and the store is untouched. |
| GroupProtocol.LeaveEach | lib/GroupServer.js:412-418 | Leaving groups in turn on close sends no success reply. |
| GroupProtocol.LeaveAll | lib/GroupServer.js:408-421 | On CLOSE the client leaves every group its list names, and the client gets no ack. |
| GroupProtocol.GetGroupKeepsMirrored | lib/groups/GroupHandler.js:57-88 | Looking a group up, including the erase of an unknown one, keeps the dual index. |
| GroupProtocol.LeaveDetaches | lib/GroupServer.js:313-326 | Leaving keeps the dual index, unlinks the group from the client, and never adds to the client's list. |
| GroupProtocol.LeaveEachDetaches | lib/GroupServer.js:412-418 | After leaving each listed group in turn, none of them is in the client's list, and the dual index holds. |
| GroupProtocol.LeaveAllDetaches | lib/GroupServer.js:408-421 | After a close, the client is in no group and lists none. |
| GroupProtocol.JoinLeaveRoundTrip | lib/GroupServer.js:237-360 | JOIN then LEAVE of a group the client was not in restores the store exactly. |
| GroupProtocol.RouteOf | lib/GroupServer.js:47-80 | Each `GS:` header and CLOSE maps to its own handler, and every other header is ignored. |
| GroupProtocol.Dispatch | lib/GroupServer.js:44-81 | Each header runs its own handler: CREATE, DELETE, JOIN, LEAVE (with a reply) and BROADCAST (with `content.delivery`), the last four with `content.groupId`. CLOSE leaves every group when `listenForLeaves` is set and otherwise changes nothing. PING answers PONG. Unknown headers change nothing. The groupId handlers throw exactly on a nullish content. |
| GroupProtocol.CreateKeepsMirrored | lib/GroupServer.js:147-148 | CREATE keeps the dual index. |
| GroupProtocol.DeleteKeepsMirrored | lib/GroupServer.js:195-196 | DELETE keeps the dual index. |
| GroupProtocol.JoinKeepsMirrored | lib/GroupServer.js:255-256 | JOIN keeps the dual index. |
| GroupProtocol.LeaveKeepsMirrored | lib/GroupServer.js:315-316 | LEAVE keeps the dual index. |
| GroupProtocol.BroadcastKeepsMirrored | lib/GroupServer.js:380-381 | BROADCAST keeps the dual index. |
| GroupProtocol.DispatchKeepsMirrored | lib/GroupServer.js:44-81 | Every handled group message keeps the dual index, provided the closing client's list names no empty id. |
| Lobbies.ChunksSplit | lib/RoomGroupServer.js:171-186 | The reference cut concatenates back to the queue. Every lobby but the last has exactly `lobbySize` ids. The last is non-empty and not larger. |
| Lobbies.SplitIsChunks | lib/RoomGroupServer.js:171-186 | There is only one such split, the reference cut. |
| Lobbies.Partition | lib/RoomGroupServer.js:171-186 | The `forEach` loop produces the reference cut, which for `lobbySize >= 1` is a split of the queue. |
| Lobbies.Full | lib/RoomGroupServer.js:205-209 | Exactly the lobbies with at least `lobbySize` ids are kept. |
| Lobbies.FullLobbies | lib/RoomGroupServer.js:205-212 | The full lobbies have exactly `lobbySize` ids and together form a prefix of the queue. Fewer than `lobbySize` ids remain after them. |
| Lobbies.FullCount | lib/RoomGroupServer.js:205-212 | Exactly `floor(n / lobbySize)` lobbies are full. |
| Lobbies.FiveSearchersOneLobby | test/int/Room.test.js:263-270 | With five searchers and lobbies of three, the three latest form the match and the two earliest stay queued. |
| Matchmaking.LobbySize | lib/RoomGroupServer.js:39 | `lobbySize` defaults to 3 when unset or 0. |
| Matchmaking.Open | lib/RoomGroupServer.js:49-58 | `open()` registers a fresh queue group without members and remembers it. |
| Matchmaking.RunAutoMatchmaking | lib/RoomGroupServer.js:112-141 | Starting the interval fails iff it already runs. Otherwise it is marked running. |
| Matchmaking.IntervalStartsOnce | lib/RoomGroupServer.js:114-116 | The second start of the interval throws. |
| Matchmaking.RemoveMulti | lib/RoomGroupServer.js:197 | The lobby's clients leave the queue on both sides, and other lists are untouched. |
| Matchmaking.PushMulti | lib/RoomGroupServer.js:200 | Every lobby client ends up linked to the match group on both sides, and no existing link is lost. |
| Matchmaking.FormOne | lib/RoomGroupServer.js:196-203 | One lobby's closure takes its clients out of the queue and registers the match group. When the batch push works, it also seats them. Existing links outside the queue survive. |
| Matchmaking.FormLobbies | lib/RoomGroupServer.js:205-212 | After the closures of all full lobbies, every drawn match group is registered and no directory entry is lost. |
| Matchmaking.FormationDrainsQueue | lib/RoomGroupServer.js:196-212 | The queue loses exactly the clients placed in lobbies. |
| Matchmaking.FormationSeatsLobbies | lib/RoomGroupServer.js:196-212 | With the batch push working, each member of lobby i is linked both ways to match group i. |
| Matchmaking.OpenRecord | lib/RoomGroupServer.js:356-364 | The match is recorded as opened now. Other records stay and no match is recorded twice. |
| Matchmaking.OpenRecords | lib/RoomGroupServer.js:215-220 | Every new match is recorded as opened now. Nothing else is added and no other record is lost. |
| Matchmaking.Announce | lib/RoomGroupServer.js:366-375 | Each new match raises `matched` and sends MATCH-FOUND under CONFIRM to its members, in order. |
| Matchmaking.MatchRooms | lib/RoomGroupServer.js:196-220 | Every match group is registered and recorded as opened now. The queue, interval and lobby size stay. |
| Matchmaking.Matched | lib/RoomGroupServer.js:196-223 | Each full lobby becomes a registered, recorded match, announced to its members with two messages per match. |
| Matchmaking.FormMatches | lib/RoomGroupServer.js:151-226 | The tick fails iff it is a manual run while the interval is active, or there is no queue yet. Fewer queued clients than `lobbySize` change nothing. The result keeps the records well formed. |
| Matchmaking.FormMatchesOpens | lib/RoomGroupServer.js:205-223 | The i-th full lobby gets the i-th drawn id. Its group is registered and recorded as opened now, and it is announced. |
| Matchmaking.FormMatchesStore | lib/RoomGroupServer.js:160-212 | The store after the tick is the store after the closures of the full lobbies. |
| Matchmaking.QueueKeepsPartialLobby | lib/RoomGroupServer.js:205-212 | With distinct queued clients, the queue after the tick is a suffix of the old queue, shorter than a lobby. These are the earliest searchers. |
| Matchmaking.FormationKeepsTail | lib/RoomGroupServer.js:171-212 | Store-level form of the same claim: forming the full lobbies leaves a tail of the queue shorter than a lobby. |
| Matchmaking.MatchesSeatLobbies | lib/RoomGroupServer.js:196-203 | With the batch push working, each member of the i-th full lobby is linked both ways to the i-th match group. |
| Matchmaking.QueueSeated | lib/RoomGroupServer.js:196-212 | Store-level form of the same seating claim. |
| Matchmaking.Decide | lib/RoomGroupServer.js:257-307 | The verdict is Disband iff the match has been open at least 120000 ms. Otherwise it is Start iff confirmations are non-zero and at least `lobbySize`, and Wait in every remaining case. |
| Matchmaking.SettleOne | lib/RoomGroupServer.js:250-328 | Wait changes nothing. Start and Disband erase the record's list. Disband also erases the group. Exactly the matching START or DISBAND is sent, for this match only. |
| Matchmaking.Settle | lib/RoomGroupServer.js:331-333 | A record is kept iff its verdict is Wait, and no record is added. Lists of kept and unrelated matches are untouched. |
| Matchmaking.SettleAnnouncesOwn | lib/RoomGroupServer.js:250-333 | Nothing is announced about a match that is not open. |
| Matchmaking.SettleAnnounces | lib/RoomGroupServer.js:257-328 | START goes out for exactly the matches whose verdict is Start, and DISBAND for exactly those whose verdict is Disband. |
| Matchmaking.ConfirmTick | lib/RoomGroupServer.js:235-341 | The tick fails iff it is a manual run while the interval is active. Otherwise waiting matches stay and the others go. START and DISBAND follow the verdicts. Nothing is announced about other groups and no record is added. |
| Matchmaking.SecondTickSettlesNothing | lib/RoomGroupServer.js:257-328 | A second tick at the same instant keeps every record and announces nothing. |
| Matchmaking.HandleConfirm | lib/RoomGroupServer.js:378-422 | A non-string matchId or a non-member changes nothing. Otherwise the client is recorded once and every member, the sender included, is told. EXPIRE reaches Redis before LPUSH: a live record expires 120 s later, while a first confirmation creates a record that never expires. |
| Matchmaking.ConfirmCountsOnce | lib/RoomGroupServer.js:402-404 | A first confirmation raises the count by at most one, and a repeat does not change it. |
| Matchmaking.Search | lib/RoomGroupServer.js:424-437 | SEARCH links the client and the queue both ways, touches no other list, and acknowledges. |
| Matchmaking.LeaveQueue | lib/RoomGroupServer.js:452-463 | LEAVE unlinks the client from the queue both ways, touches no other list, and acknowledges. |
| Matchmaking.SearchThenLeave | lib/RoomGroupServer.js:424-463 | SEARCH then LEAVE by a client that was not queued restores the rooms exactly. |
| Matchmaking.BroadcastUpdate | lib/RoomGroupServer.js:439-450 | The delivery goes to the queue's members except the sender, and throws on nullish content. |
| Matchmaking.RouteOf | lib/RoomGroupServer.js:75-108 | Each `RGS:` header maps to its handler and the update headers to no-ops. |
| Matchmaking.Dispatch | lib/RoomGroupServer.js:75-109 | SEARCH, LEAVE, BROADCAST and CONFIRM each run their own handler. Update and unknown headers change nothing. A handler fails iff the queue is missing or a broadcast has nullish content. No handler changes the records or the interval. |
| Relay.ClientForId | lib/Server.js:356-381 | A non-string id is not found. Otherwise the result is the first entry with that id, and none exists when the result is not-found. |
| Relay.RemoveClientForId | lib/Server.js:383-395 | The result is true iff the id is registered. In that case exactly the first entry with it is spliced out. Otherwise the registry is unchanged. |
| Relay.Connect | lib/Server.js:309-354 | One entry with id `c:` + uuid is appended. The CONNECTED greeting and the connection event are raised. |
| Relay.Close | lib/Server.js:332-344 | CLOSE and the close event are raised iff the entry was there to remove, and one entry with that id goes. |
| Relay.ConnectThenClose | lib/Server.js:309-344 | A connection and then its close restore the registry and raise CLOSE once. |
| Relay.CloseLast | lib/Server.js:332-344 | Closing the last registered socket, whose id is unique, restores the registry before it. |
| Relay.CloseTwiceIsQuiet | lib/Server.js:332-344 | With distinct ids, a second close raises nothing. |
| Relay.SendHere | lib/Server.js:205-239 | A client held here gets the message iff its socket send succeeds. |
| Relay.Send | lib/Server.js:138-159 | `send` relays exactly the ids not held here, in one out-channel envelope. A client held here is delivered to iff its socket send succeeds, and a failed send emits nothing. |
| Relay.Split | lib/Server.js:248-255 | The ids are partitioned into the clients held here and the ids not found. |
| Relay.SendAll | lib/Server.js:272-273 | One reflected send per local client, in order. The deliveries are exactly those whose socket send succeeds. |
| Relay.SendListAsWritten | lib/Server.js:241-274 | As written: a non-array is rejected. Every relay envelope for a missing id carries the whole id array. |
| Relay.SendList | lib/Server.js:241-274 | A non-array is rejected. Each missing id is relayed in its own envelope, in order, and each local client is sent to. |
| Relay.OnMessageOut | lib/Server.js:397-417 | An unparsable, falsy or own-origin message is ignored. Otherwise the named client gets the message iff it is held here and the send succeeds. |
| Relay.RelayReachesRemote | lib/Server.js:262-269 | A message for a client held by another instance reaches it through the out channel. |
| Relay.RelayAsWrittenIsLost | lib/Server.js:253 | As written, that relay reaches nobody. |
| Relay.PublishGlobalMessage | lib/Server.js:291-307 | A falsy message publishes nothing. Otherwise the envelope is `{type, message, toSelf, originId}`. |
| Relay.BroadcastGlobal | lib/Server.js:198-201 | A truthy global broadcast is published with `toSelf = true`, and a falsy one publishes nothing. |
| Relay.Broadcast | lib/Server.js:186-193 | Every local socket whose send succeeds gets the message. |
| Relay.OnMessageGlobal | lib/Server.js:419-448 | An own-origin message without `toSelf` is ignored. A broadcast goes to every local socket, and any other type is raised as a global event. |
| Relay.BroadcastGlobalReachesAll | lib/Server.js:433-444 | A global broadcast reaches the sockets of every instance, the sender's included. |
| Relay.OwnGlobalIgnoredUnlessToSelf | lib/Server.js:433-436 | A non-broadcast global message comes back to its sender iff it set `toSelf`. |
| Envelope.GetJMessage | lib/JsonMessageLayerServer.js:12-38 | It throws iff the type or content is falsy, the type is not a string, or an internal type lacks a string header. Non-internal messages are `{type, content}` and internal ones `{type, header, content}`. |
| Envelope.IsValidMessage | lib/JsonMessageLayerServer.js:40-56 | Only a plain object with a string type and defined content is valid, and an internal one also needs a string header. Falsy values and arrays never are. |
| Envelope.BuiltIsValid | lib/JsonMessageLayerServer.js:12-56 | Whatever the builder returns passes the validator. |
| Envelope.ValidIsBuilt | lib/JsonMessageLayerServer.js:12-56 | A valid message is rebuilt by the builder iff its type and content are truthy. The rebuilt fields agree with it. |
| Envelope.RouteAsWritten | lib/JsonMessageLayerServer.js:62-80 | As written: unparsable text makes the listener throw, and parsed text is routed as below. |
| Envelope.Route | lib/JsonMessageLayerServer.js:62-80 | Invalid or unparsable input is dropped. A valid internal message goes to the internal channel with `clientId` set and its other fields kept. Any other valid message goes to `jmessage`. |
| Envelope.UnparsableThrows | lib/JsonMessageLayerServer.js:64-74 | Non-JSON text throws as written and is dropped after the correction. |
| Envelope.GreetingIsInternal | lib/Server.js:347-351 | The CONNECTED greeting of a new socket is a valid internal message for that client. |
| Envelope.SendJ | lib/JsonMessageLayerServer.js:83-85 | `send` fails iff the builder throws. Everything it delivers is a valid message. |
| Udp.Frame | lib/unreliable/UDPServer.js:23-29 | The sent frame carries the given type, header and content, and with defined content it passes the message validator. |
| Udp.React | lib/unreliable/UDPServer.js:31-75 | Unparsable or falsy input is dropped. CONNECTED is answered with UDP:CONN and UDP:CONN with UDP:CONN:AFIRM. UDP:PING is echoed with content "pong" and its other fields unchanged. Other internal headers are raised, and non-internal messages go to `jmessage`. |
| Udp.Handshake | lib/unreliable/UDPServer.js:50-56 | The server's answer to CONNECTED, sent back to it, draws the affirmation. |
| Udp.RepliesAreValid | lib/unreliable/UDPServer.js:50-61 | Every reply is a valid envelope. |
| Udp.PingEcho | lib/unreliable/UDPServer.js:58-61 | A ping is answered once, with the same frame and content "pong". |
| StateSync.Configure | lib/logic/StateUpdateLogic.js:26-42 | Undefined options default to true, true and 50. Given ones are kept. |
| StateSync.Issue | lib/logic/StateUpdateLogic.js:98-108 | The identifier is mapped to the client, and the client is sent `{created, identifier, groupId}`. |
| StateSync.IssueAll | lib/logic/StateUpdateLogic.js:84-93 | Each member is sent one identifier, in order. Distinct identifiers map each to its member, and other mappings stay. |
| StateSync.Execute | lib/logic/StateUpdateLogic.js:63-96 | `execute` throws iff it is already running. Otherwise it runs and issues an identifier to each member of an existing group. Bindings stay. |
| StateSync.End | lib/logic/StateUpdateLogic.js:167-179 | `end` throws iff it never ran. The handle is not reset. |
| StateSync.RunsOnce | lib/logic/StateUpdateLogic.js:167-179 | After `execute` and `end`, `execute` throws. |
| StateSync.Validates | lib/logic/StateUpdateLogic.js:110-127 | Validation needs two string ids. An identifier issued to a non-empty client id validates exactly that client. |
| StateSync.IssuedValidates | lib/logic/StateUpdateLogic.js:110-127 | An issued identifier validates its own client and no other. |
| StateSync.CheckFirst | lib/logic/StateUpdateLogic.js:129-157 | A repeat is refused and changes nothing. A first binding is recorded. Once as many are bound as issued, the group gets `{info: "VALIDATION-TOTAL", groupId}` and the UDP list becomes the bound UDP ids. |
| StateSync.HandleUdpMessage | lib/logic/StateUpdateLogic.js:236-282 | A nullish payload throws. A pair that does not validate changes nothing. Otherwise the binding step runs in full: the outputs and every field but the stored states are exactly those of the first-binding check, so the VALIDATION-TOTAL message and the UDP switch happen here. A `state` event stores the state iff the state's schema check accepts it (lib/dto/State.js:70-75); a rejected state leaves the stored states unchanged. |
| StateSync.HandleKeepsBoundIssued | lib/logic/StateUpdateLogic.js:142-145 | Only issued identifiers are ever bound, so the number bound never exceeds the number issued. |
| StateSync.LastBindingSwitches | lib/logic/StateUpdateLogic.js:142-154 | The last issued identifier to bind switches on the UDP list, which holds every bound UDP id in binding order. |
| StateSync.Tick | lib/logic/StateUpdateLogic.js:288-326 | Updates go to the UDP list iff UDP is on and the list is non-empty. Otherwise they go over TCP to the stored states' client ids, and nothing is sent without stored states. Every update has the state header and the content `{created: now, states}`. |
| Cells.GridSize | lib/VectorGroupServer.js:22 | `gridSize` defaults to 6 when unset or 0. |
| Cells.HeatStore | lib/VectorGroupServer.js:69-74 | Each step registers its own fresh group, and no other field or list changes. |
| Cells.HeatKey | lib/VectorGroupServer.js:80-82 | The world point a step builds converts back to that step's own cell id. |
| Cells.HeatCells | lib/VectorGroupServer.js:88-93 | Each step's cell id maps to that step's group, and other entries are kept. |
| Cells.HeatEvents | lib/VectorGroupServer.js:69-74 | One `create` event per created group, in order. |
| Cells.Preheat | lib/VectorGroupServer.js:62-97 | An odd positive grid size throws. A negative one creates nothing. Otherwise `(g+1)^2` create events are raised, and no list changes. |
| Cells.StepOfCell | lib/VectorGroupServer.js:77-78 | Each grid cell is visited at a step inside the loop bounds, and that step stores the cell's id. |
| Cells.PreheatCoversGrid | lib/VectorGroupServer.js:77-95 | Every cell (x, y) with x and y in `[0, gridSize]` maps to a registered group. |
| Cells.PreheatOnlyGrid | lib/VectorGroupServer.js:77-95 | The cell map holds nothing but those cells. |
| Cells.Stamped | lib/VectorGroupServer.js:125-127 | The relayed content carries `from`, `type` and `header` and keeps its other fields. |
| Cells.CellGroup | lib/VectorGroupServer.js:109-119 | The lookup throws iff the grid size is odd or the position's cell has no truthy group. Otherwise it gives that cell and group. |
| Cells.OldGroup | lib/VectorGroupServer.js:142-144 | The previous group exists iff the stored cell is truthy and mapped to a truthy group. |
| Cells.PositionOf | lib/VectorGroupServer.js:109-112 | The position is read iff the content is an object whose `position` has a numeric x and a numeric ground axis (y, or z in Unity mode), as `worldToGridCoordinates` reads only those. The read coordinates are the position's own, and a full vector reads as itself. |
| Cells.PlanarPositionAccepted | lib/tools/vector.js:77-80 | `{position: {x: 1, y: 2}}` is a position in the x/y plane but not in Unity's x/z plane. |
| Cells.Move | lib/VectorGroupServer.js:107-160 | The position comes from `content.position`. It throws exactly when that position cannot be read or the cell lookup throws. The latest cell is stored. The update goes last to the new group without the sender. Without a switch the store is unchanged. |
| Cells.PositionUpdateAsWritten | lib/VectorGroupServer.js:107-160 | The handler as written throws in the same cases as the cell move. Every switch from a mapped cell answers the leave with "missing groupId". |
| Cells.PositionUpdate | lib/VectorGroupServer.js:107-160 | The corrected handler throws in the same cases. It never answers "missing groupId". |
| Cells.JoinThenLeave | lib/VectorGroupServer.js:139-146 | Joining the new cell group and leaving the old one leaves the client in the first and not the second. |
| Cells.MoveSwitch | lib/VectorGroupServer.js:136-154 | A switch from a mapped cell is a join, a leave and the broadcast to the new group, in that order. |
| Cells.SwitchLeavesOldCell | lib/VectorGroupServer.js:141-146 | The corrected handler moves the client into the new cell group and out of the old one. |
| Cells.SwitchStaysAsWritten | lib/VectorGroupServer.js:145 | As written, the client stays in the old cell group and the leave is answered with "missing groupId". |
| Cells.UpdateSkipsSender | lib/VectorGroupServer.js:151-157 | A position update is never relayed back to its sender. |
| Cells.BroadcastUpdate | lib/VectorGroupServer.js:162-185 | Falsy or non-object content throws. A client in a mapped cell reaches the cell group's other members. Otherwise only the client gets an error. |
| Cells.BroadcastWithoutCellReachesNobody | lib/VectorGroupServer.js:168-183 | A client without a current cell reaches nobody but itself. |
| Vectors.ToJs | lib/tools/vector.js:3-9 | `getVector` builds an object with exactly x, y and z. |
| Vectors.IsVector | lib/tools/vector.js:11-20 | The value is a vector iff it is an object with numeric x, y and z. |
| Vectors.VectorShape | lib/tools/vector.js:3-20 | A built vector is a vector and reads back as its coordinates. |
| Vectors.OnlyZIsNotVector | test/unit/Vector.test.js:26 | `{z: 12}` is not a vector. |
| Vectors.AreEqual | lib/tools/vector.js:22-36 | The result is false unless both are vectors, and then it is coordinatewise equality. |
| Vectors.AreEqualIsEquivalence | lib/tools/vector.js:22-36 | `areEqual` is reflexive on vectors, symmetric and transitive, and equality of coordinates on built vectors. |
| Vectors.ToInt32 | lib/tools/vector.js:50-53 | `\| 0` wraps into the signed 32-bit range, agrees modulo 2^32, and is the identity in range. |
| Vectors.TruncDiv | lib/tools/vector.js:50-52 | For a non-negative dividend and a positive divisor, the truncating quotient is the mathematical one. |
| Vectors.TruncRem | lib/tools/vector.js:53 | `%` satisfies `a == q*b + r` with the truncating quotient. |
| Vectors.FloorDiv | lib/tools/vector.js:88-89 | `Math.floor(a / b)` is the q with `q*b <= a < q*b + b`. |
| Vectors.To1D | lib/tools/vector.js:44-46 | A position inside the x and y bounds lands in the z-th block of `xMax * yMax` indices. |
| Vectors.To3D | lib/tools/vector.js:48-60 | Every coordinate is a signed 32-bit integer. A zero divisor gives 0 for that coordinate, as `\| 0` turns NaN and Infinity into 0. |
| Vectors.IndexRoundTrip | lib/tools/vector.js:44-60 | `to3D(to1D(v)) == v` for coordinates inside the bounds whose layer offset `z * xMax * yMax` survives its `\| 0`, with odd or even bounds. The index itself may exceed 32 bits. |
| Vectors.SmallIndexRoundTrips | lib/tools/vector.js:44-60 | Every position inside the bounds whose index is below 2^31 round-trips. |
| Vectors.DefaultIndexRoundTrip | lib/tools/vector.js:44-60 | With the default bounds of 111, every position inside them with z up to 174294 round-trips. |
| Vectors.DefaultNextLayerFails | lib/tools/vector.js:44-60 | At z = 174295 the layer offset wraps under `\| 0`, and `(0, 0, 174295)` does not round-trip. |
| Vectors.EvenBoundsRoundTrip | lib/tools/vector.js:38-42 | Even bounds round-trip on integers, contrary to the comment. |
| Vectors.WorldToGrid | lib/tools/vector.js:77-92 | An odd grid size throws. Otherwise z is 0 and each axis maps to the cell whose centre lies within half a cell. Unity mode reads z as y. |
| Vectors.GridToWorld | lib/tools/vector.js:94-114 | An odd grid size throws. Otherwise the result is the cell's centre, with y written to z in Unity mode. |
| Vectors.GridRoundTrip | lib/tools/vector.js:77-114 | For an even non-zero grid size, a cell sent to world coordinates and back is the same cell, in either mode. |
| Vectors.IntText | lib/tools/vector.js:122 | An integer prints as digits with a leading `-` iff it is negative, and never contains `:`. |
| Vectors.IntTextRoundTrip | lib/tools/vector.js:122 | The printed integer reads back as itself. |
| Vectors.IdRoundTrip | lib/tools/vector.js:116-123 | `"x:y:z"` reads back as its vector. |
| Vectors.IdInjective | lib/tools/vector.js:116-123 | Two vectors have the same id iff they are equal. |
| Vectors.GetVectorId | lib/tools/vector.js:116-123 | The call throws iff the value is not a vector. Otherwise the id reads back as its coordinates. |
| Balancer.Create | lib/balance/WSProxy.js:35-48 | Every upstream starts up without a timer, and the last index is -1. The mode is ROUND_ROBIN unless a mode is configured. |
| Balancer.Cursor | lib/balance/WSProxy.js:114-120 | After at least one step, the loop index lies in `[0, n)`. |
| Balancer.FirstUp | lib/balance/WSProxy.js:114-134 | The result is the first up upstream along the cursor, with every upstream before it down, or none when all are down. |
| Balancer.RoundRobinPick | lib/balance/WSProxy.js:109-136 | The reference pick lies in `[0, n)` when there are upstreams, and is 0 without any. |
| Balancer.PickIsFirstUp | lib/balance/WSProxy.js:109-136 | When some upstream is up, the pick is up and is the first one after the last index, cyclically. |
| Balancer.PickWhenAllDown | lib/balance/WSProxy.js:122-126 | When all n upstreams are down, the pick is `(last + 1) mod n`. |
| Balancer.RoundRobin | lib/balance/WSProxy.js:109-136 | The `while` loop terminates with the reference pick. |
| Balancer.RandomPick | lib/balance/WSProxy.js:138-147 | With no upstreams the call fails. Otherwise the drawn upstream is picked if up, and 0 if not. |
| Balancer.NextServer | lib/balance/WSProxy.js:91-107 | RANDOM picks at random. Every other mode is round-robin, which stores its pick as the last index. Down flags and timers are untouched. |
| Balancer.RoundRobinTakesTurns | lib/balance/WSProxy.js:109-136 | With all upstreams up, the picks visit them in turn. |
| Balancer.StartFailover | lib/balance/WSProxy.js:175-184 | It does nothing while a timer is pending. Otherwise it marks the upstream down and sets its timer. |
| Balancer.CheckBack | lib/balance/WSProxy.js:190-201 | A 200 answer brings the upstream back up and clears its timer. Otherwise it stays down with a new timer, and other upstreams are untouched. |
| Balancer.FailoverIdempotent | lib/balance/WSProxy.js:177-181 | Starting the failover twice is the same as starting it once. |
| Balancer.FailedUpstreamSkipped | lib/balance/WSProxy.js:128-131 | While another upstream is up, round-robin never picks an upstream whose failover started. |

## Left out

- Redis, sockets, pub/sub transport, HTTP, SSL and `request`. Commands are modelled by their effect on the state, and messages by the effects list.
- Concurrency between instances and between promise chains. Each handler runs to completion, and its writes happen in the order the code issues them. The check-then-push race in `MatchMakingConfirmation.push` is not modelled.
- Timers and delays. The 3200 ms interval, the 10 ms, 250 ms and 500 ms delays, the 15-minute cell TTL and the failover interval are all absent. Time is a parameter, and a timer firing is a call.
- Floating point: `getLength`, `getDistanceLength`, `_hertzToMs` and the state-distance heuristic. Coordinates are integers, and JavaScript's number printing is modelled only for integers.
- lib/dto/State.js (avro serialisation): the stored states are a map, `getStatesAsList` is a parameter, and the schema check `State.isValid` is the parameter `validState`. lib/tools/reflect.js is not part of this model beyond its effect that one failing lobby does not stop the others.
- `Group.pushMulti` throws "not implemented", and `removeMulti`, `contains` and `getId` do not exist in lib/groups/Group.js. The model gives them their evident meaning. Whether the batch push works is the parameter `multiPush`.
- The group protocol works on string client ids, so `ClientGroup`'s non-string check (lib/groups/Group.js:94-96) shows only in the instance getters.
- `setNewClientGroupFromExistingGroupsForClient` (lib/groups/GroupHandler.js:154-168) rebuilds a client list from a scan through `pushMulti`, which always throws. Its scan is `GroupHandler.ScanGroupsForClient`.
- `StateUpdateLogic.clientLeft` (lib/logic/StateUpdateLogic.js:181-187) only forwards to the State.js store.
- The room server's state, message and world handlers are empty (lib/RoomGroupServer.js:469-479). They are modelled as no-ops.
- Uniquify.Uniquify: the result keeps first-occurrence order and the element type. `Object.keys` turns elements into strings and lists integer-like keys first. The contract states membership and distinctness only, where the two agree.
- Vectors.TruncDiv: its contract pins the quotient down only for non-negative dividends and positive divisors, the only ones the index round trip uses.
- Cells.PositionOf: a non-number x or ground-axis coordinate is treated as unreadable. In JavaScript, `null` and booleans act as 0 or 1, and a string is concatenated with the half cell before the division, so some such positions do find a cell; other values give NaN, whose cell has no group.
- Cells.Move: throws for every position that Cells.PositionOf treats as unreadable, for the reason on the line above.
- Vectors.WorldToGrid: a grid size of 0 is excluded by its precondition. JavaScript would compute NaN cells, and the servers never pass it.
- Balancer.RoundRobin: with no upstreams the source's caller reads `proxies[0]` of an empty array and throws. The pick itself is 0, as modelled.
- ClientGroup.erase does not wait for the directory removal (lib/groups/Group.js:158). The model performs it at once.
- lib/Proxy.js, lib/balance/UDPProxy.js, lib/http/ServiceRegistry.js, lib/http/ServiceRegistryClient.js, lib/tools/uhecatcher.js and the example/ directory are not part of this model: they are transport and deployment glue around the core.

## Findings

| source | as written | input that shows it | evidently intended | confidence | as-written member | corrected member |
|---|---|---|---|---|---|---|
| lib/Server.js:253 | `notOnServer.push(clientIds)` relays the whole id array for each missing client | `sendList(["c:x"], m)` on an instance without `c:x`: the envelope's `clientId` is `["c:x"]`, which no instance resolves | push the single missing id `clientIds[i]` | high (not executed) | Relay.SendListAsWritten, Relay.RelayAsWrittenIsLost | Relay.SendList, Relay.RelayReachesRemote |
| lib/VectorGroupServer.js:145 | the old cell is left with `{oldGroupId}`, so `content.groupId` is undefined | a client moving from a mapped cell to another: the leave answers "missing groupId" and the client stays in the old cell group | leave with `{groupId: oldGroupId}` | high (not executed) | Cells.PositionUpdateAsWritten, Cells.SwitchStaysAsWritten | Cells.PositionUpdate, Cells.SwitchLeavesOldCell |
| lib/GroupServer.js:196-201 | the DELETE notification is broadcast after `group.erase()` emptied the member list | deleting a group with a second member: that member receives nothing | notify the members before erasing | high (not executed) | GroupProtocol.Delete, GroupProtocol.DeleteNotifiesNobody | GroupProtocol.DeleteNotifyingMembers, GroupProtocol.DeleteNotifiesNobody |
| lib/JsonMessageLayerServer.js:64-74 | after a parse failure `msg` stays `null` and `msg.type` is read | the text `not json`: the listener throws | return after logging the parse failure | high (not executed) | Envelope.RouteAsWritten, Envelope.UnparsableThrows | Envelope.Route, Envelope.UnparsableThrows |

The comment at lib/tools/vector.js:38-42 says even bounds do not round-trip.
For integer positions they do (`Vectors.EvenBoundsRoundTrip`,
`Vectors.IndexRoundTrip`).

=== FILE: arith.dfy ===
/** Facts about multiplication and Euclidean division that the index and
    lobby arithmetic rests on. */
module Arith {
  lemma MulMono(a: int, b: int, k: int)
    requires k >= 0
    ensures a >= b ==> a * k >= b * k
  {
    if a >= b {
      assert a * k - b * k == (a - b) * k;
    }
  }

  lemma MulSucc(n: int, k: int)
    ensures (n + 1) * k == n * k + k
  {}

  /** The quotient of `n` by a positive `k` is pinned down by its bounds. */
  lemma DivFromBounds(n: int, k: int, q: int)
    requires k >= 1 && q * k <= n < q * k + k
    ensures n / k == q && n % k == n - q * k
  {
    var d := n / k;
    assert n == d * k + n % k;
    MulMono(d, q + 1, k);
    MulMono(q, d + 1, k);
    assert (q + 1) * k == q * k + k;
    assert (d + 1) * k == d * k + k;
  }
}

=== FILE: balancer.dfy ===
/** The WebSocket load balancer's choice of upstream
    (lib/balance/WSProxy.js): round-robin over the upstreams that are not
    marked down, a random pick, and the failover timer that marks an
    upstream down until a health check brings it back. */
module Balancer {
  import opened JsValue
  import opened Wrappers
  import opened Arith

  const RoundRobinMode := "ROUND_ROBIN"
  const RandomMode := "RANDOM"

  /** The down flag of each upstream, whether a failover timer is pending
      for it, the last round-robin index (-1 before the first pick), and
      the mode. */
  datatype Proxy = Proxy(down: seq<bool>, timers: seq<bool>, last: int, mode: string)

  ghost predicate Valid(p: Proxy) {
    && |p.timers| == |p.down|
    && -1 <= p.last
    && (|p.down| > 0 ==> p.last < |p.down|)
  }

  /** `config.mode ? config.mode : ROUND_ROBIN`; the constructor starts
      with every upstream up and no timer. */
  function Create(n: nat, mode: Js): (p: Proxy)
    ensures Valid(p) && |p.down| == n && p.last == -1
    ensures forall i :: 0 <= i < n ==> !p.down[i] && !p.timers[i]
    ensures !Truthy(mode) ==> p.mode == RoundRobinMode
    ensures mode.Str? && mode.s != "" ==> p.mode == mode.s
  {
    var m := if !Truthy(mode) then RoundRobinMode else if mode.Str? then mode.s else "";
    Proxy(seq(n, _ => false), seq(n, _ => false), -1, m)
  }

  /** One step of the round-robin index: past the end it wraps to 0. */
  function Next(i: int, n: int): int {
    if n <= i + 1 then 0 else i + 1
  }

  /** The index after `e` steps from `last`. */
  function Cursor(last: int, e: nat, n: int): (r: int)
    requires last >= -1
    ensures e == 0 ==> r == last
    ensures e >= 1 ==> 0 <= r && (n > 0 ==> r < n)
  {
    if e == 0 then last else Next(Cursor(last, e - 1, n), n)
  }

  lemma NextIsMod(a: int, n: int)
    requires n > 0 && a >= 0
    ensures Next(a % n, n) == (a + 1) % n
  {
    var q, m := a / n, a % n;
    assert a == q * n + m;
    if m + 1 < n {
      DivFromBounds(a + 1, n, q);
    } else {
      assert a + 1 == (q + 1) * n;
      DivFromBounds(a + 1, n, q + 1);
    }
  }

  /** After at least one step, the cursor is `(last + e) mod n`. */
  lemma {:induction false} CursorIsMod(last: int, e: nat, n: int)
    requires n > 0 && -1 <= last < n && e >= 1
    ensures Cursor(last, e, n) == (last + e) % n
  {
    if e == 1 {
      DivFromBounds(last + 1, n, if last + 1 == n then 1 else 0);
    } else {
      CursorIsMod(last, e - 1, n);
      NextIsMod(last + e - 1, n);
    }
  }

  /** The steps `1..n` visit every index. */
  lemma Covers(last: int, n: int, i: int) returns (e: nat)
    requires n > 0 && -1 <= last < n && 0 <= i < n
    ensures 1 <= e <= n && Cursor(last, e, n) == i
  {
    var t := i - last - 1;
    var q, m := t / n, t % n;
    assert t == q * n + m;
    e := m + 1;
    assert last + e == (-q) * n + i;
    DivFromBounds(last + e, n, -q);
    CursorIsMod(last, e, n);
  }

  lemma AllDownCoversAll(down: seq<bool>, last: int)
    requires |down| > 0 && -1 <= last < |down|
    requires forall e :: 1 <= e <= |down| ==> down[Cursor(last, e, |down|)]
    ensures forall i :: 0 <= i < |down| ==> down[i]
  {
    forall i | 0 <= i < |down| ensures down[i] {
      var e := Covers(last, |down|, i);
    }
  }

  /** The first upstream that is up among the steps `d..n` from `last`. */
  function FirstUp(down: seq<bool>, last: int, d: nat): (r: Option<int>)
    requires |down| > 0 && last >= -1 && d >= 1
    ensures r.Some? ==> exists e :: (d <= e <= |down| && r.value == Cursor(last, e, |down|) && !down[r.value]
      && forall e' :: d <= e' < e ==> down[Cursor(last, e', |down|)])
    ensures r.None? ==> forall e :: d <= e <= |down| ==> down[Cursor(last, e, |down|)]
    decreases |down| + 1 - d
  {
    if d > |down| then None
    else if !down[Cursor(last, d, |down|)] then Some(Cursor(last, d, |down|))
    else FirstUp(down, last, d + 1)
  }

  /** The round-robin pick as a definition: the first upstream that is up
      after the last index, cyclically; with every upstream down, the one
      after the last index; with no upstream, 0. */
  function RoundRobinPick(down: seq<bool>, last: int): (r: int)
    requires last >= -1
    ensures |down| == 0 ==> r == 0
    ensures |down| > 0 ==> 0 <= r < |down|
  {
    if |down| == 0 then 0
    else match FirstUp(down, last, 1)
      case Some(i) => i
      case None => Cursor(last, |down| + 1, |down|)
  }

  lemma {:induction false} FirstUpAfterDown(down: seq<bool>, last: int, d: nat)
    requires |down| > 0 && last >= -1 && 1 <= d <= |down|
    requires forall e :: 1 <= e < d ==> down[Cursor(last, e, |down|)]
    ensures FirstUp(down, last, 1) == FirstUp(down, last, d)
    decreases d
  {
    if d > 1 {
      FirstUpAfterDown(down, last, d - 1);
    }
  }

  /** While some upstream is up, the pick is up, and every upstream the
      cursor passes on the way to it is down. */
  lemma PickIsFirstUp(down: seq<bool>, last: int)
    requires -1 <= last < |down|
    requires exists i :: 0 <= i < |down| && !down[i]
    ensures var index := RoundRobinPick(down, last);
      && !down[index]
      && exists d :: 1 <= d <= |down| && index == Cursor(last, d, |down|)
           && forall e :: 1 <= e < d ==> down[Cursor(last, e, |down|)]
  {
    if FirstUp(down, last, 1).None? {
      AllDownCoversAll(down, last);
    }
  }

  /** With every upstream down, the pick is the one after the last index. */
  lemma PickWhenAllDown(down: seq<bool>, last: int)
    requires |down| > 0 && -1 <= last < |down|
    requires forall i :: 0 <= i < |down| ==> down[i]
    ensures RoundRobinPick(down, last) == (last + 1) % |down|
  {
    var n := |down|;
    assert FirstUp(down, last, 1).None?;
    CursorIsMod(last, n + 1, n);
    DivFromBounds(last + n + 1, n, if last + 1 == n then 2 else 1);
    DivFromBounds(last + 1, n, if last + 1 == n then 1 else 0);
  }

  /** `_getRoundRobinServer`: the loop steps the index from the last one
      and stops at the first upstream that is up, or once it has seen every
      upstream down, one step further. */
  method RoundRobin(down: seq<bool>, last: int) returns (index: int)
    requires -1 <= last && (|down| > 0 ==> last < |down|)
    ensures index == RoundRobinPick(down, last)
  {
    var n := |down|;
    index := last;
    var cycles := 0;
    while true
      invariant 0 <= cycles <= n
      invariant index == Cursor(last, cycles, n)
      invariant forall e :: 1 <= e <= cycles ==> down[Cursor(last, e, n)]
      decreases n - cycles
    {
      index := index + 1;
      if n <= index {
        index := 0;
      }
      assert index == Cursor(last, cycles + 1, n);
      if cycles >= n {
        if n > 0 {
          FirstUpAfterDown(down, last, n);
        }
        return;
      }
      if !down[index] {
        FirstUpAfterDown(down, last, cycles + 1);
        return;
      }
      cycles := cycles + 1;
    }
  }

  /** `_getRandomServer` given the draw `Math.floor(Math.random() * n)`: the
      drawn upstream if it is up, otherwise upstream 0, whether or not it is
      up. Without upstreams, reading the drawn one throws. */
  function RandomPick(down: seq<bool>, draw: int): (r: Result<int>)
    requires |down| > 0 ==> 0 <= draw < |down|
    ensures r.Err? <==> |down| == 0
    ensures r.Ok? ==> 0 <= r.value < |down|
    ensures r.Ok? && !down[draw] ==> r.value == draw
    ensures r.Ok? && down[draw] ==> r.value == 0
  {
    if |down| == 0 then Err("TypeError: cannot read property 'options' of undefined")
    else if !down[draw] then Ok(draw) else Ok(0)
  }

  /** `_getNextServer`: RANDOM picks at random; every other mode is
      round-robin, which remembers its pick. */
  method NextServer(p: Proxy, draw: int) returns (r: Result<(Proxy, int)>)
    requires Valid(p)
    requires |p.down| > 0 ==> 0 <= draw < |p.down|
    ensures r.Ok? ==> Valid(r.value.0) && r.value.0.down == p.down && r.value.0.timers == p.timers
    ensures p.mode == RandomMode ==> r == (match RandomPick(p.down, draw) case Err(e) => Err(e) case Ok(i) => Ok((p, i)))
    ensures p.mode != RandomMode ==> r.Ok? && r.value.1 == RoundRobinPick(p.down, p.last) && r.value.0 == p.(last := r.value.1)
  {
    if p.mode == RandomMode {
      match RandomPick(p.down, draw)
      case Err(e) => r := Err(e);
      case Ok(i) => r := Ok((p, i));
    } else {
      var i := RoundRobin(p.down, p.last);
      r := Ok((p.(last := i), i));
    }
  }

  /** Successive round-robin picks over upstreams that are all up visit
      them in turn. */
  lemma RoundRobinTakesTurns(down: seq<bool>, last: int)
    requires |down| > 0 && -1 <= last < |down|
    requires forall i :: 0 <= i < |down| ==> !down[i]
    ensures RoundRobinPick(down, last) == Next(last, |down|)
  {
    assert !down[Cursor(last, 1, |down|)];
  }

  /** `_startFailoverTimer(index)`: nothing while a timer is pending for
      the upstream; otherwise the upstream is marked down and a timer is
      set. */
  function StartFailover(p: Proxy, index: int): (r: Proxy)
    requires Valid(p) && 0 <= index < |p.down|
    ensures Valid(r) && r.last == p.last && r.mode == p.mode
    ensures p.timers[index] ==> r == p
    ensures !p.timers[index] ==> r.down == p.down[index := true] && r.timers == p.timers[index := true]
  {
    if p.timers[index] then p
    else p.(down := p.down[index := true], timers := p.timers[index := true])
  }

  /** The health check at the end of the timer: the timer is cleared; an
      upstream that answered 200 is up again, any other is marked down and
      a new timer is started. */
  function CheckBack(p: Proxy, index: int, answered200: bool): (r: Proxy)
    requires Valid(p) && 0 <= index < |p.down|
    ensures Valid(r) && |r.down| == |p.down| && r.last == p.last && r.mode == p.mode
    ensures answered200 ==> !r.down[index] && !r.timers[index]
    ensures !answered200 ==> r.down[index] && r.timers[index]
    ensures forall i :: 0 <= i < |p.down| && i != index ==> r.down[i] == p.down[i] && r.timers[i] == p.timers[i]
  {
    var cleared := p.(timers := p.timers[index := false]);
    if answered200 then cleared.(down := cleared.down[index := false])
    else StartFailover(cleared.(down := cleared.down[index := true]), index)
  }

  /** Errors while a timer is pending do not stack timers: starting the
      failover twice is starting it once, and the upstream is down after
      either. */
  lemma FailoverIdempotent(p: Proxy, index: int)
    requires Valid(p) && 0 <= index < |p.down|
    ensures StartFailover(StartFailover(p, index), index) == StartFailover(p, index)
    ensures StartFailover(p, index).timers[index]
    ensures !p.timers[index] ==> StartFailover(p, index).down[index]
  {}

  /** While another upstream is up, round-robin skips an upstream whose
      failover has started. */
  lemma FailedUpstreamSkipped(p: Proxy, index: int, other: int)
    requires Valid(p) && 0 <= index < |p.down| && !p.timers[index]
    requires 0 <= other < |p.down| && other != index && !p.down[other]
    ensures RoundRobinPick(StartFailover(p, index).down, p.last) != index
  {
    var down := StartFailover(p, index).down;
    assert !down[other];
    if FirstUp(down, p.last, 1).None? {
      AllDownCoversAll(down, p.last);
    }
  }
}

=== FILE: cells.dfy ===
/** The spatial group layer (lib/VectorGroupServer.js): the world is cut
    into square cells of `gridSize` units, one group per cell; a client's
    position updates move it between cell groups and are relayed to the
    other clients of its cell. A client's current cell is a map from client
    id to cell id. */
module Cells {
  import opened JsValue
  import opened Wrappers
  import opened Seqs
  import opened Arith
  import opened Groups
  import opened GroupHandler
  import opened Wire
  import opened Vectors
  import GP = GroupProtocol
  import GM = GroupManager

  const Internal := "internal"
  const PositionHeader := "VGS:POSITION"
  const BroadcastHeader := "VGS:BROADCAST"
  const DefaultGridSize := 6
  const NoCell := "client is in no current cell, cannot broadcast"
  const NotAnObject := "broadcastUpdate content must be an object."

  /** `config.gridSize || 6`. */
  function GridSize(configured: Option<int>): (g: int)
    ensures g != 0
    ensures configured.None? || configured == Some(0) ==> g == DefaultGridSize
    ensures configured.Some? && configured.value != 0 ==> g == configured.value
  {
    if configured.None? || configured.value == 0 then DefaultGridSize else configured.value
  }

  // Preheating.

  /** The k-th cell the preheating loops visit: x outer, y inner, both over
      `0..side-1`. */
  function CellOf(k: int, side: int): V3
    requires side > 0
  {
    V3(k / side, k % side, 0)
  }

  /** The world position the loops build for the k-th cell. */
  function WorldPoint(k: int, g: int, unity: bool): V3
    requires g > 0
  {
    var c := CellOf(k, g + 1);
    if unity then V3(c.x * g, 0, c.y * g) else V3(c.x * g, c.y * g, 0)
  }

  function CellIdAt(k: int, g: int): string
    requires g > 0
  {
    VectorId(CellOf(k, g + 1))
  }

  /** The loops visit the cell (x, y) at step `x * side + y`. */
  lemma CellOfStep(x: int, y: int, side: int)
    requires side > 0 && 0 <= y < side
    ensures CellOf(x * side + y, side) == V3(x, y, 0)
  {
    DivFromBounds(x * side + y, side, x);
  }

  /** The world position of a step converts back to the step's cell. */
  lemma WorldPointCell(k: int, g: int, unity: bool)
    requires g > 0 && g % 2 == 0
    ensures WorldToGrid(WorldPoint(k, g, unity), g, unity) == Ok(CellOf(k, g + 1))
  {
    GridRoundTrip(CellOf(k, g + 1), g, unity);
  }

  /** Distinct steps visit distinct cells. */
  lemma CellIdsDistinct(j: nat, k: nat, g: int)
    requires g > 0 && j != k
    ensures CellIdAt(j, g) != CellIdAt(k, g)
  {
    StepsDistinct(j, k, g + 1);
    IdInjective(CellOf(j, g + 1), CellOf(k, g + 1));
  }

  lemma StepsDistinct(j: nat, k: nat, side: int)
    requires side > 0 && j != k
    ensures CellOf(j, side) != CellOf(k, side)
  {
    var qj, rj, qk, rk := j / side, j % side, k / side, k % side;
    assert j == qj * side + rj;
    assert k == qk * side + rk;
  }

  datatype Preheated = Preheated(store: Store, cells: map<string, string>, out: seq<Out>)

  /** The groups created by steps `k..`, each drawing `uuids[k]`. */
  function HeatStore(st: Store, uuids: seq<string>, k: nat, now: int): (r: Store)
    requires Valid(st) && k <= |uuids|
    ensures Valid(r) && r.lists == st.lists
    ensures forall j :: k <= j < |uuids| ==> GM.Lookup(r.directory, GroupKey(uuids[j])) == Some(GM.Encoded(CreatedInfo(now)))
    ensures forall key :: (forall j :: k <= j < |uuids| ==> key != GroupKey(uuids[j])) ==>
      GM.Lookup(r.directory, key) == GM.Lookup(st.directory, key)
    decreases |uuids| - k
  {
    if k == |uuids| then st
    else HeatStore(CreateGroupInstance(st, uuids[k], now).0, uuids, k + 1, now)
  }

  /** The key step `k` stores: the id of the grid cell its world position
      converts to, which is the step's own cell. */
  function HeatKey(k: int, g: int, unity: bool): (key: string)
    requires g > 0 && g % 2 == 0
    ensures key == CellIdAt(k, g)
  {
    WorldPointCell(k, g, unity);
    VectorId(WorldToGrid(WorldPoint(k, g, unity), g, unity).value)
  }

  /** The keys the loops store, one per step. */
  function HeatKeys(g: int, unity: bool, n: nat): (ks: seq<string>)
    requires g > 0 && g % 2 == 0
    ensures |ks| == n && forall j :: 0 <= j < n ==> ks[j] == CellIdAt(j, g)
  {
    seq(n, j => HeatKey(j, g, unity))
  }

  lemma HeatKeysDistinct(g: int, unity: bool, n: nat)
    requires g > 0 && g % 2 == 0
    ensures NoDup(HeatKeys(g, unity, n))
  {
    var ks := HeatKeys(g, unity, n);
    forall i, j | 0 <= i < j < n ensures ks[i] != ks[j] {
      CellIdsDistinct(i, j, g);
    }
  }

  /** `m` with `keys[j]` mapped to `vals[j]` for each step `j` from `k`. */
  function AssignFrom<K(!new), V>(m: map<K, V>, keys: seq<K>, vals: seq<V>, k: nat): (r: map<K, V>)
    requires |keys| == |vals| && k <= |keys| && NoDup(keys)
    ensures forall key :: key in r <==> key in m || key in keys[k..]
    ensures forall j :: k <= j < |keys| ==> r[keys[j]] == vals[j]
    ensures forall key :: key in m && key !in keys[k..] ==> r[key] == m[key]
    decreases |keys| - k
  {
    if k == |keys| then m
    else
      assert keys[k..] == [keys[k]] + keys[k + 1..];
      AssignFrom(m[keys[k] := vals[k]], keys, vals, k + 1)
  }

  /** The cell map after steps `k..`: each maps the id of the cell its
      world position falls in to the step's group. */
  function HeatCells(cells: map<string, string>, g: int, unity: bool, uuids: seq<string>, k: nat): (r: map<string, string>)
    requires g > 0 && g % 2 == 0 && k <= |uuids|
    ensures forall key :: key in r <==> key in cells || key in HeatKeys(g, unity, |uuids|)[k..]
    ensures forall j :: k <= j < |uuids| ==> CellIdAt(j, g) in r && r[CellIdAt(j, g)] == GroupKey(uuids[j])
    ensures forall key :: key in cells && key !in HeatKeys(g, unity, |uuids|)[k..] ==> r[key] == cells[key]
  {
    HeatKeysDistinct(g, unity, |uuids|);
    var keys := HeatKeys(g, unity, |uuids|);
    AssignFrom(cells, keys, seq(|uuids|, j requires 0 <= j < |uuids| => GroupKey(uuids[j])), k)
  }

  /** The `create` event of each step's group. */
  function HeatEvents(uuids: seq<string>, k: nat): (r: seq<Out>)
    requires k <= |uuids|
    ensures |r| == |uuids| - k
    ensures forall j :: 0 <= j < |r| ==> r[j] == Event("group", "create", None, GroupKey(uuids[k + j]))
    decreases |uuids| - k
  {
    if k == |uuids| then [] else [Event("group", "create", None, GroupKey(uuids[k]))] + HeatEvents(uuids, k + 1)
  }

  /** Steps `k..` of the preheating loops: each creates a group without a
      client and maps its cell's id to it. */
  function Heat(st: Store, cells: map<string, string>, g: int, unity: bool, uuids: seq<string>, k: nat, now: int)
    : (r: Preheated)
    requires Valid(st) && g > 0 && g % 2 == 0 && k <= |uuids|
  {
    Preheated(HeatStore(st, uuids, k, now), HeatCells(cells, g, unity, uuids, k), HeatEvents(uuids, k))
  }

  /** The number of cells the loops visit: `(g + 1)^2`, none for a negative
      grid size. */
  function CellCount(g: int): nat {
    if g < 0 then 0 else (g + 1) * (g + 1)
  }

  /** `_preheatGroups` on an empty cell map: the first step of an odd grid
      size throws before any group is created. */
  function Preheat(st: Store, g: int, unity: bool, uuids: seq<string>, now: int): (r: Result<Preheated>)
    requires Valid(st) && g != 0 && |uuids| == CellCount(g)
    ensures r.Err? <==> g > 0 && g % 2 != 0
    ensures r.Ok? ==> Valid(r.value.store) && r.value.store.lists == st.lists
    ensures r.Ok? && g < 0 ==> r.value == Preheated(st, map[], [])
    ensures r.Ok? ==> |r.value.out| == CellCount(g)
  {
    if g < 0 then Ok(Preheated(st, map[], []))
    else if g % 2 != 0 then Err(OddGrid)
    else Ok(Heat(st, map[], g, unity, uuids, 0, now))
  }

  /** The step at which the loops visit cell `(x, y)`. */
  function Step(x: int, y: int, g: int): int {
    x * (g + 1) + y
  }

  lemma StepOfCell(x: int, y: int, g: int)
    requires g > 0 && 0 <= x <= g && 0 <= y <= g
    ensures 0 <= Step(x, y, g) < CellCount(g) && CellIdAt(Step(x, y, g), g) == VectorId(V3(x, y, 0))
  {
    CellOfStep(x, y, g + 1);
    MulMono(g, x, g + 1);
    MulMono(x, 0, g + 1);
    assert (g + 1) * (g + 1) == g * (g + 1) + g + 1;
  }

  /** Every grid cell `(x, y)` with x and y in `[0, gridSize]` gets the
      group created at its step, and that group is registered. */
  lemma PreheatCoversGrid(st: Store, g: int, unity: bool, uuids: seq<string>, now: int, x: int, y: int)
    requires Valid(st) && g > 0 && g % 2 == 0 && |uuids| == CellCount(g)
    requires 0 <= x <= g && 0 <= y <= g
    ensures 0 <= Step(x, y, g) < |uuids|
    ensures var r := Preheat(st, g, unity, uuids, now);
      var id := VectorId(V3(x, y, 0));
      && r.Ok?
      && id in r.value.cells && r.value.cells[id] == GroupKey(uuids[Step(x, y, g)])
      && GM.Lookup(r.value.store.directory, r.value.cells[id]) == Some(GM.Encoded(CreatedInfo(now)))
  {
    StepOfCell(x, y, g);
  }

  /** The cell map holds nothing but the grid's cells. */
  lemma PreheatOnlyGrid(st: Store, g: int, unity: bool, uuids: seq<string>, now: int, id: string)
    requires Valid(st) && g > 0 && g % 2 == 0 && |uuids| == CellCount(g)
    requires id in Preheat(st, g, unity, uuids, now).value.cells
    ensures exists x, y :: 0 <= x <= g && 0 <= y <= g && id == VectorId(V3(x, y, 0))
  {
    var cells := HeatCells(map[], g, unity, uuids, 0);
    var keys := HeatKeys(g, unity, |uuids|);
    assert id in keys[0..];
    var j :| 0 <= j < |uuids| && id == keys[j];
    var c := CellOf(j, g + 1);
    StepInGrid(j, g);
    assert id == VectorId(V3(c.x, c.y, 0));
  }

  lemma StepInGrid(j: nat, g: int)
    requires g > 0 && j < CellCount(g)
    ensures 0 <= CellOf(j, g + 1).x <= g && 0 <= CellOf(j, g + 1).y <= g
  {
    var side := g + 1;
    var q, r := j / side, j % side;
    assert j == q * side + r;
    if q > g {
      MulMono(q, side, side);
    }
  }

  // Position updates.

  /** `content` with `from`, `type` and `header` set, as relayed. */
  function Stamped(content: map<string, Js>, c: string, header: string): (m: Js)
    ensures m.Obj? && Prop(m, "from") == Str(c) && Prop(m, "type") == Str(Internal) && Prop(m, "header") == Str(header)
    ensures forall k :: k in content && k !in {"from", "type", "header"} ==> Prop(m, k) == content[k]
  {
    Obj(content["from" := Str(c)]["type" := Str(Internal)]["header" := Str(header)])
  }

  datatype Moved = Moved(store: Store, current: map<string, string>, out: seq<Out>)

  /** The group of the cell a position falls in; throws for an odd grid
      size and for a cell without a (truthy) group id. */
  function CellGroup(cells: map<string, string>, g: int, unity: bool, pos: V3): (r: Result<(string, string)>)
    requires g != 0
    ensures r.Err? <==> (g % 2 != 0 || VectorId(WorldToGrid(pos, g, unity).value) !in cells
      || cells[VectorId(WorldToGrid(pos, g, unity).value)] == "")
    ensures r.Ok? ==> r.value.0 == VectorId(WorldToGrid(pos, g, unity).value) && r.value.1 == cells[r.value.0] && r.value.1 != ""
  {
    match WorldToGrid(pos, g, unity)
    case Err(e) => Err(e)
    case Ok(cell) =>
      var id := VectorId(cell);
      if id !in cells || cells[id] == "" then Err("a group is missing for id: " + id)
      else Ok((id, cells[id]))
  }

  /** The previous cell's group, when the stored cell is truthy and mapped to a
      truthy group id. */
  function OldGroup(cells: map<string, string>, cell: Option<string>): (r: Option<string>)
    ensures r.Some? <==> cell.Some? && cell.value != "" && cell.value in cells && cells[cell.value] != ""
    ensures r.Some? ==> r.value == cells[cell.value]
  {
    if cell.Some? && cell.value != "" && cell.value in cells && cells[cell.value] != "" then Some(cells[cell.value])
    else None
  }

  /** The field `worldToGridCoordinates` reads as the grid's second axis:
      Unity's ground plane is x/z. */
  function GroundAxis(unity: bool): string {
    if unity then "z" else "y"
  }

  function NumOr0(v: Js): int {
    if v.Num? then v.n else 0
  }

  /** `content.position` read as a world position. A nullish `content` or
      `content.position` throws a TypeError. Only x and the ground axis are
      read; a non-number there yields a NaN cell coordinate, for which no
      cell group exists, so it throws too. The third axis is never read and
      may hold anything. */
  function PositionOf(content: Js, unity: bool): (r: Option<V3>)
    ensures r.Some? <==>
      && content.Obj? && Prop(content, "position").Obj?
      && Prop(Prop(content, "position"), "x").Num? && Prop(Prop(content, "position"), GroundAxis(unity)).Num?
    ensures r.Some? ==> Prop(Prop(content, "position"), "x") == Num(r.value.x)
    ensures r.Some? && !unity ==> Prop(Prop(content, "position"), "y") == Num(r.value.y)
    ensures r.Some? && unity ==> Prop(Prop(content, "position"), "z") == Num(r.value.z)
    ensures content.Obj? && IsVector(Prop(content, "position")) ==> r == Some(FromJs(Prop(content, "position")))
  {
    var pos := Prop(content, "position");
    if content.Obj? && pos.Obj? && Prop(pos, "x").Num? && Prop(pos, GroundAxis(unity)).Num? then
      Some(V3(Prop(pos, "x").n, NumOr0(Prop(pos, "y")), NumOr0(Prop(pos, "z"))))
    else None
  }

  /** A planar position without the unused axis still finds its cell: in
      the x/y plane, `{x: 1, y: 2}` is read as a position. */
  lemma PlanarPositionAccepted(content: Js)
    requires content == Obj(map["position" := Obj(map["x" := Num(1), "y" := Num(2)])])
    ensures PositionOf(content, false) == Some(V3(1, 2, 0))
    ensures PositionOf(content, true).None?
  {}

  /** `__positionUpdate`, the previous group left with `correctLeave` choosing its
      `groupId`. The cell comes from `content.position`. On a cell switch the
      client joins the new group, leaves the previous one, and the update
      goes to the new group (half a second later, so after both); otherwise
      it goes to the current group. The sender is never a recipient. */
  function Move(st: Store, env: GP.Env, cells: map<string, string>, current: map<string, string>, g: int, unity: bool,
                c: string, content: Js, header: string, correctLeave: bool): (r: Result<Moved>)
    requires Valid(st) && g != 0
    ensures r.Err? <==> PositionOf(content, unity).None? || CellGroup(cells, g, unity, PositionOf(content, unity).value).Err?
    ensures r.Ok? ==> Valid(r.value.store) && content.Obj?
    ensures r.Ok? ==> r.value.current == current[c := CellGroup(cells, g, unity, PositionOf(content, unity).value).value.0]
    ensures r.Ok? ==> var (id, group) := CellGroup(cells, g, unity, PositionOf(content, unity).value).value;
      && r.value.out != []
      && r.value.out[|r.value.out| - 1] == SendList(GP.Recipients(r.value.store, group, Some(c)), header, Payload(Stamped(content.fields, c, header)))
      && (c in current && current[c] == id ==> r.value.store == st)
  {
    match PositionOf(content, unity)
    case None => Err("TypeError: cannot read the coordinates of content.position")
    case Some(pos) =>
      match CellGroup(cells, g, unity, pos)
      case Err(e) => Err(e)
      case Ok((id, group)) =>
        var delivery := Payload(Stamped(content.fields, c, header));
        var cell := if c in current then Some(current[c]) else None;
        if cell == Some(id) then
          Ok(Moved(st, current[c := id], [GP.BroadcastToGroup(st, group, header, delivery, Some(c))]))
        else
          var joined := GP.Join(st, env, c, Str(group), GP.JoinHeader);
          var prev := OldGroup(cells, cell);
          var left :=
            if prev.None? then joined
            else GP.Leave(joined.store, env, c, if correctLeave then Str(prev.value) else Undefined, GP.LeaveHeader, true);
          var out := joined.out + (if prev.None? then [] else left.out);
          Ok(Moved(left.store, current[c := id], out + [GP.BroadcastToGroup(left.store, group, header, delivery, Some(c))]))
  }

  /** The client switches from a cell mapped to a group into another cell. */
  predicate Switches(cells: map<string, string>, current: map<string, string>, g: int, unity: bool, c: string, content: Js)
    requires g != 0
  {
    && PositionOf(content, unity).Some?
    && CellGroup(cells, g, unity, PositionOf(content, unity).value).Ok?
    && c in current && current[c] != CellGroup(cells, g, unity, PositionOf(content, unity).value).value.0
    && OldGroup(cells, Some(current[c])).Some?
  }

  /** The handler as written: the previous group is left with `{oldGroupId}`,
      which has no `groupId`, so every switch out of a mapped cell draws the
      "missing groupId" reply. */
  function PositionUpdateAsWritten(st: Store, env: GP.Env, cells: map<string, string>, current: map<string, string>, g: int,
                                   unity: bool, c: string, content: Js, header: string): (r: Result<Moved>)
    requires Valid(st) && g != 0
    ensures r.Err? <==> PositionOf(content, unity).None? || CellGroup(cells, g, unity, PositionOf(content, unity).value).Err?
    ensures r.Ok? && Switches(cells, current, g, unity, c, content) ==> GP.MissingReply(c, GP.LeaveHeader) in r.value.out
  {
    var r := Move(st, env, cells, current, g, unity, c, content, header, false);
    if r.Ok? && Switches(cells, current, g, unity, c, content) then
      MoveReportsMissingId(st, env, cells, current, g, unity, c, content, header);
      r
    else r
  }

  /** The handler with the previous group left by its id: the leave names
      the group, so no reply says the id is missing. */
  function PositionUpdate(st: Store, env: GP.Env, cells: map<string, string>, current: map<string, string>, g: int,
                          unity: bool, c: string, content: Js, header: string): (r: Result<Moved>)
    requires Valid(st) && g != 0
    ensures r.Err? <==> PositionOf(content, unity).None? || CellGroup(cells, g, unity, PositionOf(content, unity).value).Err?
    ensures r.Ok? ==> GP.MissingReply(c, GP.LeaveHeader) !in r.value.out
  {
    var r := Move(st, env, cells, current, g, unity, c, content, header, true);
    if r.Ok? then
      MoveNamesGroups(st, env, cells, current, g, unity, c, content, header);
      r
    else r
  }

  /** As written, a switch out of a mapped cell leaves with no group id. */
  lemma MoveReportsMissingId(st: Store, env: GP.Env, cells: map<string, string>, current: map<string, string>, g: int,
                             unity: bool, c: string, content: Js, header: string)
    requires Valid(st) && g != 0 && Switches(cells, current, g, unity, c, content)
    ensures var r := Move(st, env, cells, current, g, unity, c, content, header, false);
      r.Ok? && GP.MissingReply(c, GP.LeaveHeader) in r.value.out
  {
    var (id, group) := CellGroup(cells, g, unity, PositionOf(content, unity).value).value;
    MoveSwitch(st, env, cells, current, g, unity, c, content, header, false, id, group, OldGroup(cells, Some(current[c])).value);
    var joined := GP.Join(st, env, c, Str(group), GP.JoinHeader);
    var stay := GP.Leave(joined.store, env, c, Undefined, GP.LeaveHeader, true);
    assert stay.out == [GP.MissingReply(c, GP.LeaveHeader)];
    assert (joined.out + stay.out)[|joined.out|] == GP.MissingReply(c, GP.LeaveHeader);
  }

  /** The corrected handler joins and leaves by non-empty group ids, so
      neither answers that the id is missing. */
  lemma MoveNamesGroups(st: Store, env: GP.Env, cells: map<string, string>, current: map<string, string>, g: int,
                        unity: bool, c: string, content: Js, header: string)
    requires Valid(st) && g != 0
    ensures var r := Move(st, env, cells, current, g, unity, c, content, header, true);
      r.Ok? ==> GP.MissingReply(c, GP.LeaveHeader) !in r.value.out
  {
    var r := Move(st, env, cells, current, g, unity, c, content, header, true);
    if r.Ok? {
      var (id, group) := CellGroup(cells, g, unity, PositionOf(content, unity).value).value;
      var cell := if c in current then Some(current[c]) else None;
      var joined := GP.Join(st, env, c, Str(group), GP.JoinHeader);
      var prev := OldGroup(cells, cell);
      if cell != Some(id) && prev.Some? {
        GP.NamedGroupNoMissingReply(st, env, c, group, GP.JoinHeader, GP.LeaveHeader, true);
        GP.NamedGroupNoMissingReply(joined.store, env, c, prev.value, GP.LeaveHeader, GP.LeaveHeader, true);
      } else if cell != Some(id) {
        GP.NamedGroupNoMissingReply(st, env, c, group, GP.JoinHeader, GP.LeaveHeader, true);
      }
    }
  }

  /** Joining one registered group and then leaving another keeps the
      client in the first and takes it out of the second. */
  lemma JoinThenLeave(st: Store, env: GP.Env, c: string, group: string, prev: string)
    requires Valid(st) && group != prev && c != group && c != prev && c in List(st, prev)
    requires group != "" && prev != ""
    requires GP.Registered(st, env.decode, group) && GP.Registered(st, env.decode, prev)
    ensures var joined := GP.Join(st, env, c, Str(group), GP.JoinHeader);
      && c in List(joined.store, group) && c in List(joined.store, prev)
      && var left := GP.Leave(joined.store, env, c, Str(prev), GP.LeaveHeader, true);
        c in List(left.store, group) && c !in List(left.store, prev)
  {
    var joined := GP.Join(st, env, c, Str(group), GP.JoinHeader);
    assert List(joined.store, prev) == List(st, prev);
    assert GP.Registered(joined.store, env.decode, prev);
    var left := GP.Leave(joined.store, env, c, Str(prev), GP.LeaveHeader, true);
    assert List(left.store, group) == List(joined.store, group);
  }

  /** A cell switch from a mapped previous cell is a join of the new
      group, a leave, and the broadcast to the new group, in that order. */
  lemma MoveSwitch(st: Store, env: GP.Env, cells: map<string, string>, current: map<string, string>, g: int,
                   unity: bool, c: string, content: Js, header: string, correctLeave: bool,
                   id: string, group: string, prev: string)
    requires Valid(st) && g != 0 && PositionOf(content, unity).Some? && CellGroup(cells, g, unity, PositionOf(content, unity).value) == Ok((id, group))
    requires c in current && current[c] != id && OldGroup(cells, Some(current[c])) == Some(prev)
    ensures var joined := GP.Join(st, env, c, Str(group), GP.JoinHeader);
      var left := GP.Leave(joined.store, env, c, if correctLeave then Str(prev) else Undefined, GP.LeaveHeader, true);
      var r := Move(st, env, cells, current, g, unity, c, content, header, correctLeave);
      && r.Ok? && r.value.store == left.store
      && r.value.out == joined.out + left.out + [GP.BroadcastToGroup(left.store, group, header, Payload(Stamped(content.fields, c, header)), Some(c))]
  {}

  /** Moving from a registered cell group into another, the corrected
      handler joins the new group and leaves the previous one. */
  lemma SwitchLeavesOldCell(st: Store, env: GP.Env, cells: map<string, string>, current: map<string, string>, g: int,
                            unity: bool, c: string, content: Js, header: string,
                            id: string, group: string, prev: string)
    requires Valid(st) && g != 0 && PositionOf(content, unity).Some? && CellGroup(cells, g, unity, PositionOf(content, unity).value) == Ok((id, group))
    requires c in current && current[c] != id && OldGroup(cells, Some(current[c])) == Some(prev)
    requires prev != group && c != group && c != prev && c in List(st, prev)
    requires GP.Registered(st, env.decode, group) && GP.Registered(st, env.decode, prev)
    ensures var fixed := PositionUpdate(st, env, cells, current, g, unity, c, content, header);
      fixed.Ok? && c in List(fixed.value.store, group) && c !in List(fixed.value.store, prev)
  {
    MoveSwitch(st, env, cells, current, g, unity, c, content, header, true, id, group, prev);
    JoinThenLeave(st, env, c, group, prev);
  }

  /** The same move through the handler as written: the client joins the
      new group, stays in the previous one, and the leave is answered with
      "missing groupId". */
  lemma SwitchStaysAsWritten(st: Store, env: GP.Env, cells: map<string, string>, current: map<string, string>, g: int,
                             unity: bool, c: string, content: Js, header: string,
                             id: string, group: string, prev: string)
    requires Valid(st) && g != 0 && PositionOf(content, unity).Some? && CellGroup(cells, g, unity, PositionOf(content, unity).value) == Ok((id, group))
    requires c in current && current[c] != id && OldGroup(cells, Some(current[c])) == Some(prev)
    requires prev != group && c != group && c != prev && c in List(st, prev)
    requires GP.Registered(st, env.decode, group) && GP.Registered(st, env.decode, prev)
    ensures var written := PositionUpdateAsWritten(st, env, cells, current, g, unity, c, content, header);
      && written.Ok? && c in List(written.value.store, group) && c in List(written.value.store, prev)
      && GP.MissingReply(c, GP.LeaveHeader) in written.value.out
  {
    MoveSwitch(st, env, cells, current, g, unity, c, content, header, false, id, group, prev);
    JoinThenLeave(st, env, c, group, prev);
    var joined := GP.Join(st, env, c, Str(group), GP.JoinHeader);
    var stay := GP.Leave(joined.store, env, c, Undefined, GP.LeaveHeader, true);
    assert stay == GP.Step(joined.store, [GP.MissingReply(c, GP.LeaveHeader)]);
    assert (joined.out + stay.out)[|joined.out|] == GP.MissingReply(c, GP.LeaveHeader);
  }

  /** A position update never relays the update back to its sender. */
  lemma UpdateSkipsSender(st: Store, env: GP.Env, cells: map<string, string>, current: map<string, string>, g: int,
                          unity: bool, c: string, content: Js, header: string)
    requires Valid(st) && g != 0 && c != ""
    requires PositionUpdate(st, env, cells, current, g, unity, c, content, header).Ok?
    ensures var r := PositionUpdate(st, env, cells, current, g, unity, c, content, header).value;
      c !in r.out[|r.out| - 1].recipients
  {}

  /** `__broadcastUpdate`: content that is not an object throws; a client
      with a current cell mapped to a group reaches the group's other
      members; otherwise the client alone gets an error and no group is
      sent anything. An array's added properties do not survive
      serialisation, so an array is relayed as it is. */
  function BroadcastUpdate(st: Store, cells: map<string, string>, current: map<string, string>, c: string, content: Js,
                           header: string): (r: Result<seq<Out>>)
    ensures r.Err? <==> !(Truthy(content) && TypeOf(content) == "object")
    ensures r.Ok? ==> |r.value| == 1
    ensures r.Ok? && c in current && current[c] != "" && OldGroup(cells, Some(current[c])).Some? ==>
      var group := cells[current[c]];
      && r.value[0].SendList? && r.value[0].recipients == GP.Recipients(st, group, Some(c))
      && r.value[0].header == header
      && (content.Obj? ==> r.value[0].body == Payload(Obj(content.fields["from" := Str(c)]["group" := Str(group)]["type" := Str(Internal)]["header" := Str(header)])))
    ensures r.Ok? && !(c in current && OldGroup(cells, Some(current[c])).Some?) ==>
      r.value == [Send(c, BroadcastHeader, Error(NoCell))]
  {
    if !Truthy(content) || TypeOf(content) != "object" then Err(NotAnObject)
    else
      var cell := if c in current then Some(current[c]) else None;
      match OldGroup(cells, cell)
      case None => Ok([Send(c, BroadcastHeader, Error(NoCell))])
      case Some(group) =>
        var stamped := if content.Obj?
          then Obj(content.fields["from" := Str(c)]["group" := Str(group)]["type" := Str(Internal)]["header" := Str(header)])
          else content;
        Ok([GP.BroadcastToGroup(st, group, header, Payload(stamped), Some(c))])
  }

  /** A client without a mapped cell reaches nobody but itself. */
  lemma BroadcastWithoutCellReachesNobody(st: Store, cells: map<string, string>, c: string, content: Js, header: string)
    requires Truthy(content) && TypeOf(content) == "object"
    ensures var r := BroadcastUpdate(st, cells, map[], c, content, header);
      r.Ok? && forall o :: o in r.value ==> !o.SendList? && o.to == c
  {}
}

=== FILE: confirmation.dfy ===
/** Match confirmations (lib/groups/MatchMakingConfirmation.js): for each
    freshly matched group, a Redis list under `"mmc:" + groupId` of the
    clients that confirmed, each at most once, with a 120-second expiry.
    Times are milliseconds. */
module Confirmation {
  import opened Wrappers
  import opened Seqs

  const ExpireSeconds := 120
  const ExpireMs := ExpireSeconds * 1000

  /** The record key of a group. */
  function Key(groupId: string): (k: string)
    ensures |k| == |groupId| + 4 && k[..4] == "mmc:" && k[4..] == groupId
  {
    "mmc:" + groupId
  }

  /** The `mmc:` lists, and for those with a TTL the time they expire at. */
  datatype Records = Records(lists: map<string, seq<string>>, expiresAt: map<string, int>)

  /** The key exists at time `now`: it was written and has not expired. */
  predicate Live(m: Records, key: string, now: int) {
    key in m.lists && !(key in m.expiresAt && m.expiresAt[key] <= now)
  }

  /** `list()`: the confirmers of `groupId` at time `now`, newest first. */
  function View(m: Records, groupId: string, now: int): (r: seq<string>)
    ensures Live(m, Key(groupId), now) ==> r == m.lists[Key(groupId)]
    ensures !Live(m, Key(groupId), now) ==> r == [] && forall t :: t >= now ==> !Live(m, Key(groupId), t)
  {
    var key := Key(groupId);
    if Live(m, key, now) then m.lists[key] else []
  }

  /** `size()`: LLEN, zero for a missing or expired key. */
  function Size(m: Records, groupId: string, now: int): (n: nat)
    ensures n == 0 <==> !Live(m, Key(groupId), now) || m.lists[Key(groupId)] == []
    ensures n == |View(m, groupId, now)|
  {
    |View(m, groupId, now)|
  }

  /** `push(clientId)`: rejected when the client already confirmed;
      otherwise the client is prepended. A live key keeps its expiry; an
      expired one starts over as a new list without one. */
  function Push(m: Records, groupId: string, c: string, now: int): (r: (Records, Result<()>))
    ensures c in View(m, groupId, now) ==> r.0 == m && r.1.Err?
    ensures c !in View(m, groupId, now) ==>
      && r.1.Ok?
      && View(r.0, groupId, now) == [c] + View(m, groupId, now)
      && Size(r.0, groupId, now) == Size(m, groupId, now) + 1
    ensures c !in View(m, groupId, now) ==> forall t :: t >= now ==>
      View(r.0, groupId, t) ==
        (if Live(m, Key(groupId), now) && !Live(m, Key(groupId), t) then [] else [c] + View(m, groupId, now))
    ensures forall g :: Key(g) != Key(groupId) ==> forall t :: View(r.0, g, t) == View(m, g, t)
  {
    var key := Key(groupId);
    var l := View(m, groupId, now);
    if c in l then (m, Err(c + " is already a part of mmc " + key))
    else
      var expiry := if Live(m, key, now) then m.expiresAt else m.expiresAt - {key};
      (Records(m.lists[key := [c] + l], expiry), Ok(()))
  }

  /** `expire()`: EXPIRE key 120. A missing key is left alone. */
  function Expire(m: Records, groupId: string, now: int): (r: Records)
    ensures View(r, groupId, now) == View(m, groupId, now)
    ensures Live(r, Key(groupId), now) == Live(m, Key(groupId), now)
    ensures !Live(m, Key(groupId), now) ==> r == m
    ensures Live(m, Key(groupId), now) ==> forall t :: t >= now + ExpireMs ==> !Live(r, Key(groupId), t)
    ensures forall t :: now <= t < now + ExpireMs ==> View(r, groupId, t) == View(m, groupId, now)
    ensures forall t :: t >= now + ExpireMs ==> View(r, groupId, t) == []
    ensures forall g :: Key(g) != Key(groupId) ==> forall t :: View(r, g, t) == View(m, g, t)
  {
    var key := Key(groupId);
    if Live(m, key, now) then m.(expiresAt := m.expiresAt[key := now + ExpireMs]) else m
  }

  /** `erase()`: DEL. */
  function Erase(m: Records, groupId: string): (r: Records)
    ensures forall t :: View(r, groupId, t) == [] && Size(r, groupId, t) == 0
    ensures forall g :: Key(g) != Key(groupId) ==> forall t :: View(r, g, t) == View(m, g, t)
  {
    var key := Key(groupId);
    Records(m.lists - {key}, m.expiresAt - {key})
  }

  /** A record key determines its group. */
  lemma KeyInjective(g1: string, g2: string)
    ensures Key(g1) == Key(g2) ==> g1 == g2
  {
    if Key(g1) == Key(g2) {
      assert g1 == Key(g1)[4..];
      assert g2 == Key(g2)[4..];
    }
  }

  /** `push` alone never creates a duplicate, so the size of a record that
      starts duplicate-free counts distinct confirmers. */
  lemma PushKeepsDistinct(m: Records, groupId: string, c: string, now: int)
    requires NoDup(View(m, groupId, now))
    ensures var v := View(Push(m, groupId, c, now).0, groupId, now);
      NoDup(v) && |v| == |set x | x in v|
  {
    var v := View(Push(m, groupId, c, now).0, groupId, now);
    if c !in View(m, groupId, now) {
      NoDupConcat([c], View(m, groupId, now));
    }
    DistinctCard(v, set x | x in v);
  }

  /** Confirming twice counts once. */
  lemma {:induction false} PushTwiceCountsOnce(m: Records, groupId: string, c: string, now: int)
    ensures var once := Push(m, groupId, c, now).0;
      Push(once, groupId, c, now).0 == once && Push(once, groupId, c, now).1.Err?
  {
    var once := Push(m, groupId, c, now).0;
    assert c in View(once, groupId, now);
  }
}

=== FILE: envelope.dfy ===
/** The JSON message layer (lib/JsonMessageLayerServer.js): the envelope
    `{type, header?, content}` every message carries, its builder and its
    validator, and the routing of each incoming message to the internal or
    the `jmessage` channel. An incoming message is `None` when its text does
    not parse. */
module Envelope {
  import opened JsValue
  import opened Wrappers
  import R = Relay

  const Internal := "internal"

  const EmptyError := "jmessage type or content are empty, cannot create message."
  const TypeError := "jmessage type must be a string."
  const ReservedError := "jmessage type 'internal' is reserved, please dont use it."

  /** `getJMessage(type, content, _header)`: throws on a falsy type or
      content, a type that is not a string, and an internal type without a
      string header; the header is kept only for internal messages. */
  function GetJMessage(kind: Js, content: Js, header: Js): (r: Result<Js>)
    ensures r.Err? <==> !Truthy(kind) || !Truthy(content) || !kind.Str? || (kind.s == Internal && !header.Str?)
    ensures r.Ok? ==> r.value.Obj? && Prop(r.value, "type") == kind && Prop(r.value, "content") == content
    ensures r.Ok? && kind.s != Internal ==> "header" !in r.value.fields && |r.value.fields| == 2
    ensures r.Ok? && kind.s == Internal ==> Prop(r.value, "header") == header && |r.value.fields| == 3
  {
    if !Truthy(kind) || !Truthy(content) then Err(EmptyError)
    else if !kind.Str? then Err(TypeError)
    else if kind.s != Internal then Ok(Obj(map["type" := kind, "content" := content]))
    else if !header.Str? then Err(ReservedError)
    else Ok(Obj(map["type" := kind, "header" := header, "content" := content]))
  }

  /** `isValidMessage`: an object (not `null`, and not an array, whose
      properties the model reads as missing) with a string type, a string
      header when internal, and content that is not `undefined`. */
  function IsValidMessage(m: Js): (ok: bool)
    ensures ok ==> m.Obj? && Prop(m, "type").Str? && Prop(m, "content") != Undefined
    ensures !Truthy(m) || m.Arr? ==> !ok
    ensures ok && Prop(m, "type") == Str(Internal) ==> Prop(m, "header").Str?
  {
    && Truthy(m) && TypeOf(m) == "object"
    && HasString(m, "type")
    && (Prop(m, "type").s == Internal ==> HasString(m, "header"))
    && !Prop(m, "content").Undefined?
  }

  /** Every envelope the builder returns passes the validator. */
  lemma BuiltIsValid(kind: Js, content: Js, header: Js)
    requires GetJMessage(kind, content, header).Ok?
    ensures IsValidMessage(GetJMessage(kind, content, header).value)
  {}

  /** Conversely, the builder rebuilds the fields of any valid message whose
      type and content are truthy; a valid message with the empty type or
      falsy content (`0`, `""`, `false`, `null`) is one it refuses to
      build. */
  lemma ValidIsBuilt(m: Js)
    requires IsValidMessage(m)
    ensures Truthy(Prop(m, "type")) && Truthy(Prop(m, "content")) <==>
      GetJMessage(Prop(m, "type"), Prop(m, "content"), Prop(m, "header")).Ok?
    ensures Truthy(Prop(m, "type")) && Truthy(Prop(m, "content")) ==>
      var b := GetJMessage(Prop(m, "type"), Prop(m, "content"), Prop(m, "header")).value;
      forall k :: k in b.fields ==> k in m.fields && b.fields[k] == m.fields[k]
  {}

  /** Where an incoming message goes: the internal channel (with the
      sender's id attached), the `jmessage` channel, nowhere, or the
      handler throws. */
  datatype Routed = ToInternal(message: Js) | ToJMessage(clientId: string, message: Js) | Dropped | Thrown(error: string)

  /** The message listener as written: a message that does not parse leaves
      `msg` null and reading `msg.type` throws. */
  function RouteAsWritten(clientId: string, parsed: Option<Js>): (r: Routed)
    ensures parsed.None? ==> r.Thrown?
    ensures parsed.Some? ==> r == Route(clientId, parsed)
  {
    if parsed.None? then Thrown("TypeError: cannot read property 'type' of null")
    else Route(clientId, parsed)
  }

  /** The message listener with the parse failure dropped like an invalid
      message: a valid internal message goes to the internal channel with
      `clientId` set, any other valid one to `jmessage`. */
  function Route(clientId: string, parsed: Option<Js>): (r: Routed)
    ensures parsed.None? || !IsValidMessage(parsed.value) <==> r == Dropped
    ensures !r.Thrown?
    ensures r.ToInternal? <==> parsed.Some? && IsValidMessage(parsed.value) && Prop(parsed.value, "type") == Str(Internal)
    ensures r.ToInternal? ==>
      && r.message.Obj? && Prop(r.message, "clientId") == Str(clientId)
      && forall k :: k in parsed.value.fields && k != "clientId" ==> k in r.message.fields && r.message.fields[k] == parsed.value.fields[k]
    ensures r.ToJMessage? ==> r == ToJMessage(clientId, parsed.value)
  {
    if parsed.None? || !IsValidMessage(parsed.value) then Dropped
    else
      var m := parsed.value;
      if Prop(m, "type") == Str(Internal) then ToInternal(Obj(m.fields["clientId" := Str(clientId)]))
      else ToJMessage(clientId, m)
  }

  /** Text that is not JSON makes the listener as written throw, where the
      corrected one drops it. */
  lemma UnparsableThrows(clientId: string)
    ensures RouteAsWritten(clientId, None).Thrown?
    ensures Route(clientId, None) == Dropped
  {}

  /** The greeting the connection layer raises for a new socket is a valid
      internal CONNECTED message for that client. */
  lemma GreetingIsInternal(clientId: string)
    ensures var r := Route(clientId, Some(R.ConnectedMessage));
      r.ToInternal? && Prop(r.message, "header") == Str("CONNECTED") && Prop(r.message, "clientId") == Str(clientId)
  {}

  /** `send(clientId, type, content, _header)`: the envelope is built (a
      builder error throws before anything is sent), then sent or relayed. */
  function SendJ(clients: seq<R.Client>, origin: string, clientId: Js, kind: Js, content: Js, header: Js,
                 sendOk: string -> bool): (r: Result<(R.Sent, seq<R.Effect>)>)
    ensures r.Err? <==> GetJMessage(kind, content, header).Err?
    ensures r.Ok? ==> forall e :: e in r.value.1 && e.Deliver? ==> IsValidMessage(e.message)
  {
    match GetJMessage(kind, content, header)
    case Err(e) => Err(e)
    case Ok(m) => Ok(R.Send(clients, origin, clientId, m, sendOk))
  }
}

=== FILE: grouphandler.dfy ===
/** Access to groups and clients through the directory
    (lib/groups/GroupHandler.js). */
module GroupHandler {
  import opened JsValue
  import opened Wrappers
  import opened Seqs
  import opened Groups
  import GM = GroupManager

  const DoesNotExist := "DOES_NOT_EXIST"

  /** Key of a freshly allocated group. */
  function GroupKey(uuid: string): string {
    "g:" + uuid
  }

  /** The directory value a new group or client is registered with. */
  function CreatedInfo(now: int): Js {
    Obj1("createdAt", Num(now))
  }

  /** `createGroupInstance()`: registers `"g:" + uuid` in the directory with
      its creation time and returns the key. The lists are not touched. */
  function CreateGroupInstance(st: Store, uuid: string, now: int): (r: (Store, string))
    requires Valid(st)
    ensures Valid(r.0)
    ensures r.1 == GroupKey(uuid)
    ensures r.0.lists == st.lists
    ensures GM.Lookup(r.0.directory, r.1) == Some(GM.Encoded(CreatedInfo(now)))
    ensures forall k :: k != r.1 ==> GM.Lookup(r.0.directory, k) == GM.Lookup(st.directory, k)
  {
    var key := GroupKey(uuid);
    (st.(directory := GM.Set(st.directory, key, CreatedInfo(now))), key)
  }

  /** `getGroupInstance(groupId)`. A non-string id is rejected without any
      store access. A group whose directory value is falsy or missing is
      erased (leftover lists included) and reported as DOES_NOT_EXIST. */
  function GetGroupInstance(st: Store, decode: string -> Option<Js>, groupId: Js): (r: (Store, Result<string>))
    requires Valid(st)
    ensures Valid(r.0)
    ensures !groupId.Str? ==> r.0 == st && r.1.Err?
    ensures groupId.Str? && Truthy(GM.Get(st.directory, groupId.s, decode)) ==> r == (st, Ok(groupId.s))
    ensures groupId.Str? && !Truthy(GM.Get(st.directory, groupId.s, decode)) ==>
      && r.1 == Err(DoesNotExist)
      && r.0 == GroupErase(st, groupId.s, false)
      && List(r.0, groupId.s) == []
      && GM.Lookup(r.0.directory, groupId.s).None?
    ensures r.1.Ok? ==> r.1.value in GM.Keys(st.directory)
  {
    if !groupId.Str? then (st, Err("requires a groupId to get a group instance."))
    else
      var g := groupId.s;
      if Truthy(GM.Get(st.directory, g, decode)) then (st, Ok(g))
      else (GroupErase(st, g, false), Err(DoesNotExist))
  }

  /** `getClientInstance(clientId)`. A non-string id is rejected. An existing
      truthy directory value that is an object has its `lastAction` set to
      `now`, its other fields kept; a missing or falsy one is replaced by a
      fresh `{createdAt, lastAction}`. Any other truthy value cannot take a
      property under strict mode, so the call fails. */
  function GetClientInstance(st: Store, decode: string -> Option<Js>, clientId: Js, now: int): (r: (Store, Result<string>))
    requires Valid(st)
    ensures Valid(r.0)
    ensures r.0.lists == st.lists
    ensures !clientId.Str? ==> r.0 == st && r.1.Err?
    ensures clientId.Str? ==>
      (r.1.Err? <==> var info := GM.Get(st.directory, clientId.s, decode); Truthy(info) && !info.Obj? && !info.Arr?)
    ensures r.1.Err? ==> r.0 == st
    ensures r.1.Ok? ==> clientId.Str? && r.1.value == clientId.s
    ensures r.1.Ok? ==>
      var info := GM.Get(st.directory, clientId.s, decode);
      GM.Lookup(r.0.directory, clientId.s) ==
        Some(GM.Encoded(if info.Obj? then Obj(info.fields["lastAction" := Num(now)])
                        else if info.Arr? then info
                        else Obj(map["createdAt" := Num(now), "lastAction" := Num(now)])))
    ensures clientId.Str? ==> forall k :: k != clientId.s ==> GM.Lookup(r.0.directory, k) == GM.Lookup(st.directory, k)
  {
    if !clientId.Str? then (st, Err("requires a clientId to get or create a client group instance."))
    else
      var c := clientId.s;
      var info := GM.Get(st.directory, c, decode);
      if Truthy(info) then
        if info.Obj? then
          (st.(directory := GM.Set(st.directory, c, Obj(info.fields["lastAction" := Num(now)]))), Ok(c))
        else if info.Arr? then
          (st.(directory := GM.Set(st.directory, c, info)), Ok(c))
        else (st, Err("TypeError: cannot create property 'lastAction'"))
      else
        (st.(directory := GM.Set(st.directory, c, Obj(map["createdAt" := Num(now), "lastAction" := Num(now)]))), Ok(c))
  }

  /** Directory keys in `keys[..n]` whose list names `clientId`, in order. */
  function Scanned(st: Store, keys: seq<string>, clientId: string): seq<string> {
    if keys == [] then []
    else Scanned(st, keys[..|keys| - 1], clientId)
         + (if clientId in List(st, keys[|keys| - 1]) then [keys[|keys| - 1]] else [])
  }

  /** `scanGroupsForClient(clientId)`: the directory keys whose list contains
      the client, each at most once, in directory order. (Every key names a
      list in this model, so the source's skip of non-list values never
      applies.) */
  method ScanGroupsForClient(st: Store, clientId: string) returns (scan: seq<string>)
    requires Valid(st)
    ensures forall k :: k in scan <==> k in GM.Keys(st.directory) && clientId in List(st, k)
    ensures NoDup(scan)
    ensures scan == Scanned(st, GM.Keys(st.directory), clientId)
  {
    var groups := GM.Keys(st.directory);
    scan := [];
    var listIndex := 0;
    while listIndex < |groups|
      invariant 0 <= listIndex <= |groups|
      invariant scan == Scanned(st, groups[..listIndex], clientId)
      invariant forall k :: k in scan <==> k in groups[..listIndex] && clientId in List(st, k)
      invariant NoDup(scan)
    {
      var list := List(st, groups[listIndex]);
      var i := 0;
      while i < |list|
        invariant 0 <= i <= |list|
        invariant clientId !in list[..i]
      {
        if list[i] == clientId {
          NoDupPrefixExcludes(groups, listIndex);
          NoDupConcat(scan, [groups[listIndex]]);
          scan := scan + [groups[listIndex]];
          break;
        }
        i := i + 1;
      }
      assert groups[..listIndex + 1][..listIndex] == groups[..listIndex];
      assert groups[..listIndex + 1] == groups[..listIndex] + [groups[listIndex]];
      assert i == |list| ==> list[..i] == list;
      listIndex := listIndex + 1;
    }
    assert groups[..|groups|] == groups;
  }

  lemma NoDupPrefixExcludes(s: seq<string>, i: nat)
    requires NoDup(s) && i < |s|
    ensures s[i] !in s[..i]
  {
    forall j | 0 <= j < i ensures s[..i][j] != s[i] {}
  }

  /** On a mirrored store whose client list only names registered groups, the
      scan finds exactly the groups the client's own list names. */
  lemma ScanMatchesMembership(st: Store, clientId: string, scan: seq<string>)
    requires Valid(st) && Mirrored(st)
    requires forall g :: g in List(st, clientId) ==> g in GM.Keys(st.directory)
    requires forall k :: k in scan <==> k in GM.Keys(st.directory) && clientId in List(st, k)
    ensures forall g :: g in scan <==> g in List(st, clientId)
  {}
}

=== FILE: groupmanager.dfy ===
/** The group directory (lib/groups/GroupManager.js): one Redis hash whose
    fields are group and client keys and whose values are their metadata. */
module GroupManager {
  import opened JsValue
  import opened Wrappers
  import opened Seqs

  /** How a field value sits in the hash. `set` JSON-encodes every value that
      is not a string (`Encoded` records the value the text decodes back to)
      and stores strings verbatim. */
  datatype Stored = Encoded(value: Js) | Verbatim(text: string)

  /** The hash: its field names in insertion order (the order of HKEYS) and
      the value stored under each. */
  datatype Hash = Hash(order: seq<string>, values: map<string, Stored>)

  /** Field names are unique and every listed field has a value. */
  ghost predicate Valid(h: Hash) {
    NoDup(h.order) && (forall k :: k in h.order <==> k in h.values)
  }

  /** HKEYS. */
  function Keys(h: Hash): (ks: seq<string>)
    ensures Valid(h) ==> NoDup(ks) && forall k :: k in ks <==> k in h.values
  {
    h.order
  }

  /** HLEN: the number of fields. */
  function Size(h: Hash): (n: nat)
    requires Valid(h)
    ensures n == |Keys(h)| == |h.values|
  {
    DistinctCard(h.order, h.values.Keys);
    |h.order|
  }

  /** HGET at the level of stored values. */
  function Lookup(h: Hash, k: string): Option<Stored> {
    if k in h.values then Some(h.values[k]) else None
  }

  /** What `set` writes for a value: strings verbatim, everything else as JSON. */
  function Encode(v: Js): Stored {
    if v.Str? then Verbatim(v.s) else Encoded(v)
  }

  /** `set(key, value)`: HSET, overwriting the field in place when it exists
      and appending it otherwise. */
  function Set(h: Hash, k: string, v: Js): (r: Hash)
    requires Valid(h)
    ensures Valid(r)
    ensures Lookup(r, k) == Some(Encode(v))
    ensures forall k' :: k' != k ==> Lookup(r, k') == Lookup(h, k')
    ensures k in Keys(h) ==> Keys(r) == Keys(h)
    ensures k !in Keys(h) ==> Keys(r) == Keys(h) + [k]
  {
    if k in h.values then Hash(h.order, h.values[k := Encode(v)])
    else
      NoDupConcat(h.order, [k]);
      Hash(h.order + [k], h.values[k := Encode(v)])
  }

  /** The text `JSON.stringify` gives a falsy non-string value; `undefined`
      reaches Redis as the empty string. */
  function FalsyText(v: Js): string {
    match v
    case Null => "null"
    case Bool(_) => "false"
    case Num(_) => "0"
    case _ => ""
  }

  /** `get(key)`: HGET, then `JSON.parse`; the decoded value is returned when
      it is truthy, otherwise the raw stored text (`null` for a missing field).
      `decode` is `JSON.parse` on verbatim text, `None` where it throws. */
  function Get(h: Hash, k: string, decode: string -> Option<Js>): (r: Js)
    ensures Lookup(h, k).None? ==> r == Null
    ensures Lookup(h, k).Some? ==> Truthy(r) || r.Str?
  {
    match Lookup(h, k)
    case None => Null
    case Some(Encoded(v)) => if Truthy(v) then v else Str(FalsyText(v))
    case Some(Verbatim(t)) =>
      var d := decode(t);
      if d.Some? && Truthy(d.value) then d.value else Str(t)
  }

  /** `remove(key)`: HDEL of that one field. */
  function Remove(h: Hash, k: string): (r: Hash)
    requires Valid(h)
    ensures Valid(r)
    ensures Lookup(r, k).None?
    ensures forall k' :: k' != k ==> Lookup(r, k') == Lookup(h, k')
    ensures Keys(r) == RemoveAll(Keys(h), k)
    ensures k !in Keys(h) ==> r == h
  {
    RemoveAllNoDup(h.order, k);
    assert k !in h.values ==> h.values - {k} == h.values;
    Hash(RemoveAll(h.order, k), h.values - {k})
  }

  /** Removing a present field shrinks the hash by one. */
  lemma RemoveShrinks(h: Hash, k: string)
    requires Valid(h) && k in Keys(h)
    ensures Size(Remove(h, k)) == Size(h) - 1
  {
    var r := Remove(h, k);
    assert r.values.Keys == h.values.Keys - {k};
  }

  /** `erase()`: DEL of the whole hash. */
  function Erase(h: Hash): (r: Hash)
    ensures Valid(r)
    ensures Keys(r) == [] && Size(r) == 0
    ensures forall k :: Lookup(r, k).None?
  {
    Hash([], map[])
  }

  /** The empty directory. */
  function Empty(): (h: Hash)
    ensures Valid(h)
  {
    Hash([], map[])
  }

  /** A truthy non-string value written with `set` is what `get` returns. */
  lemma SetThenGetValue(h: Hash, k: string, v: Js, decode: string -> Option<Js>)
    requires Valid(h) && !v.Str? && Truthy(v)
    ensures Get(Set(h, k, v), k, decode) == v
  {}

  /** A string written with `set` comes back verbatim unless it decodes as
      JSON to a truthy value, which is then returned instead. */
  lemma SetThenGetText(h: Hash, k: string, s: string, decode: string -> Option<Js>)
    requires Valid(h)
    ensures var d := decode(s);
            Get(Set(h, k, Str(s)), k, decode) == (if d.Some? && Truthy(d.value) then d.value else Str(s))
  {}

  /** Writing or deleting one field leaves every other field's value alone. */
  lemma OtherFieldsUntouched(h: Hash, k: string, k': string, v: Js, decode: string -> Option<Js>)
    requires Valid(h) && k != k'
    ensures Get(Set(h, k, v), k', decode) == Get(h, k', decode)
    ensures Get(Remove(h, k), k', decode) == Get(h, k', decode)
  {
    GetReadsLookup(Set(h, k, v), h, k', decode);
    GetReadsLookup(Remove(h, k), h, k', decode);
  }

  /** `get` depends on nothing but the field's stored value. */
  lemma GetReadsLookup(h: Hash, h': Hash, k: string, decode: string -> Option<Js>)
    requires Lookup(h, k) == Lookup(h', k)
    ensures Get(h, k, decode) == Get(h', k, decode)
  {}
}

=== FILE: groups.dfy ===
/** The membership store (lib/groups/Group.js): Redis lists keyed by group
    id (holding client ids) and by client id (holding group ids), plus the
    group directory. A `Group` and a `ClientGroup` wrap one list each; their
    non-simple operations write both sides so that the two indexes mirror
    each other. */
module Groups {
  import opened Seqs
  import GM = GroupManager

  /** The shared store. A key absent from `lists` is an empty list, as in
      Redis, where a list that becomes empty ceases to exist. */
  datatype Store = Store(lists: map<string, seq<string>>, directory: GM.Hash)

  ghost predicate Valid(st: Store) {
    GM.Valid(st.directory)
  }

  /** LRANGE key 0 -1: `list()` of a group or a client. */
  function List(st: Store, k: string): seq<string> {
    if k in st.lists then st.lists[k] else []
  }

  /** Replace one list, dropping the key when the list is empty. */
  function Write(st: Store, k: string, l: seq<string>): (r: Store)
    ensures List(r, k) == l
    ensures forall j :: j != k ==> List(r, j) == List(st, j)
    ensures r.directory == st.directory
  {
    if l == [] then st.(lists := st.lists - {k}) else st.(lists := st.lists[k := l])
  }

  /** LPUSH: insert at the head. */
  function LPush(st: Store, k: string, v: string): Store {
    Write(st, k, [v] + List(st, k))
  }

  /** LREM key 0 v: remove every occurrence. */
  function LRem(st: Store, k: string, v: string): Store {
    Write(st, k, RemoveAll(List(st, k), v))
  }

  /** DEL. */
  function Del(st: Store, k: string): Store {
    Write(st, k, [])
  }

  /** The dual-index invariant: `c` is listed under `g` exactly when `g` is
      listed under `c`. */
  ghost predicate Mirrored(st: Store) {
    forall a, b :: b in List(st, a) <==> a in List(st, b)
  }

  /** `Group(g).push(c, simple)`. The mirrored form first prepends `g` to the
      client's list and then `c` to the group's list. There is no duplicate
      check. */
  function GroupPush(st: Store, g: string, c: string, simple: bool): (r: Store)
    ensures simple || g != c ==> List(r, g) == [c] + List(st, g)
    ensures !simple && g != c ==> List(r, c) == [g] + List(st, c)
    ensures !simple && g == c ==> List(r, g) == [c, c] + List(st, g)
    ensures forall k :: k != g && (simple || k != c) ==> List(r, k) == List(st, k)
    ensures r.directory == st.directory
  {
    if simple then LPush(st, g, c)
    else LPush(LPush(st, c, g), g, c)
  }

  /** `Group(g).remove(c, simple)`. The mirrored form first removes every `g`
      from the client's list and then every `c` from the group's list. */
  function GroupRemove(st: Store, g: string, c: string, simple: bool): (r: Store)
    ensures List(r, g) == RemoveAll(List(st, g), c)
    ensures !simple ==> List(r, c) == RemoveAll(List(st, c), g)
    ensures forall k :: k != g && (simple || k != c) ==> List(r, k) == List(st, k)
    ensures r.directory == st.directory
  {
    if simple then LRem(st, g, c)
    else LRem(LRem(st, c, g), g, c)
  }

  /** `ClientGroup(c).push(g, simple)`: the group's list first, then the
      client's. */
  function ClientPush(st: Store, c: string, g: string, simple: bool): (r: Store)
    ensures simple || g != c ==> List(r, c) == [g] + List(st, c)
    ensures !simple && g != c ==> List(r, g) == [c] + List(st, g)
    ensures forall k :: k != c && (simple || k != g) ==> List(r, k) == List(st, k)
    ensures r.directory == st.directory
  {
    if simple then LPush(st, c, g)
    else LPush(LPush(st, g, c), c, g)
  }

  /** `ClientGroup(c).remove(g, simple)`: the group's list first, then the
      client's. */
  function ClientRemove(st: Store, c: string, g: string, simple: bool): (r: Store)
    ensures List(r, c) == RemoveAll(List(st, c), g)
    ensures !simple ==> List(r, g) == RemoveAll(List(st, g), c)
    ensures forall k :: k != c && (simple || k != g) ==> List(r, k) == List(st, k)
    ensures r.directory == st.directory
  {
    if simple then LRem(st, c, g)
    else LRem(LRem(st, g, c), c, g)
  }

  /** Remove `key` from the list of every id in `ids`, one after the other:
      the `Promise.all` over `clientGroup.remove(key, true)` in `erase`. */
  function StripFrom(st: Store, ids: seq<string>, key: string): (r: Store)
    ensures forall k :: List(r, k) == (if k in ids then RemoveAll(List(st, k), key) else List(st, k))
    ensures r.directory == st.directory
    decreases |ids|
  {
    if ids == [] then st
    else
      var r := StripFrom(LRem(st, ids[0], key), ids[1..], key);
      RemoveAllTwice(List(st, ids[0]), key);
      r
  }

  lemma RemoveAllTwice(s: seq<string>, x: string)
    ensures RemoveAll(RemoveAll(s, x), x) == RemoveAll(s, x)
  {}

  /** The mirrored `erase()` shared by both classes: strip `key` from the list
      of every id its own list names, delete its directory field, then
      delete its list. */
  function EraseMirrored(st: Store, key: string): (r: Store)
    requires Valid(st)
    ensures Valid(r)
    ensures List(r, key) == []
    ensures r.directory == GM.Remove(st.directory, key)
    ensures forall k :: k != key ==>
      List(r, k) == (if k in List(st, key) then RemoveAll(List(st, k), key) else List(st, k))
  {
    var stripped := StripFrom(st, List(st, key), key);
    Del(stripped.(directory := GM.Remove(st.directory, key)), key)
  }

  /** `Group(g).erase(simple)`: the simple form deletes only the group's list. */
  function GroupErase(st: Store, g: string, simple: bool): (r: Store)
    requires Valid(st)
    ensures Valid(r)
    ensures List(r, g) == []
    ensures simple ==> r.directory == st.directory && forall k :: k != g ==> List(r, k) == List(st, k)
    ensures !simple ==> GM.Lookup(r.directory, g).None?
    ensures !simple ==> forall c :: c in List(st, g) ==> g !in List(r, c)
    ensures !simple ==> forall k :: k != g ==>
      List(r, k) == (if k in List(st, g) then RemoveAll(List(st, k), g) else List(st, k))
    ensures !simple ==> forall k :: k != g ==> GM.Lookup(r.directory, k) == GM.Lookup(st.directory, k)
  {
    if simple then Del(st, g) else EraseMirrored(st, g)
  }

  /** `ClientGroup(c).erase(simple)`. */
  function ClientErase(st: Store, c: string, simple: bool): (r: Store)
    requires Valid(st)
    ensures Valid(r)
    ensures List(r, c) == []
    ensures simple ==> r.directory == st.directory && forall k :: k != c ==> List(r, k) == List(st, k)
    ensures !simple ==> GM.Lookup(r.directory, c).None?
    ensures !simple ==> forall g :: g in List(st, c) ==> c !in List(r, g)
    ensures !simple ==> forall k :: k != c ==>
      List(r, k) == (if k in List(st, c) then RemoveAll(List(st, k), c) else List(st, k))
    ensures !simple ==> forall k :: k != c ==> GM.Lookup(r.directory, k) == GM.Lookup(st.directory, k)
  {
    if simple then Del(st, c) else EraseMirrored(st, c)
  }

  /** Two stores with the same lists and directory are the same store. */
  lemma StoreExt(s1: Store, s2: Store)
    requires forall k :: List(s1, k) == List(s2, k)
    requires s1.directory == s2.directory
    requires forall k :: k in s1.lists ==> s1.lists[k] != []
    requires forall k :: k in s2.lists ==> s2.lists[k] != []
    ensures s1 == s2
  {
    forall k ensures k in s1.lists <==> k in s2.lists {
      assert List(s1, k) == List(s2, k);
    }
    forall k | k in s1.lists ensures s1.lists[k] == s2.lists[k] {
      assert List(s1, k) == List(s2, k);
    }
    assert s1.lists == s2.lists;
  }

  /** No stored list is empty: an emptied list is deleted. */
  ghost predicate Tidy(st: Store) {
    forall k :: k in st.lists ==> st.lists[k] != []
  }

  lemma WriteTidy(st: Store, k: string, l: seq<string>)
    requires Tidy(st)
    ensures Tidy(Write(st, k, l))
  {}

  /** Pushing through the client side leaves the same store as pushing
      through the group side. */
  lemma {:induction false} PushMirror(st: Store, g: string, c: string)
    requires Tidy(st)
    ensures ClientPush(st, c, g, false) == GroupPush(st, g, c, false)
  {
    var a := ClientPush(st, c, g, false);
    var b := GroupPush(st, g, c, false);
    WriteTidy(st, g, [c] + List(st, g));
    WriteTidy(LPush(st, g, c), c, [g] + List(LPush(st, g, c), c));
    WriteTidy(st, c, [g] + List(st, c));
    WriteTidy(LPush(st, c, g), g, [c] + List(LPush(st, c, g), g));
    StoreExt(a, b);
  }

  /** Removing through the client side leaves the same store as removing
      through the group side. */
  lemma {:induction false} RemoveMirror(st: Store, g: string, c: string)
    requires Tidy(st)
    ensures ClientRemove(st, c, g, false) == GroupRemove(st, g, c, false)
  {
    var a := ClientRemove(st, c, g, false);
    var b := GroupRemove(st, g, c, false);
    WriteTidy(st, g, RemoveAll(List(st, g), c));
    WriteTidy(LRem(st, g, c), c, RemoveAll(List(LRem(st, g, c), c), g));
    WriteTidy(st, c, RemoveAll(List(st, c), g));
    WriteTidy(LRem(st, c, g), g, RemoveAll(List(LRem(st, c, g), g), c));
    if g == c {
      RemoveAllTwice(List(st, g), c);
    }
    StoreExt(a, b);
  }

  /** A mirrored push keeps the dual index consistent and makes both sides
      reference each other. */
  lemma PushKeepsMirrored(st: Store, g: string, c: string)
    requires Mirrored(st)
    ensures var r := GroupPush(st, g, c, false);
            Mirrored(r) && c in List(r, g) && g in List(r, c)
  {
    var r := GroupPush(st, g, c, false);
    forall a, b ensures b in List(r, a) <==> a in List(r, b) {
      assert b in List(r, a) <==> b in List(st, a) || (a == g && b == c) || (a == c && b == g);
      assert a in List(r, b) <==> a in List(st, b) || (b == g && a == c) || (b == c && a == g);
    }
  }

  /** A mirrored remove keeps the dual index consistent and unlinks both
      sides. */
  lemma RemoveKeepsMirrored(st: Store, g: string, c: string)
    requires Mirrored(st)
    ensures var r := GroupRemove(st, g, c, false);
            Mirrored(r) && c !in List(r, g) && g !in List(r, c)
  {
    var r := GroupRemove(st, g, c, false);
    forall a, b ensures b in List(r, a) <==> a in List(r, b) {
      assert b in List(r, a) <==> b in List(st, a) && !(a == g && b == c) && !(a == c && b == g);
      assert a in List(r, b) <==> a in List(st, b) && !(b == g && a == c) && !(b == c && a == g);
    }
  }

  /** Removing a member that is on neither side changes nothing. */
  lemma RemoveAbsentIsNoop(st: Store, g: string, c: string)
    requires Tidy(st)
    requires c !in List(st, g) && g !in List(st, c)
    ensures GroupRemove(st, g, c, false) == st
  {
    var r := GroupRemove(st, g, c, false);
    WriteTidy(st, c, RemoveAll(List(st, c), g));
    WriteTidy(LRem(st, c, g), g, RemoveAll(List(LRem(st, c, g), g), c));
    StoreExt(r, st);
  }

  /** A mirrored erase keeps the dual index consistent and leaves no list
      that names the erased key. */
  lemma EraseKeepsMirrored(st: Store, g: string)
    requires Valid(st) && Mirrored(st)
    ensures var r := GroupErase(st, g, false);
            Mirrored(r) && forall k :: g !in List(r, k)
  {
    var r := GroupErase(st, g, false);
    forall a, b ensures b in List(r, a) <==> a in List(r, b) {
      assert b in List(r, a) <==> b in List(st, a) && a != g && b != g;
      assert a in List(r, b) <==> a in List(st, b) && a != g && b != g;
    }
  }

  /** The simple forms write one side only, so on a mirrored store a simple
      push of a new member breaks the dual index. */
  lemma SimplePushIsOneSided(st: Store, g: string, c: string)
    requires Mirrored(st) && g != c && c !in List(st, g)
    ensures var r := GroupPush(st, g, c, true);
            c in List(r, g) && g !in List(r, c) && !Mirrored(r)
  {}
}

=== FILE: groupserver.dfy ===
/** The group protocol (lib/GroupServer.js): internal messages with a `GS:`
    header create, delete, join, leave and broadcast to groups. Each handler
    is a step from the store to a new store and the messages it sends.
    Client ids reaching the handlers are strings (the connection layer
    issues `"c:" + uuid`). */
module GroupProtocol {
  import opened JsValue
  import opened Wrappers
  import opened Seqs
  import opened Groups
  import opened GroupHandler
  import opened Wire
  import U = Uniquify
  import GM = GroupManager

  const CreateHeader := "GS:CREATE"
  const DeleteHeader := "GS:DELETE"
  const JoinHeader := "GS:JOIN"
  const LeaveHeader := "GS:LEAVE"
  const BroadcastHeader := "GS:BROADCAST"
  const PingHeader := "GS:PING"
  const CloseHeader := "CLOSE"
  const NotifySuffix := ":NOTIFY"

  const MissingGroupId := "missing groupId"
  const GroupGone := "group does not exist."
  const NotAMember := "client is not a member of this group"

  /** What a handler reads besides the store: `JSON.parse` of directory
      text, `Date.now()`, and the value the next `uuid.v4()` returns. */
  datatype Env = Env(decode: string -> Option<Js>, now: int, uuid: string)

  /** The store after a handler, and what it sent and emitted, in order. */
  datatype Step = Step(store: Store, out: seq<Out>)

  /** `getGroupInstance` accepts `g`: its directory value is truthy. */
  predicate Registered(st: Store, decode: string -> Option<Js>, g: string) {
    Truthy(GM.Get(st.directory, g, decode))
  }

  /** The recipients of `broadcastToGroup(g, message, sender)`: the group's
      list, without the sender when a non-empty sender id is given. */
  function Recipients(st: Store, g: string, sender: Option<string>): (r: seq<string>)
    ensures forall x :: x in r <==> x in List(st, g) && !(sender.Some? && sender.value != "" && x == sender.value)
    ensures sender.None? ==> r == List(st, g)
    ensures |r| <= |List(st, g)|
  {
    if sender.Some? && sender.value != "" then RemoveAll(List(st, g), sender.value) else List(st, g)
  }

  function BroadcastToGroup(st: Store, g: string, header: string, body: Body, sender: Option<string>): (o: Out)
    ensures o.SendList? && o.header == header && o.body == body
    ensures forall x :: x in o.recipients <==>
      x in List(st, g) && !(sender.Some? && sender.value != "" && x == sender.value)
    ensures |o.recipients| <= |List(st, g)|
  {
    SendList(Recipients(st, g, sender), header, body)
  }

  /** The member lists of `gs`, as `uniquify` receives them. */
  function MemberLists(st: Store, gs: seq<string>): (ls: seq<Option<seq<string>>>)
    ensures |ls| == |gs|
    ensures forall i :: 0 <= i < |gs| ==> ls[i] == Some(List(st, gs[i]))
  {
    seq(|gs|, i requires 0 <= i < |gs| => Some(List(st, gs[i])))
  }

  /** `broadcastToGroupList(groupIds, message)`: one message to every client
      that is in at least one of the groups, once each. */
  function BroadcastToGroupList(st: Store, gs: seq<string>, header: string, body: Body): (o: Out)
    ensures o.SendList? && o.header == header && o.body == body
    ensures NoDup(o.recipients)
    ensures forall x :: x in o.recipients <==> exists g :: g in gs && x in List(st, g)
  {
    var ls := MemberLists(st, gs);
    var to := U.Uniquify(Some(ls));
    forall x ensures U.InSome(ls, x) <==> exists g :: g in gs && x in List(st, g) {
      if exists g :: g in gs && x in List(st, g) {
        var g :| g in gs && x in List(st, g);
        var i := IndexOf(gs, g);
        assert ls[i].Some? && x in ls[i].value;
      }
    }
    SendList(to, header, body)
  }

  /** `broadcastToAllGroupsOfClient(clientId, message)`. */
  function BroadcastToAllGroupsOfClient(st: Store, c: string, header: string, body: Body): (o: Out)
    ensures o.SendList? && NoDup(o.recipients)
    ensures forall x :: x in o.recipients <==> exists g :: g in List(st, c) && x in List(st, g)
  {
    BroadcastToGroupList(st, List(st, c), header, body)
  }

  /** On a mirrored store, a client's groups reach exactly the clients that
      share a group with it, itself included. */
  lemma AllGroupsOfClientReachCoMembers(st: Store, c: string, header: string, body: Body)
    requires Mirrored(st)
    ensures forall x :: x in BroadcastToAllGroupsOfClient(st, c, header, body).recipients <==>
      exists g :: c in List(st, g) && x in List(st, g)
  {
    var o := BroadcastToAllGroupsOfClient(st, c, header, body);
    forall x ensures x in o.recipients <==> exists g :: c in List(st, g) && x in List(st, g) {
      if exists g :: c in List(st, g) && x in List(st, g) {
        var g :| c in List(st, g) && x in List(st, g);
        assert g in List(st, c);
      }
    }
  }

  /** The reply to a request without a truthy `groupId`. */
  function MissingReply(c: string, header: string): Out {
    Send(c, header, Failure(MissingGroupId, None))
  }

  /** The reply when `getGroupInstance` rejects. */
  function GoneReply(c: string, header: string, groupId: Js): Out {
    Send(c, header, Failure(GroupGone, Some(groupId)))
  }

  /** `__createGroup`: a fresh group key is registered, the creator joins it,
      and the creator is told the key. */
  function Create(st: Store, env: Env, c: string, header: string): (r: Step)
    requires Valid(st)
    ensures Valid(r.store)
    ensures var g := GroupKey(env.uuid);
      && Registered(r.store, env.decode, g)
      && c in List(r.store, g) && g in List(r.store, c)
      && r.out == [Event("group", "create", Some(c), g), Send(c, header, Ack(Some(Str(g))))]
    ensures var g := GroupKey(env.uuid);
      g != c ==> List(r.store, g) == [c] + List(st, g) && List(r.store, c) == [g] + List(st, c)
    ensures var g := GroupKey(env.uuid);
      && (forall k :: k != g && k != c ==> List(r.store, k) == List(st, k))
      && (forall k :: k != g ==> GM.Lookup(r.store.directory, k) == GM.Lookup(st.directory, k))
  {
    var (st1, g) := CreateGroupInstance(st, env.uuid, env.now);
    Step(GroupPush(st1, g, c, false), [Event("group", "create", Some(c), g), Send(c, header, Ack(Some(Str(g))))])
  }

  /** `__deleteGroup`. The group is erased before the DELETE notification
      reads its member list, so the notification reaches nobody. */
  function Delete(st: Store, env: Env, c: string, groupId: Js, header: string): (r: Step)
    requires Valid(st)
    ensures Valid(r.store)
    ensures !Truthy(groupId) ==> r == Step(st, [MissingReply(c, header)])
    ensures Truthy(groupId) && !(groupId.Str? && Registered(st, env.decode, groupId.s)) ==>
      && r.out == [GoneReply(c, header, groupId)]
      && (!groupId.Str? ==> r.store == st)
    ensures Truthy(groupId) && groupId.Str? ==>
      var g := groupId.s;
      && List(r.store, g) == []
      && GM.Lookup(r.store.directory, g).None?
      && (forall k :: k in List(st, g) ==> g !in List(r.store, k))
      && (forall k :: k != g && k !in List(st, g) ==> List(r.store, k) == List(st, k))
      && (forall k :: k != g ==> GM.Lookup(r.store.directory, k) == GM.Lookup(st.directory, k))
    ensures Truthy(groupId) && groupId.Str? && Registered(st, env.decode, groupId.s) ==>
      var g := groupId.s;
      r.out == [Event("group", "delete", Some(c), g),
                SendList([], DeleteHeader + NotifySuffix, Notify(c)),
                Send(c, header, Ack(Some(groupId)))]
  {
    if !Truthy(groupId) then Step(st, [MissingReply(c, header)])
    else
      var (st1, res) := GetGroupInstance(st, env.decode, groupId);
      if res.Err? then Step(st1, [GoneReply(c, header, groupId)])
      else
        var g := res.value;
        var st2 := GroupErase(st1, g, false);
        Step(st2, [Event("group", "delete", Some(c), g),
                   BroadcastToGroup(st2, g, DeleteHeader + NotifySuffix, Notify(c), Some(c)),
                   Send(c, header, Ack(Some(groupId)))])
  }

  /** `__deleteGroup` as evidently intended: the members are notified before
      the group is erased. */
  function DeleteNotifyingMembers(st: Store, env: Env, c: string, groupId: Js, header: string): (r: Step)
    requires Valid(st)
    ensures Valid(r.store)
    ensures r.store == Delete(st, env, c, groupId, header).store
    ensures Truthy(groupId) && groupId.Str? && Registered(st, env.decode, groupId.s) ==>
      var g := groupId.s;
      && |r.out| == 3 && r.out[1].SendList?
      && forall x :: x in r.out[1].recipients <==> x in List(st, g) && !(c != "" && x == c)
    ensures !(Truthy(groupId) && groupId.Str? && Registered(st, env.decode, groupId.s)) ==>
      r == Delete(st, env, c, groupId, header)
  {
    if !Truthy(groupId) then Step(st, [MissingReply(c, header)])
    else
      var (st1, res) := GetGroupInstance(st, env.decode, groupId);
      if res.Err? then Step(st1, [GoneReply(c, header, groupId)])
      else
        var g := res.value;
        var notify := BroadcastToGroup(st1, g, DeleteHeader + NotifySuffix, Notify(c), Some(c));
        Step(GroupErase(st1, g, false),
             [Event("group", "delete", Some(c), g), notify, Send(c, header, Ack(Some(groupId)))])
  }

  /** The DELETE notification as written reaches no member of a group that
      had members other than the deleting client. */
  lemma DeleteNotifiesNobody(st: Store, env: Env, c: string, g: string, other: string)
    requires Valid(st) && g != "" && Registered(st, env.decode, g)
    requires other in List(st, g) && other != c
    ensures other !in Delete(st, env, c, Str(g), DeleteHeader).out[1].recipients
    ensures other in DeleteNotifyingMembers(st, env, c, Str(g), DeleteHeader).out[1].recipients
  {}

  /** `__joinGroup`. There is no duplicate check: joining twice lists the
      client twice. */
  function Join(st: Store, env: Env, c: string, groupId: Js, header: string): (r: Step)
    requires Valid(st)
    ensures Valid(r.store)
    ensures !Truthy(groupId) ==> r == Step(st, [MissingReply(c, header)])
    ensures Truthy(groupId) && !(groupId.Str? && Registered(st, env.decode, groupId.s)) ==>
      && r.out == [GoneReply(c, header, groupId)]
      && (!groupId.Str? ==> r.store == st)
      && (groupId.Str? ==> List(r.store, groupId.s) == [] && c !in List(r.store, groupId.s))
    ensures Truthy(groupId) && groupId.Str? && Registered(st, env.decode, groupId.s) ==>
      var g := groupId.s;
      && c in List(r.store, g) && g in List(r.store, c)
      && |List(r.store, g)| == |List(st, g)| + 1 + (if g == c then 1 else 0)
      && r.store.directory == st.directory
      && (forall k :: k != g && k != c ==> List(r.store, k) == List(st, k))
      && |r.out| == 3
      && r.out[0] == Event("group", "join", Some(c), g)
      && r.out[1].SendList? && r.out[1].header == JoinHeader + NotifySuffix
      && (c != "" ==> r.out[1].recipients == RemoveAll(List(st, g), c))
      && r.out[2] == Send(c, header, Ack(Some(groupId)))
  {
    if !Truthy(groupId) then Step(st, [MissingReply(c, header)])
    else
      var (st1, res) := GetGroupInstance(st, env.decode, groupId);
      if res.Err? then Step(st1, [GoneReply(c, header, groupId)])
      else
        var g := res.value;
        var st2 := GroupPush(st1, g, c, false);
        assert c != "" && g == c ==> RemoveAll([c, c] + List(st, g), c) == RemoveAll(List(st, g), c) by {
          if c != "" && g == c {
            assert ([c, c] + List(st, g))[1..] == [c] + List(st, g);
            assert ([c] + List(st, g))[1..] == List(st, g);
          }
        }
        assert c != "" && g != c ==> RemoveAll([c] + List(st, g), c) == RemoveAll(List(st, g), c) by {
          if c != "" && g != c {
            assert ([c] + List(st, g))[1..] == List(st, g);
          }
        }
        Step(st2, [Event("group", "join", Some(c), g),
                   BroadcastToGroup(st2, g, JoinHeader + NotifySuffix, Notify(c), Some(c)),
                   Send(c, header, Ack(Some(groupId)))])
  }

  /** `__leaveGroup(clientId, content, header, reply)`. Only the success
      reply depends on `reply`; the failure replies are always sent. */
  function Leave(st: Store, env: Env, c: string, groupId: Js, header: string, reply: bool): (r: Step)
    requires Valid(st)
    ensures Valid(r.store)
    ensures !Truthy(groupId) ==> r == Step(st, [MissingReply(c, header)])
    ensures Truthy(groupId) && !(groupId.Str? && Registered(st, env.decode, groupId.s)) ==>
      && r.out == [GoneReply(c, header, groupId)]
      && (!groupId.Str? ==> r.store == st)
      && (groupId.Str? ==> r.store == GroupErase(st, groupId.s, false))
    ensures Truthy(groupId) && groupId.Str? && Registered(st, env.decode, groupId.s) ==>
      var g := groupId.s;
      && c !in List(r.store, g) && g !in List(r.store, c)
      && List(r.store, g) == RemoveAll(List(st, g), c)
      && List(r.store, c) == RemoveAll(List(st, c), g)
      && r.store.directory == st.directory
      && (forall k :: k != g && k != c ==> List(r.store, k) == List(st, k))
      && r.out == [Event("group", "leave", Some(c), g),
                   SendList(RemoveAll(List(st, g), c), LeaveHeader + NotifySuffix, Notify(c))]
                  + (if reply then [Send(c, header, Ack(Some(groupId)))] else [])
    ensures !reply ==> forall o :: o in r.out ==> !(o.Send? && o.body.Ack?)
  {
    if !Truthy(groupId) then Step(st, [MissingReply(c, header)])
    else
      var (st1, res) := GetGroupInstance(st, env.decode, groupId);
      if res.Err? then Step(st1, [GoneReply(c, header, groupId)])
      else
        var g := res.value;
        var st2 := GroupRemove(st1, g, c, false);
        RemoveAllTwice(List(st, g), c);
        Step(st2, [Event("group", "leave", Some(c), g),
                   BroadcastToGroup(st2, g, LeaveHeader + NotifySuffix, Notify(c), Some(c))]
                  + (if reply then [Send(c, header, Ack(Some(groupId)))] else []))
  }

  /** `__broadcastGroup`: the sender's directory entry is touched, then the
      delivery goes to the group's other members if the sender's own group
      list names the group. A failing `getClientInstance` sends nothing. */
  function Broadcast(st: Store, env: Env, c: string, groupId: Js, delivery: Js, header: string): (r: Step)
    requires Valid(st)
    ensures Valid(r.store)
    ensures r.store.lists == st.lists
    ensures !Truthy(groupId) ==> r == Step(st, [MissingReply(c, header)])
    ensures Truthy(groupId) && GetClientInstance(st, env.decode, Str(c), env.now).1.Err? ==> r.out == []
    ensures Truthy(groupId) && GetClientInstance(st, env.decode, Str(c), env.now).1.Ok? ==>
      if groupId.Str? && groupId.s in List(st, c) then
        r.out == [SendList(Recipients(st, groupId.s, Some(c)), header, Delivery(c, delivery, Some(groupId.s)))]
      else
        r.out == [Send(c, header, Failure(NotAMember, Some(groupId)))]
  {
    if !Truthy(groupId) then Step(st, [MissingReply(c, header)])
    else
      var (st1, res) := GetClientInstance(st, env.decode, Str(c), env.now);
      if res.Err? then Step(st1, [])
      else if groupId.Str? && groupId.s in List(st1, c) then
        var g := groupId.s;
        Step(st1, [BroadcastToGroup(st1, g, header, Delivery(c, delivery, Some(g)), Some(c))])
      else Step(st1, [Send(c, header, Failure(NotAMember, Some(groupId)))])
  }

  /** A broadcast never reaches its sender, and reaches every other member. */
  lemma BroadcastSkipsSender(st: Store, env: Env, c: string, g: string, delivery: Js)
    requires Valid(st) && c != "" && g != "" && g in List(st, c)
    requires GetClientInstance(st, env.decode, Str(c), env.now).1.Ok?
    ensures var r := Broadcast(st, env, c, Str(g), delivery, BroadcastHeader);
      |r.out| == 1 && c !in r.out[0].recipients
      && forall x :: x in List(st, g) && x != c ==> x in r.out[0].recipients
  {}

  /** `__ping`: the client gets PONG back. */
  function Ping(st: Store, c: string, header: string): (r: Step)
    ensures r.store == st && r.out == [Send(c, header, Pong)]
  {
    Step(st, [Send(c, header, Pong)])
  }

  /** Leave each of `gs` in turn without success replies. */
  function LeaveEach(st: Store, env: Env, c: string, gs: seq<string>): (r: Step)
    requires Valid(st)
    ensures Valid(r.store)
    ensures forall o :: o in r.out ==> !(o.Send? && o.body.Ack?)
    decreases |gs|
  {
    if gs == [] then Step(st, [])
    else
      var first := Leave(st, env, c, Str(gs[0]), LeaveHeader, false);
      var rest := LeaveEach(first.store, env, c, gs[1..]);
      Step(rest.store, first.out + rest.out)
  }

  /** `__leaveAllGroups`: on connection close, leave every group the
      client's own list names. */
  function LeaveAll(st: Store, env: Env, c: string): (r: Step)
    requires Valid(st)
    ensures Valid(r.store)
    ensures forall o :: o in r.out ==> !(o.Send? && o.body.Ack?)
  {
    LeaveEach(st, env, c, List(st, c))
  }

  /** A mirrored `getGroupInstance` keeps the dual index. */
  lemma GetGroupKeepsMirrored(st: Store, decode: string -> Option<Js>, groupId: Js)
    requires Valid(st) && Mirrored(st)
    ensures Mirrored(GetGroupInstance(st, decode, groupId).0)
  {
    if groupId.Str? && !Truthy(GM.Get(st.directory, groupId.s, decode)) {
      EraseKeepsMirrored(st, groupId.s);
    }
  }

  /** Leaving `g` keeps the dual index, unlinks `g` from the client, and
      never adds to the client's list. */
  lemma LeaveDetaches(st: Store, env: Env, c: string, g: string, reply: bool)
    requires Valid(st) && Mirrored(st) && g != ""
    ensures var r := Leave(st, env, c, Str(g), LeaveHeader, reply).store;
      && Mirrored(r) && g !in List(r, c)
      && forall x :: x in List(r, c) ==> x in List(st, c)
  {
    if Registered(st, env.decode, g) {
      RemoveKeepsMirrored(st, g, c);
    } else {
      EraseKeepsMirrored(st, g);
    }
  }

  lemma {:induction false} LeaveEachDetaches(st: Store, env: Env, c: string, gs: seq<string>)
    requires Valid(st) && Mirrored(st) && "" !in gs
    ensures var r := LeaveEach(st, env, c, gs).store;
      && Mirrored(r)
      && (forall g :: g in gs ==> g !in List(r, c))
      && (forall x :: x in List(r, c) ==> x in List(st, c))
    decreases |gs|
  {
    if gs != [] {
      var first := Leave(st, env, c, Str(gs[0]), LeaveHeader, false);
      LeaveDetaches(st, env, c, gs[0], false);
      assert forall g :: g in gs[1..] ==> g in gs;
      LeaveEachDetaches(first.store, env, c, gs[1..]);
      assert forall g :: g in gs ==> g == gs[0] || g in gs[1..];
    }
  }

  /** After a close, a client whose list names no empty id is in no group
      and no group is in its list. */
  lemma LeaveAllDetaches(st: Store, env: Env, c: string)
    requires Valid(st) && Mirrored(st) && "" !in List(st, c)
    ensures var r := LeaveAll(st, env, c).store;
      Mirrored(r) && List(r, c) == [] && forall g :: c !in List(r, g)
  {
    LeaveEachDetaches(st, env, c, List(st, c));
    HeadIsMember(List(LeaveAll(st, env, c).store, c));
  }

  /** Joining a group and leaving it again restores the store exactly when
      the client was not in it before. */
  lemma {:induction false} JoinLeaveRoundTrip(st: Store, env: Env, c: string, g: string, header: string)
    requires Valid(st) && Tidy(st) && g != "" && g != c
    requires Registered(st, env.decode, g)
    requires c !in List(st, g) && g !in List(st, c)
    ensures Leave(Join(st, env, c, Str(g), header).store, env, c, Str(g), header, true).store == st
  {
    var st1 := Join(st, env, c, Str(g), header).store;
    assert st1.directory == st.directory;
    var st2 := Leave(st1, env, c, Str(g), header, true).store;
    assert List(st2, g) == RemoveAll([c] + List(st, g), c) == List(st, g) by {
      assert ([c] + List(st, g))[1..] == List(st, g);
    }
    assert List(st2, c) == RemoveAll([g] + List(st, c), g) == List(st, c) by {
      assert ([g] + List(st, c))[1..] == List(st, c);
    }
    WriteTidy(st, c, [g] + List(st, c));
    WriteTidy(LPush(st, c, g), g, [c] + List(LPush(st, c, g), g));
    assert Tidy(st1);
    WriteTidy(st1, c, RemoveAll(List(st1, c), g));
    WriteTidy(LRem(st1, c, g), g, RemoveAll(List(LRem(st1, c, g), g), c));
    StoreExt(st2, st);
  }

  /** Where `_attachInternalListener` sends a header. */
  datatype Route = CreateR | DeleteR | JoinR | LeaveR | BroadcastR | PingR | CloseR | Ignore

  function RouteOf(header: string): (r: Route)
    ensures r == CreateR <==> header == CreateHeader
    ensures r == DeleteR <==> header == DeleteHeader
    ensures r == JoinR <==> header == JoinHeader
    ensures r == LeaveR <==> header == LeaveHeader
    ensures r == BroadcastR <==> header == BroadcastHeader
    ensures r == PingR <==> header == PingHeader
    ensures r == CloseR <==> header == CloseHeader
  {
    if header == CreateHeader then CreateR
    else if header == DeleteHeader then DeleteR
    else if header == JoinHeader then JoinR
    else if header == LeaveHeader then LeaveR
    else if header == BroadcastHeader then BroadcastR
    else if header == PingHeader then PingR
    else if header == CloseHeader then CloseR
    else Ignore
  }

  /** One internal message `{clientId, header, content}`. Handlers that read
      `content.groupId` throw on a `null` or `undefined` content. */
  function Dispatch(st: Store, env: Env, listenForLeaves: bool, c: string, header: string, content: Js): (r: Result<Step>)
    requires Valid(st)
    ensures r.Ok? ==> Valid(r.value.store)
    ensures r.Err? <==> RouteOf(header) in {DeleteR, JoinR, LeaveR, BroadcastR} && Nullish(content)
    ensures RouteOf(header) == Ignore ==> r == Ok(Step(st, []))
    ensures RouteOf(header) == CloseR && !listenForLeaves ==> r == Ok(Step(st, []))
    ensures RouteOf(header) == PingR ==> r == Ok(Step(st, [Send(c, header, Pong)]))
    ensures RouteOf(header) == CreateR ==> r == Ok(Create(st, env, c, header))
    ensures RouteOf(header) == CloseR && listenForLeaves ==> r == Ok(LeaveAll(st, env, c))
    ensures !Nullish(content) ==> var groupId := Prop(content, "groupId");
      && (RouteOf(header) == DeleteR ==> r == Ok(Delete(st, env, c, groupId, header)))
      && (RouteOf(header) == JoinR ==> r == Ok(Join(st, env, c, groupId, header)))
      && (RouteOf(header) == LeaveR ==> r == Ok(Leave(st, env, c, groupId, header, true)))
      && (RouteOf(header) == BroadcastR ==>
            r == Ok(Broadcast(st, env, c, groupId, Prop(content, "delivery"), header)))
  {
    var route := RouteOf(header);
    if route == CreateR then Ok(Create(st, env, c, header))
    else if route == PingR then Ok(Ping(st, c, header))
    else if route == CloseR then (if listenForLeaves then Ok(LeaveAll(st, env, c)) else Ok(Step(st, [])))
    else if route == Ignore then Ok(Step(st, []))
    else if Nullish(content) then Err("TypeError: cannot read property 'groupId'")
    else
      var groupId := Prop(content, "groupId");
      if route == DeleteR then Ok(Delete(st, env, c, groupId, header))
      else if route == JoinR then Ok(Join(st, env, c, groupId, header))
      else if route == LeaveR then Ok(Leave(st, env, c, groupId, header, true))
      else Ok(Broadcast(st, env, c, groupId, Prop(content, "delivery"), header))
  }

  /** JOIN and LEAVE with a non-empty group id never answer that the id is
      missing. */
  lemma NamedGroupNoMissingReply(st: Store, env: Env, c: string, g: string, header: string, h: string, reply: bool)
    requires Valid(st) && g != ""
    ensures MissingReply(c, h) !in Join(st, env, c, Str(g), header).out
    ensures MissingReply(c, h) !in Leave(st, env, c, Str(g), header, reply).out
  {
    var j := Join(st, env, c, Str(g), header);
    var l := Leave(st, env, c, Str(g), header, reply);
    if Registered(st, env.decode, g) {
      assert j.out[2] == Send(c, header, Ack(Some(Str(g))));
      assert forall i :: 0 <= i < |j.out| ==> j.out[i] != MissingReply(c, h);
      assert forall i :: 0 <= i < |l.out| ==> l.out[i] != MissingReply(c, h);
    }
  }

  lemma CreateKeepsMirrored(st: Store, env: Env, c: string, header: string)
    requires Valid(st) && Mirrored(st)
    ensures Mirrored(Create(st, env, c, header).store)
  {
    var (st1, g) := CreateGroupInstance(st, env.uuid, env.now);
    assert forall k :: List(st1, k) == List(st, k);
    PushKeepsMirrored(st1, g, c);
  }

  lemma DeleteKeepsMirrored(st: Store, env: Env, c: string, groupId: Js, header: string)
    requires Valid(st) && Mirrored(st)
    ensures Mirrored(Delete(st, env, c, groupId, header).store)
  {
    if Truthy(groupId) {
      GetGroupKeepsMirrored(st, env.decode, groupId);
      var st1 := GetGroupInstance(st, env.decode, groupId).0;
      if groupId.Str? {
        EraseKeepsMirrored(st1, groupId.s);
      }
    }
  }

  lemma JoinKeepsMirrored(st: Store, env: Env, c: string, groupId: Js, header: string)
    requires Valid(st) && Mirrored(st)
    ensures Mirrored(Join(st, env, c, groupId, header).store)
  {
    if Truthy(groupId) {
      GetGroupKeepsMirrored(st, env.decode, groupId);
      var st1 := GetGroupInstance(st, env.decode, groupId).0;
      if groupId.Str? {
        PushKeepsMirrored(st1, groupId.s, c);
      }
    }
  }

  lemma LeaveKeepsMirrored(st: Store, env: Env, c: string, groupId: Js, header: string, reply: bool)
    requires Valid(st) && Mirrored(st)
    ensures Mirrored(Leave(st, env, c, groupId, header, reply).store)
  {
    if Truthy(groupId) {
      GetGroupKeepsMirrored(st, env.decode, groupId);
      var st1 := GetGroupInstance(st, env.decode, groupId).0;
      if groupId.Str? {
        RemoveKeepsMirrored(st1, groupId.s, c);
      }
    }
  }

  lemma BroadcastKeepsMirrored(st: Store, env: Env, c: string, groupId: Js, delivery: Js, header: string)
    requires Valid(st) && Mirrored(st)
    ensures Mirrored(Broadcast(st, env, c, groupId, delivery, header).store)
  {
    var st1 := Broadcast(st, env, c, groupId, delivery, header).store;
    assert forall k :: List(st1, k) == List(st, k);
  }

  /** Every handled message keeps the dual index, given that the closing
      client's list names no empty id. */
  lemma DispatchKeepsMirrored(st: Store, env: Env, listenForLeaves: bool, c: string, header: string, content: Js)
    requires Valid(st) && Mirrored(st) && "" !in List(st, c)
    ensures var r := Dispatch(st, env, listenForLeaves, c, header, content);
      r.Ok? ==> Mirrored(r.value.store)
  {
    var groupId := Prop(content, "groupId");
    var route := RouteOf(header);
    if route == CreateR {
      CreateKeepsMirrored(st, env, c, header);
    } else if route == CloseR && listenForLeaves {
      LeaveAllDetaches(st, env, c);
    } else if route == DeleteR {
      DeleteKeepsMirrored(st, env, c, groupId, header);
    } else if route == JoinR {
      JoinKeepsMirrored(st, env, c, groupId, header);
    } else if route == LeaveR {
      LeaveKeepsMirrored(st, env, c, groupId, header, true);
    } else if route == BroadcastR {
      BroadcastKeepsMirrored(st, env, c, groupId, Prop(content, "delivery"), header);
    }
  }
}

=== FILE: js.dfy ===
/** The JavaScript values the source inspects with `typeof`, truthiness tests
    and property reads. Numbers are integers only. */
module JsValue {

  datatype Js =
    | Undefined
    | Null
    | Bool(b: bool)
    | Num(n: int)
    | Str(s: string)
    | Arr(items: seq<Js>)
    | Obj(fields: map<string, Js>)

  /** JavaScript truthiness: `undefined`, `null`, `false`, `0` and `""` are falsy. */
  predicate Truthy(v: Js) {
    match v
    case Undefined => false
    case Null => false
    case Bool(b) => b
    case Num(n) => n != 0
    case Str(s) => s != ""
    case Arr(_) => true
    case Obj(_) => true
  }

  /** The `typeof` operator; `null` and arrays are `"object"`. */
  function TypeOf(v: Js): string {
    match v
    case Undefined => "undefined"
    case Null => "object"
    case Bool(_) => "boolean"
    case Num(_) => "number"
    case Str(_) => "string"
    case Arr(_) => "object"
    case Obj(_) => "object"
  }

  /** Reading a property throws on these. */
  predicate Nullish(v: Js) {
    v.Undefined? || v.Null?
  }

  /** `v[k]` for a value that is not nullish: an own field of an object, and
      `undefined` otherwise (the model has no prototype properties). */
  function Prop(v: Js, k: string): Js {
    if v.Obj? && k in v.fields then v.fields[k] else Undefined
  }

  /** `typeof v[k] === "string"`. */
  predicate HasString(v: Js, k: string) {
    Prop(v, k).Str?
  }

  /** Object literal with one field. */
  function Obj1(k: string, v: Js): Js {
    Obj(map[k := v])
  }
}

=== FILE: lobbies.dfy ===
/** Cutting the matchmaking queue into lobbies (the `clientIds.forEach`
    in `_executeMatchMakingLogic`, lib/RoomGroupServer.js). */
module Lobbies {
  import opened Seqs
  import opened Arith

  /** One single-client lobby per id. */
  function Singletons(ids: seq<string>): (r: seq<seq<string>>)
    ensures |r| == |ids|
    ensures forall i :: 0 <= i < |ids| ==> r[i] == [ids[i]]
  {
    seq(|ids|, i requires 0 <= i < |ids| => [ids[i]])
  }

  /** The reference cut: consecutive lobbies of `k` ids, the last one
      possibly shorter. With `k <= 0` no lobby ever has room, so the split
      opens with an empty lobby and then gives every id its own. */
  function Chunks(ids: seq<string>, k: int): seq<seq<string>>
    decreases |ids|
  {
    if ids == [] then []
    else if k <= 0 then [[]] + Singletons(ids)
    else if |ids| <= k then [ids]
    else [ids[..k]] + Chunks(ids[k..], k)
  }

  /** `cs` cuts `ids` into lobbies of exactly `k`, except a last non-empty
      one of at most `k`. */
  ghost predicate IsSplit(cs: seq<seq<string>>, ids: seq<string>, k: int) {
    && k >= 1
    && Flatten(cs) == ids
    && (forall i :: 0 <= i < |cs| - 1 ==> |cs[i]| == k)
    && (cs != [] ==> 0 < |cs[|cs| - 1]| <= k)
  }

  lemma FlattenLast(cs: seq<seq<string>>)
    requires cs != []
    ensures Flatten(cs) == Flatten(cs[..|cs| - 1]) + cs[|cs| - 1]
  {
    assert cs == cs[..|cs| - 1] + [cs[|cs| - 1]];
    FlattenAppend(cs[..|cs| - 1], cs[|cs| - 1]);
  }

  /** The reference cut is a split. */
  lemma {:induction false} ChunksSplit(ids: seq<string>, k: int)
    requires k >= 1
    ensures IsSplit(Chunks(ids, k), ids, k)
    decreases |ids|
  {
    if ids != [] && |ids| > k {
      ChunksSplit(ids[k..], k);
      var rest := Chunks(ids[k..], k);
      assert Chunks(ids, k) == [ids[..k]] + rest;
      assert ([ids[..k]] + rest)[1..] == rest;
      assert ids[..k] + ids[k..] == ids;
    }
  }

  /** A split is the reference cut: there is only one. */
  lemma {:induction false} SplitIsChunks(cs: seq<seq<string>>, ids: seq<string>, k: int)
    requires IsSplit(cs, ids, k)
    ensures cs == Chunks(ids, k)
    decreases |ids|
  {
    if cs == [] {
    } else if |cs| == 1 {
      assert cs[1..] == [];
      assert Flatten(cs) == cs[0] + Flatten(cs[1..]) == cs[0];
      assert cs == [ids];
    } else {
      var tail := cs[1..];
      assert Flatten(cs) == cs[0] + Flatten(tail);
      assert |cs[0]| == k;
      FlattenLast(tail);
      assert tail[|tail| - 1] == cs[|cs| - 1];
      assert |Flatten(tail)| > 0;
      assert ids[..k] == cs[0];
      assert ids[k..] == Flatten(tail);
      forall i | 0 <= i < |tail| - 1 ensures |tail[i]| == k {
        assert tail[i] == cs[i + 1];
      }
      SplitIsChunks(tail, ids[k..], k);
      assert cs == [cs[0]] + tail;
    }
  }

  /** The `forEach` loop itself: a lobby is opened when there is none yet;
      each id joins the current lobby while it has room, and otherwise
      opens the next one. */
  method Partition(ids: seq<string>, k: int) returns (groups: seq<seq<string>>)
    ensures groups == Chunks(ids, k)
    ensures k >= 1 ==> IsSplit(groups, ids, k)
  {
    groups := [];
    var i := 0;
    while i < |ids|
      invariant 0 <= i <= |ids|
      invariant k >= 1 ==> IsSplit(groups, ids[..i], k)
      invariant k <= 0 ==> groups == (if i == 0 then [] else [[]] + Singletons(ids[..i]))
    {
      var c := ids[i];
      var before := groups;
      if groups == [] {
        groups := [[]];
      }
      var last := |groups| - 1;
      assert ids[..i + 1] == ids[..i] + [c];
      if |groups[last]| < k {
        if before != [] {
          FlattenLast(before);
          FlattenLast(before[last := before[last] + [c]]);
          assert before[last := before[last] + [c]][..last] == before[..last];
        }
        groups := groups[last := groups[last] + [c]];
      } else {
        if k >= 1 {
          FlattenAppend(groups, [c]);
        } else if i > 0 {
          assert Singletons(ids[..i + 1]) == Singletons(ids[..i]) + [[c]];
        }
        groups := groups + [[c]];
      }
      i := i + 1;
    }
    assert ids[..|ids|] == ids;
    if k >= 1 {
      SplitIsChunks(groups, ids, k);
    }
  }

  /** The lobbies that are filled (`cList.length >= lobbySize`), in order. */
  function Full(cs: seq<seq<string>>, k: int): (r: seq<seq<string>>)
    ensures forall c :: c in r <==> c in cs && |c| >= k
  {
    if cs == [] then []
    else (if |cs[0]| >= k then [cs[0]] else []) + Full(cs[1..], k)
  }

  /** Only the trailing partial lobby is left out: the full lobbies all
      have `k` ids, together they are a prefix of the queue, and fewer than
      `k` ids remain after them. */
  lemma {:induction false} FullLobbies(ids: seq<string>, k: int)
    requires k >= 1
    ensures var full := Full(Chunks(ids, k), k);
      var taken := Flatten(full);
      && (forall c :: c in full ==> |c| == k)
      && |taken| <= |ids| && taken == ids[..|taken|]
      && |ids| - |taken| < k
    decreases |ids|
  {
    var cs := Chunks(ids, k);
    if ids == [] {
    } else if |ids| < k {
      assert cs == [ids];
      assert Full(cs, k) == Full([], k);
    } else if |ids| == k {
      assert cs == [ids];
      assert Full(cs, k) == [ids] + Full([], k);
      assert Flatten([ids]) == ids + Flatten([]);
    } else {
      var rest := Chunks(ids[k..], k);
      FullLobbies(ids[k..], k);
      assert cs == [ids[..k]] + rest;
      FullCons(ids[..k], rest, k);
      var full' := Full(rest, k);
      var taken' := Flatten(full');
      assert Flatten([ids[..k]] + full') == ids[..k] + taken' by {
        assert ([ids[..k]] + full')[1..] == full';
      }
      PrefixThenPrefix(ids, k, taken');
    }
  }

  lemma PrefixThenPrefix(s: seq<string>, k: int, t: seq<string>)
    requires 0 <= k <= |s| && |t| <= |s| - k && t == s[k..][..|t|]
    ensures s[..k] + t == s[..k + |t|]
  {
    forall i | 0 <= i < k + |t| ensures (s[..k] + t)[i] == s[i] {
      if i >= k {
        assert t[i - k] == s[k..][i - k];
      }
    }
  }

  lemma FullCons(c: seq<string>, rest: seq<seq<string>>, k: int)
    requires |c| >= k
    ensures Full([c] + rest, k) == [c] + Full(rest, k)
  {
    assert ([c] + rest)[1..] == rest;
  }

  /** Lobbies of `k` ids each hold `k` times as many ids as there are lobbies. */
  lemma {:induction false} UniformLength(cs: seq<seq<string>>, k: int)
    requires forall c :: c in cs ==> |c| == k
    ensures |Flatten(cs)| == |cs| * k
  {
    if cs != [] {
      var t := cs[1..];
      UniformLength(t, k);
      assert cs[0] in cs;
      assert |Flatten(cs)| == k + |t| * k;
      MulSucc(|t|, k);
    }
  }

  /** With `k >= 1`, exactly `floor(n / k)` lobbies are filled. */
  lemma FullCount(ids: seq<string>, k: int)
    requires k >= 1
    ensures |Full(Chunks(ids, k), k)| == |ids| / k
  {
    FullLobbies(ids, k);
    var full := Full(Chunks(ids, k), k);
    UniformLength(full, k);
    DivFromBounds(|ids|, k, |full|);
  }


  /** The example of five searchers and lobbies of three: the queue lists the
      newest searcher first, so the three latest form the lobby and the two
      earliest stay queued. */
  lemma FiveSearchersOneLobby()
    ensures Chunks(["c5", "c4", "c3", "c2", "c1"], 3) == [["c5", "c4", "c3"], ["c2", "c1"]]
    ensures Full(Chunks(["c5", "c4", "c3", "c2", "c1"], 3), 3) == [["c5", "c4", "c3"]]
  {
    var ids := ["c5", "c4", "c3", "c2", "c1"];
    assert ids[..3] == ["c5", "c4", "c3"];
    assert ids[3..] == ["c2", "c1"];
  }
}

=== FILE: matchmaker.dfy ===
/** The matchmaker (lib/RoomGroupServer.js): a queue group that clients
    join with SEARCH, a formation tick that turns full lobbies of queued
    clients into new match groups, per-match confirmation records, and a
    confirmation tick that starts, disbands or keeps waiting on each match.
    `Group.js` defines no `removeMulti`, `pushMulti` (it throws "not
    implemented"), `contains` or `getId`; the model gives the first three
    their evident meaning (mirrored removes and pushes, list membership),
    `getId` returns the group key, and `multiPush` says whether the batch
    push succeeds. */
module Matchmaking {
  import opened JsValue
  import opened Wrappers
  import opened Seqs
  import opened Groups
  import opened GroupHandler
  import opened Wire
  import opened Lobbies
  import C = Confirmation
  import GM = GroupManager

  const BroadcastHeader := "RGS:BROADCAST"
  const SearchHeader := "RGS:SEARCH"
  const LeaveHeader := "RGS:LEAVE"
  const ConfirmHeader := "RGS:CONFIRM"
  const DisbandHeader := "RGS:DISBAND"
  const StartHeader := "RGS:START"
  const StateHeader := "RGS:STATE"
  const MessageHeader := "RGS:MESSAGE"
  const WorldHeader := "RGS:WORLD"
  const NotifySuffix := ":NOTIFY"

  const FoundMm := "MATCH-FOUND"
  const ConfirmedMm := "MATCH-CONFIRMED"
  const StartMm := "MATCH-START"
  const TimeoutMm := "MATCH-DISBAND-TIMEOUT"

  const MaxLifetimeMs := 1000 * 60 * 2
  const DefaultLobbySize := 3

  /** An entry of `_confirmations`: a match awaiting confirmation since
      `opened`. */
  datatype Record = Record(groupId: string, openedAt: int)

  /** A matchmaking server: the shared store and confirmation lists, the
      queue group (`None` before `open()`), the open matches in insertion
      order, whether the interval runs, and the lobby size. */
  datatype Rooms = Rooms(store: Store, mmc: C.Records, queue: Option<string>,
                         records: seq<Record>, interval: bool, lobbySize: int)

  /** The step of a matchmaking operation. */
  datatype Outcome = Outcome(rooms: Rooms, out: seq<Out>)

  function Ids(rs: seq<Record>): (ids: seq<string>)
    ensures |ids| == |rs|
    ensures forall i :: 0 <= i < |rs| ==> ids[i] == rs[i].groupId
  {
    seq(|rs|, i requires 0 <= i < |rs| => rs[i].groupId)
  }

  /** The store is well formed and no match is recorded twice (the records
      are the keys of one object). */
  ghost predicate WellFormed(rooms: Rooms) {
    Valid(rooms.store) && NoDup(Ids(rooms.records))
  }

  /** `config.lobbySize || 3`. */
  function LobbySize(configured: Option<int>): (k: int)
    ensures configured.None? || configured == Some(0) ==> k == DefaultLobbySize
    ensures configured.Some? && configured.value != 0 ==> k == configured.value
  {
    if configured.None? || configured.value == 0 then DefaultLobbySize else configured.value
  }

  /** `open()`: the queue group is created without a client. */
  function Open(rooms: Rooms, uuid: string, now: int): (r: Outcome)
    requires WellFormed(rooms)
    ensures WellFormed(r.rooms)
    ensures r.rooms.queue == Some(GroupKey(uuid))
    ensures GM.Lookup(r.rooms.store.directory, GroupKey(uuid)) == Some(GM.Encoded(CreatedInfo(now)))
    ensures r.rooms.store.lists == rooms.store.lists
    ensures r.out == [Event("group", "create", None, GroupKey(uuid))]
  {
    var (st, g) := CreateGroupInstance(rooms.store, uuid, now);
    Outcome(rooms.(store := st, queue := Some(g)), [Event("group", "create", None, g)])
  }

  /** `_runInternalInterval()`: throws when the interval already runs. */
  function RunAutoMatchmaking(rooms: Rooms): (r: Result<Rooms>)
    ensures rooms.interval <==> r.Err?
    ensures r.Ok? ==> r.value == rooms.(interval := true)
  {
    if rooms.interval then Err("internal interval is already active.")
    else Ok(rooms.(interval := true))
  }

  /** Starting the interval twice fails. */
  lemma IntervalStartsOnce(rooms: Rooms)
    requires !rooms.interval
    ensures RunAutoMatchmaking(rooms).Ok?
    ensures RunAutoMatchmaking(RunAutoMatchmaking(rooms).value).Err?
  {}

  /** `group.removeMulti(cList)`: every client leaves group `q`, on both
      sides. */
  function RemoveMulti(st: Store, q: string, cs: seq<string>): (r: Store)
    ensures List(r, q) == RemoveEach(List(st, q), cs)
    ensures forall c :: c in cs && c != q ==> List(r, c) == RemoveAll(List(st, c), q)
    ensures forall k :: k != q && k !in cs ==> List(r, k) == List(st, k)
    ensures r.directory == st.directory
    decreases |cs|
  {
    if cs == [] then st
    else
      var st1 := GroupRemove(st, q, cs[0], false);
      var r := RemoveMulti(st1, q, cs[1..]);
      RemoveAllTwice(List(st, cs[0]), q);
      r
  }

  /** `newGroup.pushMulti(cList)`: every client joins group `g`, on both
      sides. */
  function PushMulti(st: Store, g: string, cs: seq<string>): (r: Store)
    ensures forall c :: c in cs ==> c in List(r, g) && g in List(r, c)
    ensures forall k :: k != g && k !in cs ==> List(r, k) == List(st, k)
    ensures forall k, x :: x in List(st, k) ==> x in List(r, k)
    ensures r.directory == st.directory
    decreases |cs|
  {
    if cs == [] then st
    else PushMulti(GroupPush(st, g, cs[0], false), g, cs[1..])
  }

  /** The closure run for one full lobby: its clients leave the queue, a
      group is registered under `uuid` and, if the batch push works, the
      clients join it. */
  function FormOne(st: Store, q: string, lobby: seq<string>, uuid: string, now: int, multiPush: bool): (r: Store)
    requires Valid(st)
    ensures Valid(r)
    ensures GroupKey(uuid) != q && q !in lobby ==> List(r, q) == RemoveEach(List(st, q), lobby)
    ensures GM.Lookup(r.directory, GroupKey(uuid)).Some?
    ensures forall k :: GM.Lookup(st.directory, k).Some? ==> GM.Lookup(r.directory, k).Some?
    ensures multiPush ==> forall c :: c in lobby ==> c in List(r, GroupKey(uuid)) && GroupKey(uuid) in List(r, c)
    ensures forall k, x :: k != q && x != q && x in List(st, k) ==> x in List(r, k)
  {
    var st1 := RemoveMulti(st, q, lobby);
    var (st2, g) := CreateGroupInstance(st1, uuid, now);
    if multiPush then PushMulti(st2, g, lobby) else st2
  }

  /** The closures for all full lobbies, in order, the i-th drawing
      `uuids[i]`. */
  function FormLobbies(st: Store, q: string, lobbies: seq<seq<string>>, uuids: seq<string>, now: int, multiPush: bool): (r: Store)
    requires Valid(st) && |uuids| == |lobbies|
    ensures Valid(r)
    ensures forall u :: u in uuids ==> GM.Lookup(r.directory, GroupKey(u)).Some?
    ensures forall k :: GM.Lookup(st.directory, k).Some? ==> GM.Lookup(r.directory, k).Some?
    ensures forall k, x :: k != q && x != q && x in List(st, k) ==> x in List(r, k)
    decreases |lobbies|
  {
    if lobbies == [] then st
    else FormLobbies(FormOne(st, q, lobbies[0], uuids[0], now, multiPush), q, lobbies[1..], uuids[1..], now, multiPush)
  }

  /** No fresh group key is the queue, and the queue is not queued in
      itself. */
  ghost predicate FreshFor(q: string, lobbies: seq<seq<string>>, uuids: seq<string>) {
    (forall u :: u in uuids ==> GroupKey(u) != q) && q !in Flatten(lobbies)
  }

  lemma FreshForTail(q: string, lobbies: seq<seq<string>>, uuids: seq<string>)
    requires lobbies != [] && |uuids| == |lobbies| && FreshFor(q, lobbies, uuids)
    ensures FreshFor(q, lobbies[1..], uuids[1..])
    ensures q !in lobbies[0] && GroupKey(uuids[0]) != q
  {
    assert Flatten(lobbies) == lobbies[0] + Flatten(lobbies[1..]);
    assert uuids[0] in uuids;
  }

  lemma {:induction false} RemoveEachConcat(s: seq<string>, a: seq<string>, b: seq<string>)
    ensures RemoveEach(s, a + b) == RemoveEach(RemoveEach(s, a), b)
    decreases |a|
  {
    if a != [] {
      assert (a + b)[0] == a[0];
      assert (a + b)[1..] == a[1..] + b;
      RemoveEachConcat(RemoveAll(s, a[0]), a[1..], b);
    } else {
      assert a + b == b;
    }
  }

  /** The queue loses exactly the clients that were placed in lobbies. */
  lemma {:induction false} FormationDrainsQueue(st: Store, q: string, lobbies: seq<seq<string>>, uuids: seq<string>,
                                                now: int, multiPush: bool)
    requires Valid(st) && |uuids| == |lobbies| && FreshFor(q, lobbies, uuids)
    ensures List(FormLobbies(st, q, lobbies, uuids, now, multiPush), q) == RemoveEach(List(st, q), Flatten(lobbies))
    decreases |lobbies|
  {
    if lobbies != [] {
      FreshForTail(q, lobbies, uuids);
      var st1 := FormOne(st, q, lobbies[0], uuids[0], now, multiPush);
      FormationDrainsQueue(st1, q, lobbies[1..], uuids[1..], now, multiPush);
      RemoveEachConcat(List(st, q), lobbies[0], Flatten(lobbies[1..]));
      assert Flatten(lobbies) == lobbies[0] + Flatten(lobbies[1..]);
    }
  }

  /** When the batch push works, every lobby member ends up in its match
      group and the match group in the member's list. */
  lemma {:induction false} FormationSeatsLobbies(st: Store, q: string, lobbies: seq<seq<string>>, uuids: seq<string>, now: int)
    requires Valid(st) && |uuids| == |lobbies| && FreshFor(q, lobbies, uuids)
    ensures var r := FormLobbies(st, q, lobbies, uuids, now, true);
      forall i, c :: 0 <= i < |lobbies| && c in lobbies[i] ==> c in List(r, GroupKey(uuids[i])) && GroupKey(uuids[i]) in List(r, c)
    decreases |lobbies|
  {
    if lobbies != [] {
      FreshForTail(q, lobbies, uuids);
      var st1 := FormOne(st, q, lobbies[0], uuids[0], now, true);
      FormationSeatsLobbies(st1, q, lobbies[1..], uuids[1..], now);
      var r := FormLobbies(st, q, lobbies, uuids, now, true);
      assert r == FormLobbies(st1, q, lobbies[1..], uuids[1..], now, true);
      forall i, c | 0 <= i < |lobbies| && c in lobbies[i]
        ensures c in List(r, GroupKey(uuids[i])) && GroupKey(uuids[i]) in List(r, c)
      {
        if i > 0 {
          assert lobbies[1..][i - 1] == lobbies[i] && uuids[1..][i - 1] == uuids[i];
        } else {
          var g := GroupKey(uuids[0]);
          assert c != q && g != q;
          assert c in List(st1, g) && g in List(st1, c);
        }
      }
    }
  }

  /** Record a freshly matched group as opened now: `_confirmations[g] =
      {opened}`, which keeps an existing key in its place. */
  function OpenRecord(rs: seq<Record>, g: string, now: int): (r: seq<Record>)
    requires NoDup(Ids(rs))
    ensures NoDup(Ids(r))
    ensures Record(g, now) in r
    ensures forall rec :: rec in r ==> rec in rs || rec == Record(g, now)
    ensures forall rec :: rec in rs && rec.groupId != g ==> rec in r
  {
    var ids := Ids(rs);
    if g in ids then
      var i := IndexOf(ids, g);
      var r := rs[i := Record(g, now)];
      assert Ids(r) == ids;
      r
    else
      var r := rs + [Record(g, now)];
      assert Ids(r) == ids + [g];
      NoDupConcat(ids, [g]);
      r
  }

  function OpenRecords(rs: seq<Record>, gs: seq<string>, now: int): (r: seq<Record>)
    requires NoDup(Ids(rs))
    ensures NoDup(Ids(r))
    ensures forall g :: g in gs ==> Record(g, now) in r
    ensures forall rec :: rec in r ==> rec in rs || (rec.groupId in gs && rec.openedAt == now)
    ensures forall rec :: rec in rs && rec.groupId !in gs ==> rec in r
    decreases |gs|
  {
    if gs == [] then rs
    else
      var rs1 := OpenRecord(rs, gs[0], now);
      var r := OpenRecords(rs1, gs[1..], now);
      assert Record(gs[0], now) in r by {
        if gs[0] !in gs[1..] {
          assert Record(gs[0], now) in rs1;
        }
      }
      assert forall g :: g in gs ==> g == gs[0] || g in gs[1..];
      r
  }

  /** `_onFreshlyMatchedGroup` for each new group: the `matched` event and
      a CONFIRM request to the group's members. */
  function Announce(st: Store, gs: seq<string>): (out: seq<Out>)
    ensures |out| == 2 * |gs|
    ensures forall i :: 0 <= i < |gs| ==>
      && out[2 * i] == Event("match", "matched", None, gs[i])
      && out[2 * i + 1] == SendList(List(st, gs[i]), ConfirmHeader, Match(FoundMm, gs[i]))
  {
    if gs == [] then []
    else
      var g := gs[|gs| - 1];
      var init := Announce(st, gs[..|gs| - 1]);
      init + [Event("match", "matched", None, g), SendList(List(st, g), ConfirmHeader, Match(FoundMm, g))]
  }

  /** The ids the first `n` calls to `uuid.v4()` return. */
  function Draws(uuid: nat -> string, n: nat): (r: seq<string>)
    ensures |r| == n
    ensures forall i :: 0 <= i < n ==> r[i] == uuid(i)
  {
    seq(n, i requires 0 <= i < n => uuid(i))
  }

  /** The group keys of ids. */
  function Keys(uuids: seq<string>): (gs: seq<string>)
    ensures |gs| == |uuids|
    ensures forall i :: 0 <= i < |uuids| ==> gs[i] == GroupKey(uuids[i])
  {
    seq(|uuids|, i requires 0 <= i < |uuids| => GroupKey(uuids[i]))
  }

  /** The rooms after the queue closures of the full lobbies: the i-th
      match group exists and is recorded as opened now. */
  function MatchRooms(rooms: Rooms, q: string, full: seq<seq<string>>, uuids: seq<string>, now: int, multiPush: bool): (r: Rooms)
    requires WellFormed(rooms) && |uuids| == |full|
    ensures WellFormed(r)
    ensures r == rooms.(store := r.store, records := r.records)
    ensures forall u :: u in uuids ==> GM.Lookup(r.store.directory, GroupKey(u)).Some?
    ensures forall u :: u in uuids ==> Record(GroupKey(u), now) in r.records
  {
    var st := FormLobbies(rooms.store, q, full, uuids, now, multiPush);
    var gs := Keys(uuids);
    var records := OpenRecords(rooms.records, gs, now);
    assert forall u :: u in uuids ==> Record(GroupKey(u), now) in records by {
      forall u | u in uuids ensures Record(GroupKey(u), now) in records {
        var i :| 0 <= i < |uuids| && uuids[i] == u;
        assert gs[i] in gs;
      }
    }
    rooms.(store := st, records := records)
  }

  /** The full lobbies become matches: the queue closures run, the i-th
      match is recorded as opened now, and each is announced. */
  function Matched(rooms: Rooms, q: string, full: seq<seq<string>>, uuids: seq<string>, now: int, multiPush: bool): (r: Outcome)
    requires WellFormed(rooms) && |uuids| == |full|
    ensures WellFormed(r.rooms)
    ensures r.rooms == rooms.(store := r.rooms.store, records := r.rooms.records)
    ensures |r.out| == 2 * |full|
    ensures forall u :: u in uuids ==> GM.Lookup(r.rooms.store.directory, GroupKey(u)).Some?
    ensures forall u :: u in uuids ==> Record(GroupKey(u), now) in r.rooms.records
    ensures forall i :: 0 <= i < |full| ==>
      && r.out[2 * i] == Event("match", "matched", None, GroupKey(uuids[i]))
      && r.out[2 * i + 1] == SendList(List(r.rooms.store, GroupKey(uuids[i])), ConfirmHeader, Match(FoundMm, GroupKey(uuids[i])))
  {
    var matched := MatchRooms(rooms, q, full, uuids, now, multiPush);
    Outcome(matched, Announce(matched.store, Keys(uuids)))
  }

  /** `_executeMatchMakingLogic(intern)`: the formation tick. Manual runs
      are refused while the interval is active; nothing happens while fewer
      than `lobbySize` clients are queued; otherwise the queue is cut into
      lobbies and each full one becomes a match, announced to its members.
      `uuid(i)` is the id drawn for the i-th match. */
  function FormMatches(rooms: Rooms, now: int, uuid: nat -> string, multiPush: bool, intern: bool): (r: Result<Outcome>)
    requires WellFormed(rooms)
    ensures r.Err? <==> (!intern && rooms.interval) || rooms.queue.None?
    ensures r.Ok? ==> WellFormed(r.value.rooms)
    ensures r.Ok? ==> r.value.rooms == rooms.(store := r.value.rooms.store, records := r.value.rooms.records)
    ensures r.Ok? && |List(rooms.store, rooms.queue.value)| < rooms.lobbySize ==> r.value == Outcome(rooms, [])
  {
    if !intern && rooms.interval then Err("cannot execute mm logic manually, when interval is active.")
    else if rooms.queue.None? then Err("queue group id is not set, it should be generated during open().")
    else
      var q := rooms.queue.value;
      var ids := List(rooms.store, q);
      if |ids| < rooms.lobbySize then Ok(Outcome(rooms, []))
      else
        var full := Full(Chunks(ids, rooms.lobbySize), rooms.lobbySize);
        Ok(Matched(rooms, q, full, Draws(uuid, |full|), now, multiPush))
  }

  /** A formation tick over at least a lobby's worth of queued clients
      opens one match per full lobby: the i-th draws `uuid(i)`, its group
      exists, it is recorded as opened now, and it is announced to its
      members. */
  lemma FormMatchesOpens(rooms: Rooms, now: int, uuid: nat -> string, multiPush: bool, intern: bool)
    requires WellFormed(rooms) && (intern || !rooms.interval) && rooms.queue.Some?
    requires |List(rooms.store, rooms.queue.value)| >= rooms.lobbySize
    ensures var r := FormMatches(rooms, now, uuid, multiPush, intern).value;
      var n := |Full(Chunks(List(rooms.store, rooms.queue.value), rooms.lobbySize), rooms.lobbySize)|;
      && |r.out| == 2 * n
      && forall i: nat :: i < n ==>
        && GM.Lookup(r.rooms.store.directory, GroupKey(uuid(i))).Some?
        && Record(GroupKey(uuid(i)), now) in r.rooms.records
        && r.out[2 * i] == Event("match", "matched", None, GroupKey(uuid(i)))
        && r.out[2 * i + 1] == SendList(List(r.rooms.store, GroupKey(uuid(i))), ConfirmHeader, Match(FoundMm, GroupKey(uuid(i))))
  {
    var q := rooms.queue.value;
    var ids := List(rooms.store, q);
    var full := Full(Chunks(ids, rooms.lobbySize), rooms.lobbySize);
    var uuids := Draws(uuid, |full|);
    var r := Matched(rooms, q, full, uuids, now, multiPush);
    assert FormMatches(rooms, now, uuid, multiPush, intern).value == r;
    forall i: nat | i < |full|
      ensures GM.Lookup(r.rooms.store.directory, GroupKey(uuid(i))).Some?
      ensures Record(GroupKey(uuid(i)), now) in r.rooms.records
    {
      assert uuids[i] == uuid(i) && uuids[i] in uuids;
    }
  }

  /** Over a lobby's worth of queued clients, the store after the tick is
      the store after the lobbies are formed. */
  lemma FormMatchesStore(rooms: Rooms, now: int, uuid: nat -> string, multiPush: bool)
    requires WellFormed(rooms) && !rooms.interval && rooms.queue.Some?
    requires |List(rooms.store, rooms.queue.value)| >= rooms.lobbySize
    ensures var q := rooms.queue.value;
      var full := Full(Chunks(List(rooms.store, q), rooms.lobbySize), rooms.lobbySize);
      FormMatches(rooms, now, uuid, multiPush, false).value.rooms.store
        == FormLobbies(rooms.store, q, full, Draws(uuid, |full|), now, multiPush)
  {}

  /** With distinct clients queued and fresh ids, exactly the clients of
      the full lobbies leave the queue: what stays is the tail of the queue,
      shorter than a lobby. */
  lemma QueueKeepsPartialLobby(rooms: Rooms, now: int, uuid: nat -> string, multiPush: bool)
    requires WellFormed(rooms) && !rooms.interval && rooms.queue.Some? && rooms.lobbySize >= 1
    requires var q := rooms.queue.value;
      && NoDup(List(rooms.store, q)) && q !in List(rooms.store, q)
      && forall i :: GroupKey(uuid(i)) != q
    ensures var q := rooms.queue.value;
      var ids := List(rooms.store, q);
      var left := List(FormMatches(rooms, now, uuid, multiPush, false).value.rooms.store, q);
      && |left| < rooms.lobbySize
      && ids == ids[..|ids| - |left|] + left
  {
    var q := rooms.queue.value;
    var ids := List(rooms.store, q);
    if |ids| >= rooms.lobbySize {
      var full := Full(Chunks(ids, rooms.lobbySize), rooms.lobbySize);
      FormMatchesStore(rooms, now, uuid, multiPush);
      FormationKeepsTail(rooms.store, q, rooms.lobbySize, Draws(uuid, |full|), now, multiPush);
    }
  }

  /** Forming the full lobbies of a queue of distinct clients leaves the
      tail of the queue, shorter than a lobby. */
  lemma FormationKeepsTail(st: Store, q: string, k: int, uuids: seq<string>, now: int, multiPush: bool)
    requires Valid(st) && k >= 1
    requires NoDup(List(st, q)) && q !in List(st, q) && forall u :: u in uuids ==> GroupKey(u) != q
    requires |uuids| == |Full(Chunks(List(st, q), k), k)|
    ensures var ids := List(st, q);
      var left := List(FormLobbies(st, q, Full(Chunks(ids, k), k), uuids, now, multiPush), q);
      && |left| < k
      && ids == ids[..|ids| - |left|] + left
  {
    var ids := List(st, q);
    var full := Full(Chunks(ids, k), k);
    FullLobbies(ids, k);
    var taken := Flatten(full);
    assert ids == taken + ids[|taken|..];
    assert q !in taken;
    FormationDrainsQueue(st, q, full, uuids, now, multiPush);
    RemoveEachPrefix(taken, ids[|taken|..]);
  }

  /** With the batch push working, each member of the i-th full lobby is
      seated in the i-th match group. */
  lemma MatchesSeatLobbies(rooms: Rooms, now: int, uuid: nat -> string)
    requires WellFormed(rooms) && !rooms.interval && rooms.queue.Some?
    requires var q := rooms.queue.value;
      q !in List(rooms.store, q) && forall i :: GroupKey(uuid(i)) != q
    requires |List(rooms.store, rooms.queue.value)| >= rooms.lobbySize
    ensures var ids := List(rooms.store, rooms.queue.value);
      var full := Full(Chunks(ids, rooms.lobbySize), rooms.lobbySize);
      var st := FormMatches(rooms, now, uuid, true, false).value.rooms.store;
      forall i, c :: 0 <= i < |full| && c in full[i] ==> c in List(st, GroupKey(uuid(i))) && GroupKey(uuid(i)) in List(st, c)
  {
    var q := rooms.queue.value;
    var k := rooms.lobbySize;
    var full := Full(Chunks(List(rooms.store, q), k), k);
    FormMatchesStore(rooms, now, uuid, true);
    QueueSeated(rooms.store, q, k, Draws(uuid, |full|), now);
  }

  /** Forming the full lobbies of a queue seats each member of the i-th
      lobby in the i-th match group. */
  lemma QueueSeated(st: Store, q: string, k: int, uuids: seq<string>, now: int)
    requires Valid(st) && q !in List(st, q) && forall u :: u in uuids ==> GroupKey(u) != q
    requires |uuids| == |Full(Chunks(List(st, q), k), k)|
    ensures var full := Full(Chunks(List(st, q), k), k);
      var r := FormLobbies(st, q, full, uuids, now, true);
      forall i, c :: 0 <= i < |full| && c in full[i] ==> c in List(r, GroupKey(uuids[i])) && GroupKey(uuids[i]) in List(r, c)
  {
    var ids := List(st, q);
    var full := Full(Chunks(ids, k), k);
    FlattenMembers(full);
    FlattenChunks(ids, k);
    assert q !in Flatten(full);
    FormationSeatsLobbies(st, q, full, uuids, now);
  }

  /** Every id of a lobby is an id of the split. */
  lemma {:induction false} FlattenMembers(cs: seq<seq<string>>)
    ensures forall c, x :: c in cs && x in c ==> x in Flatten(cs)
  {
    if cs != [] {
      FlattenMembers(cs[1..]);
      assert Flatten(cs) == cs[0] + Flatten(cs[1..]);
      assert forall c :: c in cs ==> c == cs[0] || c in cs[1..];
    }
  }

  /** The ids of the lobbies are queue ids. */
  lemma FlattenChunks(ids: seq<string>, k: int)
    ensures forall x :: x in Flatten(Full(Chunks(ids, k), k)) ==> x in ids
  {
    if k >= 1 {
      FullLobbies(ids, k);
    } else {
      FullSubset(ids, k);
    }
  }

  lemma FullSubset(ids: seq<string>, k: int)
    requires k <= 0
    ensures forall x :: x in Flatten(Full(Chunks(ids, k), k)) ==> x in ids
  {
    var cs := Chunks(ids, k);
    assert forall c :: c in Full(cs, k) ==> c in cs;
    FlattenOfChunksLow(ids, k);
    FlattenSub(Full(cs, k), cs);
  }

  lemma FlattenOfChunksLow(ids: seq<string>, k: int)
    requires k <= 0
    ensures forall x :: x in Flatten(Chunks(ids, k)) ==> x in ids
  {
    if ids != [] {
      var cs := Chunks(ids, k);
      forall x | x in Flatten(cs) ensures x in ids {
        FlattenWitness(cs, x);
      }
    }
  }

  lemma {:induction false} FlattenWitness(cs: seq<seq<string>>, x: string)
    requires x in Flatten(cs)
    ensures exists c :: c in cs && x in c
  {
    assert cs != [];
    assert Flatten(cs) == cs[0] + Flatten(cs[1..]);
    if x !in cs[0] {
      FlattenWitness(cs[1..], x);
    }
  }

  lemma FlattenSub(a: seq<seq<string>>, b: seq<seq<string>>)
    requires forall c :: c in a ==> c in b
    ensures forall x :: x in Flatten(a) ==> x in Flatten(b)
  {
    FlattenMembers(b);
    forall x | x in Flatten(a) ensures x in Flatten(b) {
      FlattenWitness(a, x);
    }
  }

  /** The confirmation tick's verdict on one open match. */
  datatype Decision = Disband | Start | Wait

  /** Disband once the match has been open for two minutes; start once as
      many clients confirmed as a lobby holds; otherwise keep waiting (also
      while nobody confirmed). */
  function Decide(openedAt: int, now: int, size: nat, lobbySize: int): (d: Decision)
    ensures d == Disband <==> now - openedAt >= MaxLifetimeMs
    ensures d == Start <==> now - openedAt < MaxLifetimeMs && size > 0 && size >= lobbySize
    ensures d == Wait <==> now - openedAt < MaxLifetimeMs && (size == 0 || size < lobbySize)
  {
    if now - openedAt >= MaxLifetimeMs then Disband
    else if size == 0 then Wait
    else if size < lobbySize then Wait
    else Start
  }

  /** The verdict on a record against the confirmation lists. */
  function Verdict(mmc: C.Records, rec: Record, now: int, lobbySize: int): Decision {
    Decide(rec.openedAt, now, C.Size(mmc, rec.groupId, now), lobbySize)
  }

  /** Some message announces `mm` for match `g` under `header`. */
  ghost predicate Announced(out: seq<Out>, header: string, mm: string, g: string) {
    exists o :: o in out && o.SendList? && o.header == header && o.body == Match(mm, g)
  }

  lemma AnnouncedConcat(a: seq<Out>, b: seq<Out>)
    ensures forall h, mm, g :: Announced(a + b, h, mm, g) <==> Announced(a, h, mm, g) || Announced(b, h, mm, g)
  {
    forall h, mm, g ensures Announced(a + b, h, mm, g) <==> Announced(a, h, mm, g) || Announced(b, h, mm, g) {
      if Announced(a + b, h, mm, g) {
        var o :| o in a + b && o.SendList? && o.header == h && o.body == Match(mm, g);
        assert o in a || o in b;
      }
      if Announced(a, h, mm, g) {
        var o :| o in a && o.SendList? && o.header == h && o.body == Match(mm, g);
        assert o in a + b;
      }
      if Announced(b, h, mm, g) {
        var o :| o in b && o.SendList? && o.header == h && o.body == Match(mm, g);
        assert o in a + b;
      }
    }
  }

  /** The closure run for one open match: on a disband, the members are
      told, the event raised, and the record's list and the group erased; on
      a start, the members are told, the event raised and the record's list
      erased; otherwise nothing happens. */
  function SettleOne(st: Store, mmc: C.Records, rec: Record, now: int, lobbySize: int): (r: (Store, C.Records, seq<Out>))
    requires Valid(st)
    ensures Valid(r.0)
    ensures Verdict(mmc, rec, now, lobbySize) == Wait ==> r == (st, mmc, [])
    ensures Verdict(mmc, rec, now, lobbySize) != Wait ==> forall t :: C.Size(r.1, rec.groupId, t) == 0
    ensures Verdict(mmc, rec, now, lobbySize) == Disband ==> List(r.0, rec.groupId) == [] && GM.Lookup(r.0.directory, rec.groupId).None?
    ensures forall g, t :: g != rec.groupId ==> C.View(r.1, g, t) == C.View(mmc, g, t)
    ensures forall h, mm, g :: Announced(r.2, h, mm, g) <==>
      g == rec.groupId &&
      ((h == StartHeader && mm == StartMm && Verdict(mmc, rec, now, lobbySize) == Start)
       || (h == DisbandHeader && mm == TimeoutMm && Verdict(mmc, rec, now, lobbySize) == Disband))
  {
    var g := rec.groupId;
    var d := Verdict(mmc, rec, now, lobbySize);
    forall g' | g' != g ensures C.Key(g') != C.Key(g) {
      C.KeyInjective(g', g);
    }
    if d == Disband then
      var out := [SendList(List(st, g), DisbandHeader, Match(TimeoutMm, g)), Event("match", "disbanded", None, g)];
      assert out[0] in out;
      (GroupErase(st, g, false), C.Erase(mmc, g), out)
    else if d == Start then
      var out := [SendList(List(st, g), StartHeader, Match(StartMm, g)), Event("match", "started", None, g)];
      assert out[0] in out;
      (st, C.Erase(mmc, g), out)
    else (st, mmc, [])
  }

  /** The matches that stay open, the stores after the closures, and what
      was sent. */
  datatype Settled = Settled(store: Store, mmc: C.Records, kept: seq<Record>, out: seq<Out>)

  lemma IdsCons(rs: seq<Record>)
    requires rs != []
    ensures Ids(rs) == [rs[0].groupId] + Ids(rs[1..])
  {}

  lemma IdsMember(rs: seq<Record>, rec: Record)
    requires rec in rs
    ensures rec.groupId in Ids(rs)
  {
    var i :| 0 <= i < |rs| && rs[i] == rec;
    assert Ids(rs)[i] == rec.groupId;
  }

  /** The closures for all open matches, in `_confirmations` key order. */
  function Settle(st: Store, mmc: C.Records, rs: seq<Record>, now: int, lobbySize: int): (r: Settled)
    requires Valid(st) && NoDup(Ids(rs))
    ensures Valid(r.store)
    ensures forall rec :: rec in r.kept ==> rec in rs
    ensures forall rec :: rec in rs ==> (rec in r.kept <==> Verdict(mmc, rec, now, lobbySize) == Wait)
    ensures NoDup(Ids(r.kept))
    ensures forall g, t :: g !in Ids(rs) ==> C.View(r.mmc, g, t) == C.View(mmc, g, t)
    ensures forall rec, t :: rec in r.kept ==> C.View(r.mmc, rec.groupId, t) == C.View(mmc, rec.groupId, t)
    decreases |rs|
  {
    if rs == [] then Settled(st, mmc, [], [])
    else
      var rec := rs[0];
      var tail := rs[1..];
      IdsCons(rs);
      NoDupNotInTail(Ids(rs));
      var (st1, mmc1, head) := SettleOne(st, mmc, rec, now, lobbySize);
      var rest := Settle(st1, mmc1, tail, now, lobbySize);
      var kept := if Verdict(mmc, rec, now, lobbySize) == Wait then [rec] + rest.kept else rest.kept;
      SettleStep(mmc, mmc1, rec, tail, rest.kept, now, lobbySize);
      Settled(rest.store, rest.mmc, kept, head + rest.out)
  }

  /** `Settle` announces nothing about a group it was not given. */
  lemma {:induction false} SettleAnnouncesOwn(st: Store, mmc: C.Records, rs: seq<Record>, now: int, lobbySize: int)
    requires Valid(st) && NoDup(Ids(rs))
    ensures forall h, mm, g :: Announced(Settle(st, mmc, rs, now, lobbySize).out, h, mm, g) ==> g in Ids(rs)
    decreases |rs|
  {
    if rs != [] {
      var rec := rs[0];
      var tail := rs[1..];
      IdsCons(rs);
      NoDupNotInTail(Ids(rs));
      var (st1, mmc1, head) := SettleOne(st, mmc, rec, now, lobbySize);
      SettleAnnouncesOwn(st1, mmc1, tail, now, lobbySize);
      AnnouncedConcat(head, Settle(st1, mmc1, tail, now, lobbySize).out);
    }
  }

  /** What `Settle` announces about the groups it was given: a start for
      exactly the matches whose verdict is Start, and a timeout for exactly
      those whose verdict is Disband. */
  lemma {:induction false} SettleAnnounces(st: Store, mmc: C.Records, rs: seq<Record>, now: int, lobbySize: int, h: string, mm: string, v: Decision)
    requires Valid(st) && NoDup(Ids(rs))
    requires (h, mm, v) == (StartHeader, StartMm, Start) || (h, mm, v) == (DisbandHeader, TimeoutMm, Disband)
    ensures forall rec :: rec in rs ==>
      (Announced(Settle(st, mmc, rs, now, lobbySize).out, h, mm, rec.groupId) <==> Verdict(mmc, rec, now, lobbySize) == v)
    decreases |rs|
  {
    if rs != [] {
      var rec := rs[0];
      var tail := rs[1..];
      IdsCons(rs);
      NoDupNotInTail(Ids(rs));
      var (st1, mmc1, head) := SettleOne(st, mmc, rec, now, lobbySize);
      var rest := Settle(st1, mmc1, tail, now, lobbySize);
      SettleAnnounces(st1, mmc1, tail, now, lobbySize, h, mm, v);
      SettleAnnouncesOwn(st1, mmc1, tail, now, lobbySize);
      SettleStep(mmc, mmc1, rec, tail, rest.kept, now, lobbySize);
      AnnouncedConcat(head, rest.out);
      forall x | x in rs
        ensures Announced(head + rest.out, h, mm, x.groupId) <==> Verdict(mmc, x, now, lobbySize) == v
      {
        if x != rec {
          assert x in tail;
        }
      }
    }
  }

  /** The bookkeeping of one step of `Settle`: the tail's verdicts do not
      see the head's erase, and prepending a waiting head keeps the ids
      distinct. */
  lemma SettleStep(mmc: C.Records, mmc1: C.Records, rec: Record, tail: seq<Record>, kept: seq<Record>, now: int, lobbySize: int)
    requires rec.groupId !in Ids(tail)
    requires forall g, t :: g != rec.groupId ==> C.View(mmc1, g, t) == C.View(mmc, g, t)
    requires forall x :: x in kept ==> x in tail
    requires NoDup(Ids(kept))
    ensures forall x :: x in tail ==> x.groupId != rec.groupId
    ensures forall x :: x in tail ==> Verdict(mmc1, x, now, lobbySize) == Verdict(mmc, x, now, lobbySize)
    ensures NoDup(Ids([rec] + kept))
  {
    forall x | x in tail ensures x.groupId != rec.groupId {
      IdsMember(tail, x);
    }
    assert rec.groupId !in Ids(kept) by {
      forall j | 0 <= j < |kept| ensures Ids(kept)[j] != rec.groupId {
        assert kept[j] in tail;
      }
    }
    IdsCons([rec] + kept);
    assert ([rec] + kept)[1..] == kept;
    NoDupConcat([rec.groupId], Ids(kept));
  }

  /** `_executeMatchConfirmationLogic(intern)`: the confirmation tick. Manual
      runs are refused while the interval is active. Each open match is
      disbanded (announced, its record, list and group erased), started
      (announced, its record and list erased) or left waiting. */
  function ConfirmTick(rooms: Rooms, now: int, intern: bool): (r: Result<Outcome>)
    requires WellFormed(rooms)
    ensures r.Err? <==> !intern && rooms.interval
    ensures r.Ok? ==> WellFormed(r.value.rooms)
    ensures r.Ok? ==> r.value.rooms == rooms.(store := r.value.rooms.store, mmc := r.value.rooms.mmc, records := r.value.rooms.records)
    ensures r.Ok? ==> forall rec :: rec in r.value.rooms.records <==>
      rec in rooms.records && Verdict(rooms.mmc, rec, now, rooms.lobbySize) == Wait
    ensures r.Ok? ==> forall rec :: rec in rooms.records ==>
      (Announced(r.value.out, StartHeader, StartMm, rec.groupId) <==> Verdict(rooms.mmc, rec, now, rooms.lobbySize) == Start)
    ensures r.Ok? ==> forall rec :: rec in rooms.records ==>
      (Announced(r.value.out, DisbandHeader, TimeoutMm, rec.groupId) <==> Verdict(rooms.mmc, rec, now, rooms.lobbySize) == Disband)
    ensures r.Ok? ==> forall h, mm, g :: Announced(r.value.out, h, mm, g) ==> g in Ids(rooms.records)
  {
    if !intern && rooms.interval then Err("cannot execute mm confirmation logic manually, when interval is active.")
    else
      var s := Settle(rooms.store, rooms.mmc, rooms.records, now, rooms.lobbySize);
      SettleAnnouncesOwn(rooms.store, rooms.mmc, rooms.records, now, rooms.lobbySize);
      SettleAnnounces(rooms.store, rooms.mmc, rooms.records, now, rooms.lobbySize, StartHeader, StartMm, Start);
      SettleAnnounces(rooms.store, rooms.mmc, rooms.records, now, rooms.lobbySize, DisbandHeader, TimeoutMm, Disband);
      Ok(Outcome(rooms.(store := s.store, mmc := s.mmc, records := s.kept), s.out))
  }

  /** A second tick at the same instant settles nothing more: every match
      the first one kept is kept again and nothing is announced. */
  lemma SecondTickSettlesNothing(rooms: Rooms, now: int)
    requires WellFormed(rooms) && !rooms.interval
    ensures var once := ConfirmTick(rooms, now, false).value.rooms;
      var twice := ConfirmTick(once, now, false).value;
      && (forall rec :: rec in twice.rooms.records <==> rec in once.records)
      && forall g :: !Announced(twice.out, StartHeader, StartMm, g) && !Announced(twice.out, DisbandHeader, TimeoutMm, g)
  {
    var s := Settle(rooms.store, rooms.mmc, rooms.records, now, rooms.lobbySize);
    var once := ConfirmTick(rooms, now, false).value.rooms;
    assert once.records == s.kept && once.mmc == s.mmc;
    forall rec | rec in once.records ensures Verdict(once.mmc, rec, now, rooms.lobbySize) == Wait {
      assert C.View(once.mmc, rec.groupId, now) == C.View(rooms.mmc, rec.groupId, now);
    }
    var twice := ConfirmTick(once, now, false).value;
    forall g ensures !Announced(twice.out, StartHeader, StartMm, g) && !Announced(twice.out, DisbandHeader, TimeoutMm, g) {
      if g in Ids(once.records) {
        var i := IndexOf(Ids(once.records), g);
        var rec := once.records[i];
        assert rec.groupId == g;
        assert Verdict(once.mmc, rec, now, rooms.lobbySize) == Wait;
      }
    }
  }

  /** `__handleConfirm`: a confirmation with a string `matchId` from a
      member of that group is recorded (once) and every member, the sender
      included, is told. Anything else is ignored. The match need not be
      open. `push` reads the list before it writes, so EXPIRE reaches Redis
      ahead of LPUSH: an existing record's expiry is renewed, while the
      first confirmation creates a record without one. */
  function HandleConfirm(rooms: Rooms, c: string, content: Js, header: string, now: int): (r: Outcome)
    ensures r.rooms.store == rooms.store && r.rooms.records == rooms.records
    ensures r.rooms.queue == rooms.queue && r.rooms.interval == rooms.interval
    ensures !Truthy(content) || !Prop(content, "matchId").Str? ==> r == Outcome(rooms, [])
    ensures Truthy(content) && Prop(content, "matchId").Str? ==>
      var g := Prop(content, "matchId").s;
      if c !in List(rooms.store, g) then r == Outcome(rooms, [])
      else
        && C.View(r.rooms.mmc, g, now) == (if c in C.View(rooms.mmc, g, now) then [] else [c]) + C.View(rooms.mmc, g, now)
        && (C.Live(rooms.mmc, C.Key(g), now) ==> forall t :: t >= now + C.ExpireMs ==> C.View(r.rooms.mmc, g, t) == [])
        && (!C.Live(rooms.mmc, C.Key(g), now) ==> forall t :: t >= now ==> C.View(r.rooms.mmc, g, t) == [c])
        && (forall g', t :: g' != g ==> C.View(r.rooms.mmc, g', t) == C.View(rooms.mmc, g', t))
        && r.out == [SendList(List(rooms.store, g), header + NotifySuffix, Confirmed(c, g))]
  {
    if !Truthy(content) || !Prop(content, "matchId").Str? then Outcome(rooms, [])
    else
      var g := Prop(content, "matchId").s;
      if c !in List(rooms.store, g) then Outcome(rooms, [])
      else
        var expired := C.Expire(rooms.mmc, g, now);
        var (mmc, _) := C.Push(expired, g, c, now);
        assert forall g' :: g' != g ==> C.Key(g') != C.Key(g) by {
          forall g' | g' != g ensures C.Key(g') != C.Key(g) {
            C.KeyInjective(g', g);
          }
        }
        Outcome(rooms.(mmc := mmc), [SendList(List(rooms.store, g), header + NotifySuffix, Confirmed(c, g))])
  }

  /** A client's second confirmation does not change the count. */
  lemma ConfirmCountsOnce(rooms: Rooms, c: string, g: string, header: string, now: int)
    requires c in List(rooms.store, g)
    ensures var once := HandleConfirm(rooms, c, Obj1("matchId", Str(g)), header, now).rooms;
      var twice := HandleConfirm(once, c, Obj1("matchId", Str(g)), header, now).rooms;
      C.Size(twice.mmc, g, now) == C.Size(once.mmc, g, now) == C.Size(rooms.mmc, g, now) + (if c in C.View(rooms.mmc, g, now) then 0 else 1)
  {}

  /** `__search`: the client joins the queue group, both sides, with no
      check for other groups, and is acknowledged. */
  function Search(rooms: Rooms, c: string, header: string): (r: Result<Outcome>)
    ensures rooms.queue.None? <==> r.Err?
    ensures r.Ok? ==>
      var q := rooms.queue.value;
      && c in List(r.value.rooms.store, q) && q in List(r.value.rooms.store, c)
      && (forall k :: k != q && k != c ==> List(r.value.rooms.store, k) == List(rooms.store, k))
      && r.value.rooms == rooms.(store := r.value.rooms.store)
      && r.value.out == [Send(c, header, Ack(None))]
  {
    if rooms.queue.None? then Err("queue group id is not set, it should be generated during open().")
    else
      var q := rooms.queue.value;
      Ok(Outcome(rooms.(store := GroupPush(rooms.store, q, c, false)), [Send(c, header, Ack(None))]))
  }

  /** `__leave`: the client leaves the queue group, both sides. */
  function LeaveQueue(rooms: Rooms, c: string, header: string): (r: Result<Outcome>)
    ensures rooms.queue.None? <==> r.Err?
    ensures r.Ok? ==>
      var q := rooms.queue.value;
      && c !in List(r.value.rooms.store, q) && q !in List(r.value.rooms.store, c)
      && (forall k :: k != q && k != c ==> List(r.value.rooms.store, k) == List(rooms.store, k))
      && r.value.rooms == rooms.(store := r.value.rooms.store)
      && r.value.out == [Send(c, header, Ack(None))]
  {
    if rooms.queue.None? then Err("queue group id is not set, it should be generated during open().")
    else
      var q := rooms.queue.value;
      Ok(Outcome(rooms.(store := GroupRemove(rooms.store, q, c, false)), [Send(c, header, Ack(None))]))
  }

  /** SEARCH followed by LEAVE restores a queue that did not hold the
      client. */
  lemma SearchThenLeave(rooms: Rooms, c: string, header: string)
    requires rooms.queue.Some? && Tidy(rooms.store)
    requires c !in List(rooms.store, rooms.queue.value) && rooms.queue.value !in List(rooms.store, c)
    ensures LeaveQueue(Search(rooms, c, header).value.rooms, c, header).value.rooms == rooms
  {
    var q := rooms.queue.value;
    var st := rooms.store;
    var st1 := GroupPush(st, q, c, false);
    WriteTidy(st, c, [q] + List(st, c));
    WriteTidy(LPush(st, c, q), q, [c] + List(LPush(st, c, q), q));
    RemoveAbsentAfterPush(st, q, c);
  }

  lemma RemoveAbsentAfterPush(st: Store, g: string, c: string)
    requires Tidy(st) && Tidy(GroupPush(st, g, c, false))
    requires c !in List(st, g) && g !in List(st, c)
    ensures GroupRemove(GroupPush(st, g, c, false), g, c, false) == st
  {
    var st1 := GroupPush(st, g, c, false);
    var st2 := GroupRemove(st1, g, c, false);
    if g == c {
      assert List(st2, g) == RemoveAll(RemoveAll([c, c] + List(st, g), c), c);
      assert ([c, c] + List(st, g))[1..] == [c] + List(st, g);
      assert ([c] + List(st, g))[1..] == List(st, g);
    } else {
      assert ([c] + List(st, g))[1..] == List(st, g);
      assert ([g] + List(st, c))[1..] == List(st, c);
    }
    WriteTidy(st1, c, RemoveAll(List(st1, c), g));
    WriteTidy(LRem(st1, c, g), g, RemoveAll(List(LRem(st1, c, g), g), c));
    StoreExt(st2, st);
  }

  /** `__broadcastUpdate`: the delivery goes to the queue's members except
      the sender. Before `open()` the queue id is unset and the broadcast
      reaches an empty, freshly named group. */
  function BroadcastUpdate(rooms: Rooms, c: string, content: Js, header: string): (r: Result<Outcome>)
    ensures Nullish(content) <==> r.Err?
    ensures r.Ok? ==> r.value.rooms == rooms && |r.value.out| == 1 && r.value.out[0].SendList?
    ensures r.Ok? ==> r.value.out[0].body == Delivery(c, Prop(content, "delivery"), None) && r.value.out[0].header == header
    ensures r.Ok? ==> forall x :: x in r.value.out[0].recipients <==>
      rooms.queue.Some? && x in List(rooms.store, rooms.queue.value) && !(c != "" && x == c)
  {
    if Nullish(content) then Err("TypeError: cannot read property 'delivery'")
    else
      var to := if rooms.queue.Some? then
                  (if c != "" then RemoveAll(List(rooms.store, rooms.queue.value), c) else List(rooms.store, rooms.queue.value))
                else [];
      Ok(Outcome(rooms, [SendList(to, header, Delivery(c, Prop(content, "delivery"), None))]))
  }

  /** Where `_attachInternalRoomListener` sends a header. */
  datatype Route = SearchR | LeaveR | BroadcastR | ConfirmR | UpdateR | Ignore

  function RouteOf(header: string): (r: Route)
    ensures r == SearchR <==> header == SearchHeader
    ensures r == LeaveR <==> header == LeaveHeader
    ensures r == BroadcastR <==> header == BroadcastHeader
    ensures r == ConfirmR <==> header == ConfirmHeader
    ensures r == UpdateR <==> header in {StateHeader, MessageHeader, WorldHeader}
  {
    if header == SearchHeader then SearchR
    else if header == LeaveHeader then LeaveR
    else if header == BroadcastHeader then BroadcastR
    else if header == ConfirmHeader then ConfirmR
    else if header in {StateHeader, MessageHeader, WorldHeader} then UpdateR
    else Ignore
  }

  /** One internal message for the room layer. The state, message and world
      update handlers are empty. */
  function Dispatch(rooms: Rooms, c: string, header: string, content: Js, now: int): (r: Result<Outcome>)
    ensures RouteOf(header) in {UpdateR, Ignore} ==> r == Ok(Outcome(rooms, []))
    ensures RouteOf(header) == SearchR ==> r == Search(rooms, c, header)
    ensures RouteOf(header) == LeaveR ==> r == LeaveQueue(rooms, c, header)
    ensures RouteOf(header) == BroadcastR ==> r == BroadcastUpdate(rooms, c, content, header)
    ensures RouteOf(header) == ConfirmR ==> r == Ok(HandleConfirm(rooms, c, content, header, now))
    ensures r.Err? <==> (RouteOf(header) in {SearchR, LeaveR} && rooms.queue.None?)
                        || (RouteOf(header) == BroadcastR && Nullish(content))
    ensures r.Ok? ==> r.value.rooms.records == rooms.records && r.value.rooms.interval == rooms.interval
  {
    match RouteOf(header)
    case SearchR => Search(rooms, c, header)
    case LeaveR => LeaveQueue(rooms, c, header)
    case BroadcastR => BroadcastUpdate(rooms, c, content, header)
    case ConfirmR => Ok(HandleConfirm(rooms, c, content, header, now))
    case UpdateR => Ok(Outcome(rooms, []))
    case Ignore => Ok(Outcome(rooms, []))
  }
}

=== FILE: relay.dfy ===
/** The connection layer (lib/Server.js): the registry of sockets connected
    to this instance, sending to a client here or relaying through the out
    channel to the instance that holds it, and the global channel shared by
    all instances. A socket send either succeeds or fails; `sendOk` says
    which. Channel messages are the values published; their JSON text is
    not modelled, and an incoming message is `None` when it does not
    parse. */
module Relay {
  import opened JsValue
  import opened Wrappers
  import opened Seqs

  /** A registry entry: `{clientId, socket, created}`. */
  datatype Client = Client(clientId: string, created: int)

  /** What an instance does: a socket send that succeeded, a publication on
      the out or global channel, or an event it emits. */
  datatype Effect =
    | Deliver(to: string, message: Js)
    | PublishOut(envelope: Js)
    | PublishGlobal(envelope: Js)
    | EmitMessage(clientId: string, message: Js)
    | EmitInternal(clientId: string, header: string, content: Js)
    | EmitClose(clientId: string)
    | EmitConnection(clientId: string)
    | EmitGlobal(kind: Js, message: Js)

  /** How `send` resolves: 1 (sent here), 2 (relayed), or with the socket
      error. */
  datatype Sent = Local | Relayed | SocketError

  const ClosedHeader := "CLOSE"
  const EmptyObject := Obj(map[])

  /** The message `_onConnection` raises so the JSON layer can greet the
      client. */
  const ConnectedMessage := Obj(map["type" := Str("internal"), "header" := Str("CONNECTED"), "content" := EmptyObject])

  function Ids(clients: seq<Client>): (ids: seq<string>)
    ensures |ids| == |clients|
    ensures forall i :: 0 <= i < |clients| ==> ids[i] == clients[i].clientId
  {
    seq(|clients|, i requires 0 <= i < |clients| => clients[i].clientId)
  }

  lemma IdsConcat(a: seq<Client>, b: seq<Client>)
    ensures Ids(a + b) == Ids(a) + Ids(b)
  {}

  /** `_getClientForId`: the index of the first entry with that id; none for
      an id that is not a string. */
  function ClientForId(clients: seq<Client>, clientId: Js): (r: Option<nat>)
    ensures !clientId.Str? ==> r.None?
    ensures r.Some? ==> r.value < |clients| && clients[r.value].clientId == clientId.s
    ensures r.Some? ==> forall j :: 0 <= j < r.value ==> clients[j].clientId != clientId.s
    ensures r.None? && clientId.Str? ==> clientId.s !in Ids(clients)
  {
    if !clientId.Str? then None
    else
      var i := IndexOf(Ids(clients), clientId.s);
      if i < |clients| then Some(i) else None
  }

  /** `_removeClientForId`: the first entry with the id is spliced out. */
  function RemoveClientForId(clients: seq<Client>, clientId: Js): (r: (seq<Client>, bool))
    ensures r.1 <==> clientId.Str? && clientId.s in Ids(clients)
    ensures !r.1 ==> r.0 == clients
    ensures r.1 ==> |r.0| == |clients| - 1
    ensures r.1 ==> multiset(Ids(r.0)) == multiset(Ids(clients)) - multiset{clientId.s}
    ensures r.1 ==> var i := ClientForId(clients, clientId).value; r.0 == clients[..i] + clients[i + 1..]
  {
    match ClientForId(clients, clientId)
    case None => (clients, false)
    case Some(i) =>
      SpliceIds(clients, i);
      (clients[..i] + clients[i + 1..], true)
  }

  lemma SpliceIds(clients: seq<Client>, i: nat)
    requires i < |clients|
    ensures multiset(Ids(clients[..i] + clients[i + 1..])) == multiset(Ids(clients)) - multiset{clients[i].clientId}
  {
    assert clients == clients[..i] + [clients[i]] + clients[i + 1..];
    IdsConcat(clients[..i] + [clients[i]], clients[i + 1..]);
    IdsConcat(clients[..i], [clients[i]]);
    IdsConcat(clients[..i], clients[i + 1..]);
  }

  /** `_onConnection`: a fresh `c:` id is appended to the registry, the
      CONNECTED greeting is raised as an incoming message, and the
      connection event follows. */
  function Connect(clients: seq<Client>, uuid: string, now: int): (r: (seq<Client>, string, seq<Effect>))
    ensures r.1 == "c:" + uuid
    ensures r.0 == clients + [Client(r.1, now)]
    ensures r.2 == [EmitMessage(r.1, ConnectedMessage), EmitConnection(r.1)]
  {
    var c := "c:" + uuid;
    (clients + [Client(c, now)], c, [EmitMessage(c, ConnectedMessage), EmitConnection(c)])
  }

  /** The socket's close handler: the internal CLOSE message and the close
      event are raised only when the entry was removed. */
  function Close(clients: seq<Client>, c: string): (r: (seq<Client>, seq<Effect>))
    ensures c in Ids(clients) <==> r.1 != []
    ensures c in Ids(clients) ==> r.1 == [EmitInternal(c, ClosedHeader, EmptyObject), EmitClose(c)]
    ensures c in Ids(clients) ==> |r.0| == |clients| - 1 && multiset(Ids(r.0)) == multiset(Ids(clients)) - multiset{c}
    ensures c !in Ids(clients) ==> r.0 == clients
  {
    var removal := RemoveClientForId(clients, Str(c));
    if removal.1 then (removal.0, [EmitInternal(c, ClosedHeader, EmptyObject), EmitClose(c)]) else (clients, [])
  }

  /** A connection followed by its close leaves the registry as it was and
      raises CLOSE once, provided the fresh id was not already registered. */
  lemma ConnectThenClose(clients: seq<Client>, uuid: string, now: int)
    requires "c:" + uuid !in Ids(clients)
    ensures Connect(clients, uuid, now).0 == clients + [Client("c:" + uuid, now)]
    ensures var c := "c:" + uuid;
      Close(clients + [Client(c, now)], c) == (clients, [EmitInternal(c, ClosedHeader, EmptyObject), EmitClose(c)])
  {
    CloseLast(clients, "c:" + uuid, now);
  }

  /** Closing the socket registered last, whose id no earlier socket
      has, restores the registry before it. */
  lemma CloseLast(clients: seq<Client>, c: string, now: int)
    requires c !in Ids(clients)
    ensures Close(clients + [Client(c, now)], c) == (clients, [EmitInternal(c, ClosedHeader, EmptyObject), EmitClose(c)])
  {
    var after := clients + [Client(c, now)];
    IdsConcat(clients, [Client(c, now)]);
    assert Ids(after)[|clients|] == c;
    var i := ClientForId(after, Str(c)).value;
    assert i == |clients|;
    assert after[..i] == clients && after[i + 1..] == [];
    var removal := RemoveClientForId(after, Str(c));
    assert removal.1 && removal.0 == after[..i] + after[i + 1..];
    assert Close(after, c).0 == clients;
    assert Close(after, c).1 == [EmitInternal(c, ClosedHeader, EmptyObject), EmitClose(c)];
  }

  /** With distinct ids, a second close of the same socket raises nothing. */
  lemma CloseTwiceIsQuiet(clients: seq<Client>, c: string)
    requires NoDup(Ids(clients)) && c in Ids(clients)
    ensures Close(Close(clients, c).0, c).1 == []
  {
    var after := Close(clients, c).0;
    if c in Ids(after) {
      assert multiset(Ids(after))[c] >= 1;
      assert multiset(Ids(clients))[c] >= 2;
      MultisetTwice(Ids(clients), c);
    }
  }

  /** An element that occurs twice is a duplicate. */
  lemma {:induction false} MultisetTwice(s: seq<string>, x: string)
    requires NoDup(s)
    ensures multiset(s)[x] <= 1
  {
    if s != [] {
      assert s == [s[0]] + s[1..];
      assert NoDup(s[1..]) by {
        forall i, j | 0 <= i < j < |s[1..]| ensures s[1..][i] != s[1..][j] {
          assert s[i + 1] != s[j + 1];
        }
      }
      MultisetTwice(s[1..], x);
      NoDupNotInTail(s);
      if x == s[0] {
        assert multiset(s[1..])[x] == 0;
      }
    }
  }

  /** The out-channel envelope `{clientId, originId, message}`. */
  function OutEnvelope(clientId: Js, origin: string, message: Js): Js {
    Obj(map["clientId" := clientId, "originId" := Str(origin), "message" := message])
  }

  /** `_send` for a client held here: the socket send, if it succeeds. */
  function SendHere(clients: seq<Client>, i: nat, message: Js, sendOk: string -> bool): (r: seq<Effect>)
    requires i < |clients|
    ensures sendOk(clients[i].clientId) <==> r == [Deliver(clients[i].clientId, message)]
    ensures !sendOk(clients[i].clientId) <==> r == []
  {
    if sendOk(clients[i].clientId) then [Deliver(clients[i].clientId, message)] else []
  }

  /** `send(clientId, message)`: a client held here gets the message on its
      socket (resolving 1, or with the socket's error); any other id is
      relayed on the out channel (resolving 2). It never rejects. */
  function Send(clients: seq<Client>, origin: string, clientId: Js, message: Js, sendOk: string -> bool): (r: (Sent, seq<Effect>))
    ensures r.0 == Relayed <==> ClientForId(clients, clientId).None?
    ensures r.0 == Relayed ==> r.1 == [PublishOut(OutEnvelope(clientId, origin, message))]
    ensures r.0 == Local <==> clientId.Str? && clientId.s in Ids(clients) && sendOk(clientId.s)
    ensures r.0 == Local ==> r.1 == [Deliver(clientId.s, message)]
    ensures r.0 == SocketError ==> r.1 == []
  {
    match ClientForId(clients, clientId)
    case None => (Relayed, [PublishOut(OutEnvelope(clientId, origin, message))])
    case Some(i) =>
      if sendOk(clients[i].clientId) then (Local, SendHere(clients, i, message, sendOk))
      else (SocketError, [])
  }

  /** The ids `_sendList` finds here, as their registry entries, and the
      ids it does not, in list order. */
  function Split(clients: seq<Client>, ids: seq<Js>): (r: (seq<Client>, seq<Js>))
    ensures |r.0| + |r.1| == |ids|
    ensures forall x :: x in r.1 <==> x in ids && ClientForId(clients, x).None?
    ensures forall c :: c in r.0 ==> c in clients && Str(c.clientId) in ids
    ensures forall x :: x in ids && x.Str? && x.s in Ids(clients) ==> exists c :: c in r.0 && c.clientId == x.s
  {
    if ids == [] then ([], [])
    else
      var (here, away) := Split(clients, ids[1..]);
      assert forall x :: x in ids <==> x == ids[0] || x in ids[1..];
      match ClientForId(clients, ids[0])
      case Some(i) => ([clients[i]] + here, away)
      case None => (here, [ids[0]] + away)
  }

  /** The local half of `_sendList`: one reflected send per client found,
      in order. */
  function SendAll(found: seq<Client>, message: Js, sendOk: string -> bool): (r: (seq<bool>, seq<Effect>))
    ensures |r.0| == |found|
    ensures forall i :: 0 <= i < |found| ==> r.0[i] == sendOk(found[i].clientId)
    ensures forall e :: e in r.1 <==> exists c :: c in found && sendOk(c.clientId) && e == Deliver(c.clientId, message)
  {
    if found == [] then ([], [])
    else
      var (oks, effects) := SendAll(found[1..], message, sendOk);
      var c := found[0];
      var head := if sendOk(c.clientId) then [Deliver(c.clientId, message)] else [];
      assert forall x :: x in found <==> x == c || x in found[1..];
      ([sendOk(c.clientId)] + oks, head + effects)
  }

  /** `_sendList` as written: for each id not held here it remembers the
      whole id array, so every relay envelope carries the array as its
      `clientId`. */
  function SendListAsWritten(clients: seq<Client>, origin: string, clientIds: Js, message: Js, sendOk: string -> bool)
    : (r: Result<(seq<bool>, seq<Effect>)>)
    ensures !clientIds.Arr? <==> r.Err?
    ensures r.Ok? ==>
      var (found, missing) := Split(clients, clientIds.items);
      var published := |missing|;
      && published <= |r.value.1|
      && (forall i :: 0 <= i < published ==> r.value.1[i] == PublishOut(OutEnvelope(clientIds, origin, message)))
      && r.value.0 == SendAll(found, message, sendOk).0
  {
    if !clientIds.Arr? then Err("clientIds must be an array.")
    else
      var (found, missing) := Split(clients, clientIds.items);
      var relays := seq(|missing|, _ => PublishOut(OutEnvelope(clientIds, origin, message)));
      var (oks, delivered) := SendAll(found, message, sendOk);
      Ok((oks, relays + delivered))
  }

  /** `_sendList` relaying each missing id on its own. */
  function SendList(clients: seq<Client>, origin: string, clientIds: Js, message: Js, sendOk: string -> bool)
    : (r: Result<(seq<bool>, seq<Effect>)>)
    ensures !clientIds.Arr? <==> r.Err?
    ensures r.Ok? ==>
      var (found, missing) := Split(clients, clientIds.items);
      && |missing| <= |r.value.1|
      && (forall i :: 0 <= i < |missing| ==> r.value.1[i] == PublishOut(OutEnvelope(missing[i], origin, message)))
      && (forall e :: e in r.value.1[|missing|..] <==> exists c :: c in found && sendOk(c.clientId) && e == Deliver(c.clientId, message))
      && r.value.0 == SendAll(found, message, sendOk).0
  {
    if !clientIds.Arr? then Err("clientIds must be an array.")
    else
      var (found, missing) := Split(clients, clientIds.items);
      var relays := seq(|missing|, i requires 0 <= i < |missing| => PublishOut(OutEnvelope(missing[i], origin, message)));
      var (oks, delivered) := SendAll(found, message, sendOk);
      assert (relays + delivered)[|missing|..] == delivered;
      Ok((oks, relays + delivered))
  }

  /** `_onMessageOut`: an envelope that parses to a truthy value and does
      not come from this instance is handed to `_send` without relaying
      again; a client not held here drops it. */
  function OnMessageOut(clients: seq<Client>, origin: string, incoming: Option<Js>, sendOk: string -> bool): (r: seq<Effect>)
    ensures incoming.None? || !Truthy(incoming.value) ==> r == []
    ensures incoming.Some? && Prop(incoming.value, "originId") == Str(origin) ==> r == []
    ensures forall e :: e in r ==> e.Deliver?
    ensures r != [] <==>
      && incoming.Some? && Truthy(incoming.value) && Prop(incoming.value, "originId") != Str(origin)
      && var to := Prop(incoming.value, "clientId");
         to.Str? && to.s in Ids(clients) && sendOk(to.s)
    ensures r != [] ==> r == [Deliver(Prop(incoming.value, "clientId").s, Prop(incoming.value, "message"))]
  {
    if incoming.None? || !Truthy(incoming.value) then []
    else
      var m := incoming.value;
      if Prop(m, "originId") == Str(origin) then []
      else
        match ClientForId(clients, Prop(m, "clientId"))
        case None => []
        case Some(i) => SendHere(clients, i, Prop(m, "message"), sendOk)
  }

  /** Relaying works: a message for a client held by another instance
      reaches it through the out channel. */
  lemma RelayReachesRemote(here: seq<Client>, there: seq<Client>, origin: string, remote: string, x: string,
                           message: Js, sendOk: string -> bool)
    requires x !in Ids(here) && x in Ids(there) && sendOk(x) && origin != remote
    ensures var r := SendList(here, origin, Arr([Str(x)]), message, sendOk).value.1;
      r[0].PublishOut? && OnMessageOut(there, remote, Some(r[0].envelope), sendOk) == [Deliver(x, message)]
  {
    assert [Str(x)][1..] == [];
  }

  /** The relay as written is lost: the envelope names an array, which no
      instance resolves to a client. */
  lemma RelayAsWrittenIsLost(here: seq<Client>, there: seq<Client>, origin: string, remote: string, x: string,
                             message: Js, sendOk: string -> bool)
    requires x !in Ids(here) && x in Ids(there) && sendOk(x) && origin != remote
    ensures var r := SendListAsWritten(here, origin, Arr([Str(x)]), message, sendOk).value.1;
      r[0].PublishOut? && OnMessageOut(there, remote, Some(r[0].envelope), sendOk) == []
  {
    assert [Str(x)][1..] == [];
  }

  /** The global-channel envelope `{type, message, toSelf, originId}`. */
  function GlobalEnvelope(kind: string, message: Js, toSelf: bool, origin: string): Js {
    Obj(map["type" := Str(kind), "message" := message, "toSelf" := Bool(toSelf), "originId" := Str(origin)])
  }

  /** `_publishGlobal`: nothing is published for a falsy message. */
  function PublishGlobalMessage(origin: string, kind: string, message: Js, toSelf: bool): (r: seq<Effect>)
    ensures !Truthy(message) <==> r == []
    ensures Truthy(message) ==> r == [PublishGlobal(GlobalEnvelope(kind, message, toSelf, origin))]
  {
    if !Truthy(message) then [] else [PublishGlobal(GlobalEnvelope(kind, message, toSelf, origin))]
  }

  /** `broadcastGlobal`: always addressed to this instance too. */
  function BroadcastGlobal(origin: string, message: Js): (r: seq<Effect>)
    ensures Truthy(message) ==> r == [PublishGlobal(GlobalEnvelope("broadcast", message, true, origin))]
    ensures !Truthy(message) ==> r == []
  {
    PublishGlobalMessage(origin, "broadcast", message, true)
  }

  /** `broadcast`: every socket held here gets the message. */
  function Broadcast(clients: seq<Client>, message: Js, sendOk: string -> bool): (r: seq<Effect>)
    ensures forall e :: e in r <==> exists c :: c in clients && sendOk(c.clientId) && e == Deliver(c.clientId, message)
  {
    SendAll(clients, message, sendOk).1
  }

  /** `_onMessageGlobal`: an envelope that parses to a truthy value is
      ignored iff it is not meant for its sender and comes from here; a
      broadcast goes to every local socket, any other type is raised as a
      global event. */
  function OnMessageGlobal(clients: seq<Client>, origin: string, incoming: Option<Js>, sendOk: string -> bool): (r: seq<Effect>)
    ensures incoming.None? || !Truthy(incoming.value) ==> r == []
    ensures incoming.Some? && Truthy(incoming.value) ==>
      var m := incoming.value;
      if !Truthy(Prop(m, "toSelf")) && Prop(m, "originId") == Str(origin) then r == []
      else if Prop(m, "type") == Str("broadcast") then r == Broadcast(clients, Prop(m, "message"), sendOk)
      else r == [EmitGlobal(Prop(m, "type"), Prop(m, "message"))]
  {
    if incoming.None? || !Truthy(incoming.value) then []
    else
      var m := incoming.value;
      if !Truthy(Prop(m, "toSelf")) && Prop(m, "originId") == Str(origin) then []
      else if Prop(m, "type") == Str("broadcast") then Broadcast(clients, Prop(m, "message"), sendOk)
      else [EmitGlobal(Prop(m, "type"), Prop(m, "message"))]
  }

  /** A global broadcast reaches the sockets of the sending instance as well
      as those of every other one. */
  lemma BroadcastGlobalReachesAll(clients: seq<Client>, origin: string, receiver: string, message: Js, sendOk: string -> bool)
    requires Truthy(message)
    ensures var env := BroadcastGlobal(origin, message)[0].envelope;
      OnMessageGlobal(clients, receiver, Some(env), sendOk) == Broadcast(clients, message, sendOk)
  {}

  /** Any other global message comes back to its sender only when it asks
      for it. */
  lemma OwnGlobalIgnoredUnlessToSelf(clients: seq<Client>, origin: string, kind: string, message: Js, toSelf: bool,
                                     sendOk: string -> bool)
    requires Truthy(message) && kind != "broadcast"
    ensures var env := PublishGlobalMessage(origin, kind, message, toSelf)[0].envelope;
      OnMessageGlobal(clients, origin, Some(env), sendOk) == (if toSelf then [EmitGlobal(Str(kind), message)] else [])
  {}
}

=== FILE: seqs.dfy ===
/** Small list operations shared by the store, the protocol layers and the
    matchmaker, with the facts about them the other modules rely on. */
module Seqs {

  /** Every element of `s` except `x`, in order: Redis `LREM key 0 x` and
      JavaScript's `filter(e => e !== x)`. */
  function RemoveAll<T(==,!new)>(s: seq<T>, x: T): (r: seq<T>)
    ensures forall y :: y in r <==> y in s && y != x
    ensures x !in s ==> r == s
    ensures |r| <= |s|
  {
    if s == [] then []
    else if s[0] == x then RemoveAll(s[1..], x)
    else [s[0]] + RemoveAll(s[1..], x)
  }

  /** `s` without any element of `xs`. */
  function RemoveEach<T(==,!new)>(s: seq<T>, xs: seq<T>): (r: seq<T>)
    ensures forall y :: y in r <==> y in s && y !in xs
    decreases xs
  {
    if xs == [] then s else RemoveEach(RemoveAll(s, xs[0]), xs[1..])
  }

  /** No element occurs twice. */
  predicate NoDup<T(==)>(s: seq<T>) {
    forall i, j :: 0 <= i < j < |s| ==> s[i] != s[j]
  }

  /** Number of occurrences of `x` in `s`. */
  function Count<T(==)>(s: seq<T>, x: T): nat {
    if s == [] then 0 else (if s[0] == x then 1 else 0) + Count(s[1..], x)
  }

  /** The elements of a list of lists, in order. */
  function Flatten<T>(ss: seq<seq<T>>): seq<T> {
    if ss == [] then [] else ss[0] + Flatten(ss[1..])
  }

  /** Index of the first occurrence of `x`, or `|s|` when absent. */
  function IndexOf<T(==)>(s: seq<T>, x: T): (i: nat)
    ensures i <= |s|
    ensures i < |s| <==> x in s
    ensures i < |s| ==> s[i] == x
    ensures forall j :: 0 <= j < i ==> s[j] != x
  {
    if s == [] then 0 else if s[0] == x then 0 else 1 + IndexOf(s[1..], x)
  }

  lemma CountPositive<T>(s: seq<T>, x: T)
    ensures Count(s, x) > 0 <==> x in s
  {
    if s != [] {
      CountPositive(s[1..], x);
      assert s == [s[0]] + s[1..];
    }
  }

  lemma RemoveAllNoDup<T(!new)>(s: seq<T>, x: T)
    requires NoDup(s)
    ensures NoDup(RemoveAll(s, x))
  {
    if s != [] {
      RemoveAllNoDup(s[1..], x);
      NoDupNotInTail(s);
      if s[0] != x {
        NoDupConcat([s[0]], RemoveAll(s[1..], x));
      }
    }
  }

  lemma NoDupNotInTail<T>(s: seq<T>)
    requires NoDup(s) && s != []
    ensures s[0] !in s[1..]
  {
    forall j | 0 <= j < |s[1..]|
      ensures s[1..][j] != s[0]
    {
      assert s[1..][j] == s[j + 1];
    }
  }

  lemma NoDupConcat<T>(a: seq<T>, b: seq<T>)
    requires NoDup(a) && NoDup(b)
    requires forall x :: x in a ==> x !in b
    ensures NoDup(a + b)
  {
    forall i, j | 0 <= i < j < |a + b|
      ensures (a + b)[i] != (a + b)[j]
    {
      if j < |a| {
      } else if i >= |a| {
        assert (a + b)[i] == b[i - |a|];
      } else {
        assert (a + b)[i] in a;
        assert (a + b)[j] == b[j - |a|];
      }
    }
  }

  /** Removing the elements of a duplicate-free prefix leaves the rest. */
  lemma {:induction false} RemoveEachPrefix<T(!new)>(p: seq<T>, s: seq<T>)
    requires NoDup(p + s)
    ensures RemoveEach(p + s, p) == s
    decreases |p|
  {
    if p != [] {
      NoDupNotInTail(p + s);
      assert (p + s)[1..] == p[1..] + s;
      RemoveAllNotInTail(p + s);
      assert NoDup(p[1..] + s) by {
        forall i, j | 0 <= i < j < |p[1..] + s| ensures (p[1..] + s)[i] != (p[1..] + s)[j] {
          assert (p[1..] + s)[i] == (p + s)[i + 1];
          assert (p[1..] + s)[j] == (p + s)[j + 1];
        }
      }
      RemoveEachPrefix(p[1..], s);
    }
  }

  /** Removing the head of a duplicate-free list leaves its tail. */
  lemma RemoveAllNotInTail<T(!new)>(s: seq<T>)
    requires s != [] && s[0] !in s[1..]
    ensures RemoveAll(s, s[0]) == s[1..]
  {}

  /** A duplicate-free list has as many elements as the set of its members. */
  lemma DistinctCard<T>(s: seq<T>, ks: set<T>)
    requires NoDup(s) && (forall k :: k in s <==> k in ks)
    ensures |s| == |ks|
  {
    if s != [] {
      NoDupNotInTail(s);
      DistinctCard(s[1..], ks - {s[0]});
    } else {
      assert ks == {};
    }
  }

  /** A non-empty list has its head as a member. */
  lemma HeadIsMember<T>(s: seq<T>)
    ensures s != [] ==> s[0] in s
  {}

  lemma FlattenAppend<T>(ss: seq<seq<T>>, s: seq<T>)
    ensures Flatten(ss + [s]) == Flatten(ss) + s
  {
    if ss != [] {
      assert (ss + [s])[1..] == ss[1..] + [s];
      FlattenAppend(ss[1..], s);
    }
  }
}

=== FILE: statesync.dfy ===
/** The state-sync logic of a running match (lib/logic/StateUpdateLogic.js):
    each member gets a secret identifier over TCP; a UDP client proves which
    member it serves by presenting that identifier; once every identifier
    is bound, state updates go to the bound UDP clients. The header names
    come from the hosting server (`PACKET_HEADERS`), which is not part of
    this model, so they are parameters. */
module StateSync {
  import opened JsValue
  import opened Wrappers
  import opened Seqs

  /** A first binding `{tcp, udp}` of an identifier. */
  datatype Binding = Binding(identifier: string, tcp: string, udp: Js)

  /** The options after defaulting (`undefined` becomes the default). */
  datatype Settings = Settings(updatesViaUdp: Js, calculateStateDistance: Js, maxStateDistanceSec: Js)

  /** `clientUidMap`, `validatedUidMap` (in key order), `udpClientList`,
      the latest state per client, and whether `execute` set the
      interval. */
  datatype Sync = Sync(uids: map<string, string>, bound: seq<Binding>, udpClients: seq<Js>,
                       states: map<string, Js>, running: bool)

  /** What the logic sends. */
  datatype Out =
    | ToClient(clientId: string, header: string, content: Js)
    | ToGroup(header: string, content: Js)
    | UdpList(recipients: seq<Js>, header: string, content: Js)
    | TcpList(recipients: seq<Js>, header: string, content: Js)

  function Identifiers(bs: seq<Binding>): (ids: seq<string>)
    ensures |ids| == |bs|
    ensures forall i :: 0 <= i < |bs| ==> ids[i] == bs[i].identifier
  {
    seq(|bs|, i requires 0 <= i < |bs| => bs[i].identifier)
  }

  function UdpIds(bs: seq<Binding>): (ids: seq<Js>)
    ensures |ids| == |bs|
    ensures forall i :: 0 <= i < |bs| ==> ids[i] == bs[i].udp
  {
    seq(|bs|, i requires 0 <= i < |bs| => bs[i].udp)
  }

  /** Bound identifiers are distinct. */
  ghost predicate Valid(s: Sync) {
    NoDup(Identifiers(s.bound))
  }

  function OrDefault(v: Js, d: Js): (r: Js)
    ensures v.Undefined? ==> r == d
    ensures !v.Undefined? ==> r == v
  {
    if v.Undefined? then d else v
  }

  /** The constructor's defaults: UDP updates on, distance checks on, 50 per
      second. */
  function Configure(updatesViaUdp: Js, calculateStateDistance: Js, maxStateDistanceSec: Js): (r: Settings)
    ensures updatesViaUdp.Undefined? ==> r.updatesViaUdp == Bool(true)
    ensures calculateStateDistance.Undefined? ==> r.calculateStateDistance == Bool(true)
    ensures maxStateDistanceSec.Undefined? ==> r.maxStateDistanceSec == Num(50)
    ensures !updatesViaUdp.Undefined? ==> r.updatesViaUdp == updatesViaUdp
    ensures !calculateStateDistance.Undefined? ==> r.calculateStateDistance == calculateStateDistance
    ensures !maxStateDistanceSec.Undefined? ==> r.maxStateDistanceSec == maxStateDistanceSec
  {
    Settings(OrDefault(updatesViaUdp, Bool(true)), OrDefault(calculateStateDistance, Bool(true)), OrDefault(maxStateDistanceSec, Num(50)))
  }

  const Fresh := Sync(map[], [], [], map[], false)

  /** `_generateAndSendIdentifierToClient`: the identifier is mapped to the
      client and sent to it. */
  function Issue(s: Sync, groupId: string, clientId: string, identifier: string, now: int, messageHeader: string): (r: (Sync, Out))
    ensures r.0 == s.(uids := s.uids[identifier := clientId])
    ensures r.1 == ToClient(clientId, messageHeader,
      Obj(map["created" := Num(now), "identifier" := Str(identifier), "groupId" := Str(groupId)]))
  {
    (s.(uids := s.uids[identifier := clientId]),
     ToClient(clientId, messageHeader, Obj(map["created" := Num(now), "identifier" := Str(identifier), "groupId" := Str(groupId)])))
  }

  function IssueAll(s: Sync, groupId: string, members: seq<string>, identifiers: seq<string>, now: int, messageHeader: string)
    : (r: (Sync, seq<Out>))
    requires |identifiers| == |members|
    ensures r.0 == s.(uids := r.0.uids)
    ensures |r.1| == |members|
    ensures forall i :: 0 <= i < |members| ==> r.1[i].ToClient? && r.1[i].clientId == members[i]
    ensures forall k :: k in r.0.uids <==> k in s.uids || k in identifiers
    ensures forall i :: 0 <= i < |identifiers| ==> identifiers[i] in r.0.uids
    ensures forall k :: k in s.uids && k !in identifiers ==> r.0.uids[k] == s.uids[k]
    ensures NoDup(identifiers) ==> forall i :: 0 <= i < |members| ==> r.0.uids[identifiers[i]] == members[i]
    decreases |members|
  {
    if members == [] then (s, [])
    else
      var (s1, o) := Issue(s, groupId, members[0], identifiers[0], now, messageHeader);
      var (s2, os) := IssueAll(s1, groupId, members[1..], identifiers[1..], now, messageHeader);
      assert forall k :: k in identifiers <==> k == identifiers[0] || k in identifiers[1..];
      assert NoDup(identifiers) ==> identifiers[0] !in identifiers[1..] && NoDup(identifiers[1..]) by {
        if NoDup(identifiers) {
          NoDupNotInTail(identifiers);
          forall i, j | 0 <= i < j < |identifiers[1..]| ensures identifiers[1..][i] != identifiers[1..][j] {
            assert identifiers[i + 1] != identifiers[j + 1];
          }
        }
      }
      (s2, [o] + os)
  }

  /** `execute`: throws while the interval is set; otherwise sets it and,
      when the group exists and has members, issues one identifier per
      member. `identifiers[i]` is the `uuid-uuid` drawn for the i-th
      member. */
  function Execute(s: Sync, groupId: string, members: Option<seq<string>>, identifiers: seq<string>, now: int,
                   messageHeader: string): (r: Result<(Sync, seq<Out>)>)
    requires members.Some? ==> |identifiers| == |members.value|
    ensures s.running <==> r.Err?
    ensures r.Ok? ==> r.value.0.running && r.value.0.bound == s.bound && r.value.0.udpClients == s.udpClients
    ensures r.Ok? && members.None? ==> r.value == (s.(running := true), [])
    ensures r.Ok? && members.Some? ==> forall i :: 0 <= i < |identifiers| ==> identifiers[i] in r.value.0.uids
    ensures r.Ok? && members.Some? && NoDup(identifiers) ==>
      forall i :: 0 <= i < |identifiers| ==> r.value.0.uids[identifiers[i]] == members.value[i]
  {
    if s.running then Err("state update logic interval already active.")
    else
      var s1 := s.(running := true);
      if members.None? then Ok((s1, []))
      else Ok(IssueAll(s1, groupId, members.value, identifiers, now, messageHeader))
  }

  /** `end`: throws unless `execute` ran. The interval handle is cleared
      but not reset, so the logic cannot be executed again. */
  function End(s: Sync): (r: Result<Sync>)
    ensures !s.running <==> r.Err?
    ensures r.Ok? ==> r.value == s
  {
    if !s.running then Err("state update logic interval never ran.") else Ok(s)
  }

  /** The logic runs once: after `execute` and `end`, `execute` throws. */
  lemma RunsOnce(s: Sync, groupId: string, identifiers: seq<string>, now: int, messageHeader: string)
    requires !s.running
    ensures var first := Execute(s, groupId, None, identifiers, now, messageHeader);
      && first.Ok?
      && End(first.value.0).Ok?
      && Execute(End(first.value.0).value, groupId, None, identifiers, now, messageHeader).Err?
  {}

  /** `_validateClientIdentifier`: both ids are strings and the identifier
      was issued to that client. */
  function Validates(s: Sync, identifier: Js, clientId: Js): (ok: bool)
    ensures ok ==> identifier.Str? && clientId.Str? && identifier.s in s.uids
    ensures ok ==> clientId.s != "" && clientId.s in s.uids.Values
    ensures identifier.Str? && identifier.s in s.uids && s.uids[identifier.s] != "" ==>
      (ok <==> clientId == Str(s.uids[identifier.s]))
  {
    && identifier.Str? && clientId.Str?
    && identifier.s in s.uids && s.uids[identifier.s] != ""
    && s.uids[identifier.s] == clientId.s
  }

  /** An issued identifier validates its client and no other. */
  lemma IssuedValidates(s: Sync, groupId: string, c: string, identifier: string, other: Js, now: int, messageHeader: string)
    requires c != ""
    ensures var s1 := Issue(s, groupId, c, identifier, now, messageHeader).0;
      Validates(s1, Str(identifier), Str(c)) && (other != Str(c) ==> !Validates(s1, Str(identifier), other))
  {}

  /** `_checkFirstClientIdentifierValidation`: a repeat is refused and
      changes nothing; a first binding is recorded, and once as many
      identifiers are bound as were issued, the group is told and the UDP
      list becomes the bound UDP ids. */
  function CheckFirst(s: Sync, identifier: string, tcp: string, udp: Js, messageHeader: string, groupId: string)
    : (r: (Sync, bool, seq<Out>))
    requires Valid(s)
    ensures Valid(r.0)
    ensures identifier in Identifiers(s.bound) <==> !r.1
    ensures !r.1 ==> r.0 == s && r.2 == []
    ensures r.1 ==> r.0.bound == s.bound + [Binding(identifier, tcp, udp)] && r.0.uids == s.uids && r.0.states == s.states
    ensures r.1 && |r.0.bound| >= |s.uids| ==>
      && r.0.udpClients == UdpIds(r.0.bound)
      && r.2 == [ToGroup(messageHeader, Obj(map["info" := Str("VALIDATION-TOTAL"), "groupId" := Str(groupId)]))]
    ensures r.1 && |r.0.bound| < |s.uids| ==> r.0.udpClients == s.udpClients && r.2 == []
  {
    if identifier in Identifiers(s.bound) then (s, false, [])
    else
      var bound := s.bound + [Binding(identifier, tcp, udp)];
      assert Identifiers(bound) == Identifiers(s.bound) + [identifier];
      NoDupConcat(Identifiers(s.bound), [identifier]);
      if |bound| >= |s.uids| then
        (s.(bound := bound, udpClients := UdpIds(bound)), true,
         [ToGroup(messageHeader, Obj(map["info" := Str("VALIDATION-TOTAL"), "groupId" := Str(groupId)]))])
      else (s.(bound := bound), true, [])
  }

  /** `handleUdpMessage`: reading `payload.uid` throws on a nullish
      payload; an identifier that does not validate the payload's `tid`
      changes nothing; otherwise the binding is checked and a `state` event
      stores the state for the TCP client, provided `State.updateState`
      accepts it. Its schema check (`State.isValid`) is the parameter
      `validState`; a rejected state is only logged. */
  function HandleUdpMessage(s: Sync, event: Js, payload: Js, messageHeader: string, groupId: string,
                            validState: Js -> bool): (r: Result<(Sync, seq<Out>)>)
    requires Valid(s)
    ensures Nullish(payload) <==> r.Err?
    ensures r.Ok? ==> Valid(r.value.0)
    ensures r.Ok? && !Validates(s, Prop(payload, "uid"), Prop(payload, "tid")) ==> r.value == (s, [])
    ensures r.Ok? && Validates(s, Prop(payload, "uid"), Prop(payload, "tid")) ==>
      var tid := Prop(payload, "tid").s;
      && r.value.0.uids == s.uids
      && (Prop(payload, "uid").s in Identifiers(s.bound) ==> r.value.0.bound == s.bound)
      && (Prop(payload, "uid").s !in Identifiers(s.bound) ==> |r.value.0.bound| == |s.bound| + 1)
      && (event == Str("state") && validState(Prop(payload, "state")) ==>
            r.value.0.states == s.states[tid := Prop(payload, "state")])
      && (event != Str("state") || !validState(Prop(payload, "state")) ==> r.value.0.states == s.states)
    ensures r.Ok? && Validates(s, Prop(payload, "uid"), Prop(payload, "tid")) ==>
      var c := CheckFirst(s, Prop(payload, "uid").s, Prop(payload, "tid").s, Prop(payload, "udpId"), messageHeader, groupId);
      r.value.1 == c.2 && r.value.0.(states := c.0.states) == c.0
  {
    if Nullish(payload) then Err("TypeError: cannot read property 'uid'")
    else if !Validates(s, Prop(payload, "uid"), Prop(payload, "tid")) then Ok((s, []))
    else
      var uid := Prop(payload, "uid").s;
      var tid := Prop(payload, "tid").s;
      var (s1, _, out) := CheckFirst(s, uid, tid, Prop(payload, "udpId"), messageHeader, groupId);
      if event == Str("state") && validState(Prop(payload, "state")) then
        Ok((s1.(states := s1.states[tid := Prop(payload, "state")]), out))
      else Ok((s1, out))
  }

  /** Identifiers are only ever bound once they were issued, so the number
      bound never exceeds the number issued. */
  ghost predicate BoundIssued(s: Sync) {
    forall b :: b in s.bound ==> b.identifier in s.uids
  }

  lemma HandleKeepsBoundIssued(s: Sync, event: Js, payload: Js, messageHeader: string, groupId: string,
                               validState: Js -> bool)
    requires Valid(s) && BoundIssued(s)
    ensures var r := HandleUdpMessage(s, event, payload, messageHeader, groupId, validState);
      r.Ok? ==> BoundIssued(r.value.0) && |r.value.0.bound| <= |r.value.0.uids|
  {
    var r := HandleUdpMessage(s, event, payload, messageHeader, groupId, validState);
    if r.Ok? {
      var s1 := r.value.0;
      assert BoundIssued(s1) by {
        if Validates(s, Prop(payload, "uid"), Prop(payload, "tid")) {
          assert s1.uids == s.uids;
          forall b | b in s1.bound ensures b.identifier in s1.uids {
            if b !in s.bound {
              assert s1.bound[|s1.bound| - 1] == b;
            }
          }
        }
      }
      var ids := Identifiers(s1.bound);
      assert forall k :: k in ids ==> k in s1.uids.Keys by {
        forall k | k in ids ensures k in s1.uids.Keys {
          var i :| 0 <= i < |ids| && ids[i] == k;
          assert s1.bound[i] in s1.bound;
        }
      }
      var ks := set k | k in ids;
      DistinctCard(ids, ks);
      assert ks <= s1.uids.Keys;
      SubsetCard(ks, s1.uids.Keys);
      assert |s1.uids| == |s1.uids.Keys|;
    }
  }

  lemma SubsetCard<T>(a: set<T>, b: set<T>)
    requires a <= b
    ensures |a| <= |b|
  {
    assert b == a + (b - a);
  }

  /** The last issued identifier to bind switches the UDP list on, and the
      list holds every bound UDP id in binding order. */
  lemma LastBindingSwitches(s: Sync, identifier: string, tcp: string, udp: Js, messageHeader: string, groupId: string)
    requires Valid(s) && BoundIssued(s) && identifier in s.uids && identifier !in Identifiers(s.bound)
    requires |s.bound| + 1 == |s.uids|
    ensures var r := CheckFirst(s, identifier, tcp, udp, messageHeader, groupId);
      r.1 && r.0.udpClients == UdpIds(s.bound) + [udp]
  {
    var r := CheckFirst(s, identifier, tcp, udp, messageHeader, groupId);
    assert UdpIds(s.bound + [Binding(identifier, tcp, udp)]) == UdpIds(s.bound) + [udp];
  }

  /** `_loop`, one tick: with stored states, updates go to the UDP list
      iff UDP updates are on and the list is not empty; otherwise to the
      client ids of the stored states over TCP, if there are any. */
  function Tick(s: Sync, settings: Settings, stored: Option<seq<Js>>, now: int, stateHeader: string): (r: seq<Out>)
    ensures stored.None? ==> r == []
    ensures |r| <= 1
    ensures r != [] && r[0].UdpList? <==> stored.Some? && Truthy(settings.updatesViaUdp) && s.udpClients != []
    ensures r != [] && r[0].UdpList? ==> r[0].recipients == s.udpClients
    ensures r != [] && r[0].TcpList? ==>
      && |r[0].recipients| == |stored.value|
      && forall i :: 0 <= i < |stored.value| ==> r[0].recipients[i] == Prop(stored.value[i], "clientId")
    ensures r == [] && stored.Some? ==> stored.value == [] && !(Truthy(settings.updatesViaUdp) && s.udpClients != [])
    ensures forall o :: o in r ==> o.UdpList? || o.TcpList?
    ensures forall o :: o in r ==>
      o.header == stateHeader && o.content == Obj(map["created" := Num(now), "states" := Arr(stored.value)])
  {
    if stored.None? then []
    else
      var content := Obj(map["created" := Num(now), "states" := Arr(stored.value)]);
      if Truthy(settings.updatesViaUdp) && s.udpClients != [] then [UdpList(s.udpClients, stateHeader, content)]
      else
        var ids := seq(|stored.value|, i requires 0 <= i < |stored.value| => Prop(stored.value[i], "clientId"));
        if ids == [] then [] else [TcpList(ids, stateHeader, content)]
  }
}

=== FILE: udp.dfy ===
/** The UDP companion server (lib/unreliable/UDPServer.js): its reaction
    to each incoming datagram, and the `{type, header, content}` frame it
    sends. A datagram is `None` when its text does not parse. */
module Udp {
  import opened JsValue
  import opened Wrappers
  import E = Envelope

  const Internal := "internal"
  const ConnectedHeader := "CONNECTED"
  const ConnHeader := "UDP:CONN"
  const AffirmHeader := "UDP:CONN:AFIRM"
  const PingHeader := "UDP:PING"

  /** `send(clientId, header, content, type)`'s frame. */
  function Frame(kind: string, header: string, content: Js): (m: Js)
    ensures !content.Undefined? ==> E.IsValidMessage(m)
    ensures Prop(m, "type") == Str(kind) && Prop(m, "header") == Str(header) && Prop(m, "content") == content
  {
    Obj(map["type" := Str(kind), "header" := Str(header), "content" := content])
  }

  /** What the server does with a datagram. */
  datatype Reaction =
    | Reply(to: string, message: Js)
    | EmitInternal(clientId: string, header: Js, content: Js)
    | EmitJMessage(clientId: string, message: Js)

  /** The listener of `attachInternalListeners`: unparsable or falsy input
      is dropped; internal CONNECTED is answered with UDP:CONN, UDP:CONN
      with UDP:CONN:AFIRM, UDP:PING is echoed with content "pong", and any
      other internal header is raised; everything else goes to `jmessage`. */
  function React(clientId: string, parsed: Option<Js>): (r: seq<Reaction>)
    ensures parsed.None? || !Truthy(parsed.value) <==> r == []
    ensures |r| <= 1
    ensures r != [] && Prop(parsed.value, "type") != Str(Internal) ==> r == [EmitJMessage(clientId, parsed.value)]
    ensures r != [] && Prop(parsed.value, "type") == Str(Internal) ==>
      var m := parsed.value;
      var h := Prop(m, "header");
      if h == Str(ConnectedHeader) then r == [Reply(clientId, Frame(Internal, ConnHeader, Str("")))]
      else if h == Str(ConnHeader) then r == [Reply(clientId, Frame(Internal, AffirmHeader, Str("")))]
      else if h == Str(PingHeader) then
        && r[0].Reply? && r[0].to == clientId && r[0].message.Obj?
        && r[0].message.fields.Keys == m.fields.Keys + {"content"}
        && Prop(r[0].message, "content") == Str("pong")
        && forall k :: k in m.fields && k != "content" ==> r[0].message.fields[k] == m.fields[k]
      else r == [EmitInternal(clientId, h, Prop(m, "content"))]
  {
    if parsed.None? || !Truthy(parsed.value) then []
    else
      var m := parsed.value;
      if Prop(m, "type") != Str(Internal) then [EmitJMessage(clientId, m)]
      else
        var h := Prop(m, "header");
        if h == Str(ConnectedHeader) then [Reply(clientId, Frame(Internal, ConnHeader, Str("")))]
        else if h == Str(ConnHeader) then [Reply(clientId, Frame(Internal, AffirmHeader, Str("")))]
        else if h == Str(PingHeader) then [Reply(clientId, Obj(m.fields["content" := Str("pong")]))]
        else [EmitInternal(clientId, h, Prop(m, "content"))]
  }

  /** The handshake: the server's answer to CONNECTED, sent back to it,
      draws the affirmation. */
  lemma Handshake(clientId: string)
    ensures var greeting := React(clientId, Some(Frame(Internal, ConnectedHeader, Obj(map[]))));
      && greeting == [Reply(clientId, Frame(Internal, ConnHeader, Str("")))]
      && React(clientId, Some(greeting[0].message)) == [Reply(clientId, Frame(Internal, AffirmHeader, Str("")))]
  {}

  /** Every reply is a valid envelope, so a JSON layer on the other side
      accepts it. */
  lemma RepliesAreValid(clientId: string, parsed: Option<Js>)
    ensures forall a :: a in React(clientId, parsed) && a.Reply? ==> E.IsValidMessage(a.message)
  {}

  /** A ping is answered once, and its answer differs from it only in its
      content. */
  lemma PingEcho(clientId: string, content: Js)
    ensures React(clientId, Some(Frame(Internal, PingHeader, content))) == [Reply(clientId, Frame(Internal, PingHeader, Str("pong")))]
  {
    assert Frame(Internal, PingHeader, content).fields["content" := Str("pong")] == Frame(Internal, PingHeader, Str("pong")).fields;
  }
}

=== FILE: uniquify.dfy ===
/** `uniquify` (lib/tools/uniquify.js): the union of a list of lists, each
    element once. The JavaScript argument is modelled as `None` when it is
    not an array, and each entry as `None` when it is not an array. */
module Uniquify {
  import opened Wrappers
  import opened Seqs

  /** `e` occurs in some array entry of `lists`. */
  ghost predicate InSome<T>(lists: seq<Option<seq<T>>>, e: T) {
    exists i :: 0 <= i < |lists| && lists[i].Some? && e in lists[i].value
  }

  /** Record each of `items` in `acc` unless already there: the inner loop
      setting `sum[item] = true`. */
  function AddAll<T(==,!new)>(acc: seq<T>, items: seq<T>): (r: seq<T>)
    requires NoDup(acc)
    ensures NoDup(r)
    ensures forall e :: e in r <==> e in acc || e in items
    ensures |acc| <= |r| && r[..|acc|] == acc
    decreases |items|
  {
    if items == [] then acc
    else if items[0] in acc then AddAll(acc, items[1..])
    else
      NoDupConcat(acc, [items[0]]);
      var r := AddAll(acc + [items[0]], items[1..]);
      assert r[..|acc|] == r[..|acc| + 1][..|acc|];
      r
  }

  /** The outer loop: every array entry in order, other entries skipped. */
  function Collect<T(==,!new)>(acc: seq<T>, lists: seq<Option<seq<T>>>): (r: seq<T>)
    requires NoDup(acc)
    ensures NoDup(r)
    ensures forall e :: e in r <==> e in acc || InSome(lists, e)
    decreases |lists|
  {
    if lists == [] then acc
    else
      var next := if lists[0].Some? then AddAll(acc, lists[0].value) else acc;
      var r := Collect(next, lists[1..]);
      forall e ensures InSome(lists, e) <==> (lists[0].Some? && e in lists[0].value) || InSome(lists[1..], e) {
        if InSome(lists, e) {
          var i :| 0 <= i < |lists| && lists[i].Some? && e in lists[i].value;
          if i > 0 {
            assert lists[1..][i - 1] == lists[i];
          }
        }
        if InSome(lists[1..], e) {
          var i :| 0 <= i < |lists[1..]| && lists[1..][i].Some? && e in lists[1..][i].value;
          assert lists[i + 1] == lists[1..][i];
        }
      }
      r
  }

  /** `uniquify(listOfLists)`: `[]` for a non-array argument; otherwise every
      element of every array entry, without duplicates. */
  function Uniquify<T(==,!new)>(listOfLists: Option<seq<Option<seq<T>>>>): (r: seq<T>)
    ensures listOfLists.None? ==> r == []
    ensures NoDup(r)
    ensures forall e :: e in r <==> listOfLists.Some? && InSome(listOfLists.value, e)
  {
    if listOfLists.None? then [] else Collect([], listOfLists.value)
  }
}

=== FILE: vectors.dfy ===
/** Integer vector helpers (lib/tools/vector.js): the `{x, y, z}` shape,
    the `"x:y:z"` ids that key the world's cells, the 1D index of a 3D
    position, and the world/grid coordinate conversion. Coordinates are
    integers; JavaScript's truncating `| 0` and `%` are written out. */
module Vectors {
  import opened JsValue
  import opened Wrappers
  import opened Seqs
  import opened Arith

  datatype V3 = V3(x: int, y: int, z: int)

  /** `getVector(x, y, z)`. */
  function ToJs(v: V3): (r: Js)
    ensures r.Obj? && r.fields.Keys == {"x", "y", "z"}
    ensures Prop(r, "x") == Num(v.x) && Prop(r, "y") == Num(v.y) && Prop(r, "z") == Num(v.z)
  {
    Obj(map["x" := Num(v.x), "y" := Num(v.y), "z" := Num(v.z)])
  }

  /** `isVector`: a truthy object whose x, y and z are numbers. */
  function IsVector(v: Js): (r: bool)
    ensures r <==> v.Obj? && Prop(v, "x").Num? && Prop(v, "y").Num? && Prop(v, "z").Num?
  {
    if !Truthy(v) || TypeOf(v) != "object" then false
    else TypeOf(Prop(v, "x")) == "number" && TypeOf(Prop(v, "y")) == "number" && TypeOf(Prop(v, "z")) == "number"
  }

  /** The coordinates a vector value carries. */
  function FromJs(v: Js): (r: V3)
    requires IsVector(v)
    ensures Prop(v, "x") == Num(r.x) && Prop(v, "y") == Num(r.y) && Prop(v, "z") == Num(r.z)
  {
    V3(Prop(v, "x").n, Prop(v, "y").n, Prop(v, "z").n)
  }

  /** Every built vector is a vector, and reading it back gives its
      coordinates; a vector value agrees with the one rebuilt from it on
      the three coordinates. */
  lemma VectorShape(v: V3, j: Js)
    ensures IsVector(ToJs(v)) && FromJs(ToJs(v)) == v
    ensures IsVector(j) ==> forall k :: k in {"x", "y", "z"} ==> Prop(ToJs(FromJs(j)), k) == Prop(j, k)
  {}

  /** An object with only a z coordinate is not a vector. */
  lemma OnlyZIsNotVector()
    ensures !IsVector(Obj(map["z" := Num(12)]))
  {}

  /** `areEqual`: false unless both are vectors, then coordinatewise. */
  function AreEqual(a: Js, b: Js): (r: bool)
    ensures r <==> IsVector(a) && IsVector(b) && FromJs(a) == FromJs(b)
  {
    if !IsVector(a) || !IsVector(b) then false
    else Prop(a, "x") == Prop(b, "x") && Prop(a, "y") == Prop(b, "y") && Prop(a, "z") == Prop(b, "z")
  }

  /** On vectors `areEqual` is an equivalence, and on built vectors it is
      equality of coordinates. */
  lemma AreEqualIsEquivalence(a: Js, b: Js, c: Js, u: V3, w: V3)
    ensures IsVector(a) ==> AreEqual(a, a)
    ensures AreEqual(a, b) ==> AreEqual(b, a)
    ensures AreEqual(a, b) && AreEqual(b, c) ==> AreEqual(a, c)
    ensures AreEqual(ToJs(u), ToJs(w)) <==> u == w
  {
    VectorShape(u, a);
    VectorShape(w, a);
  }

  // JavaScript integer arithmetic.

  const TwoTo31 := 0x8000_0000
  const TwoTo32 := 0x1_0000_0000

  /** `n | 0` on an integer: wrap-around to a signed 32-bit value. */
  function ToInt32(n: int): (r: int)
    ensures -TwoTo31 <= r < TwoTo31
    ensures (r - n) % TwoTo32 == 0
    ensures -TwoTo31 <= n < TwoTo31 ==> r == n
  {
    (n + TwoTo31) % TwoTo32 - TwoTo31
  }

  /** The integer part of `a / b`, rounded toward zero. */
  function TruncDiv(a: int, b: int): (q: int)
    requires b != 0
    ensures a >= 0 && b > 0 ==> q == a / b
  {
    var m := (if a < 0 then -a else a) / (if b < 0 then -b else b);
    if (a < 0) == (b < 0) then m else -m
  }

  /** `a % b`: the remainder takes the sign of the dividend. */
  function TruncRem(a: int, b: int): (r: int)
    requires b != 0
    ensures a == TruncDiv(a, b) * b + r
    ensures a >= 0 && b > 0 ==> r == a % b
  {
    a - TruncDiv(a, b) * b
  }

  /** `(a / b) | 0` and `(a % b) | 0` on integers: a zero divisor gives
      `Infinity` or `NaN`, which `| 0` turns into 0. */
  function DivOr0(a: int, b: int): int {
    if b == 0 then 0 else ToInt32(TruncDiv(a, b))
  }

  function RemOr0(a: int, b: int): int {
    if b == 0 then 0 else ToInt32(TruncRem(a, b))
  }

  /** `Math.floor(a / b)`. */
  function FloorDiv(a: int, b: int): (q: int)
    requires b != 0
    ensures b > 0 ==> q * b <= a < q * b + b
    ensures b < 0 ==> q * b + b < a <= q * b
  {
    if b > 0 then a / b else (-a) / (-b)
  }

  lemma FloorFromBounds(a: int, b: int, q: int)
    requires b != 0
    requires b > 0 ==> q * b <= a < q * b + b
    requires b < 0 ==> q * b + b < a <= q * b
    ensures FloorDiv(a, b) == q
  {
    if b > 0 {
      DivFromBounds(a, b, q);
    } else {
      assert q * (-b) <= -a < q * (-b) + (-b);
      DivFromBounds(-a, -b, q);
    }
  }

  // The 1D index.

  const DefaultMax := 111

  /** With the default bounds, the last layer whose offset `z * 111 * 111`
      is below 2^31 (174294 * 12321 = 2147476374). */
  const DefaultMaxZ := 174294

  /** `to1D({x, y, z}, xMax, yMax)`. */
  function To1D(v: V3, xMax: int, yMax: int): (idx: int)
    ensures 0 <= v.x < xMax && 0 <= v.y < yMax ==>
      v.z * (xMax * yMax) <= idx < v.z * (xMax * yMax) + xMax * yMax
  {
    var idx := v.z * xMax * yMax + v.y * xMax + v.x;
    if 0 <= v.x < xMax && 0 <= v.y < yMax then
      RowBelowBound(v.x, v.y, xMax, yMax);
      assert v.z * xMax * yMax == v.z * (xMax * yMax);
      idx
    else idx
  }

  /** `to3D(idx, xMax, yMax)`, each step truncated by `| 0`. */
  function To3D(idx: int, xMax: int, yMax: int): (v: V3)
    ensures -TwoTo31 <= v.x < TwoTo31 && -TwoTo31 <= v.y < TwoTo31 && -TwoTo31 <= v.z < TwoTo31
    ensures xMax == 0 ==> v.x == 0 && v.y == 0
    ensures xMax * yMax == 0 ==> v.z == 0
  {
    var z := DivOr0(idx, xMax * yMax);
    var rest := idx - ToInt32(z * xMax * yMax);
    V3(RemOr0(rest, xMax), DivOr0(rest, xMax), z)
  }

  /** Dividing a non-negative index by a positive bound with `| 0` is
      Euclidean division, as long as the quotient and the remainder fit
      32 bits; the index itself need not. */
  lemma DivOfIndex(idx: int, m: int, q: int)
    requires m > 0 && q >= 0 && q * m <= idx < q * m + m && q < TwoTo31
    ensures DivOr0(idx, m) == q
    ensures idx - q * m < TwoTo31 ==> RemOr0(idx, m) == idx - q * m
  {
    DivFromBounds(idx, m, q);
  }

  lemma RowBelowBound(x: int, y: int, xMax: int, yMax: int)
    requires 0 <= x < xMax && 0 <= y < yMax
    ensures 0 <= y * xMax + x < xMax * yMax
  {
    MulMono(yMax, y + 1, xMax);
    MulMono(y, 0, xMax);
  }

  /** The index round trip, for positions inside the bounds whose layer
      offset `z * xMax * yMax` survives its `| 0` and whose x and y are
      32-bit; the bounds need not be odd. Every position whose whole index
      is below 2^31 qualifies. */
  lemma IndexRoundTrip(v: V3, xMax: int, yMax: int)
    requires xMax > 0 && yMax > 0
    requires 0 <= v.x < xMax && 0 <= v.y < yMax && 0 <= v.z
    requires v.z * (xMax * yMax) < TwoTo31 && v.x < TwoTo31 && v.y < TwoTo31
    ensures To3D(To1D(v, xMax, yMax), xMax, yMax) == v
  {
    var m := xMax * yMax;
    var r := v.y * xMax + v.x;
    SplitIndex(v, xMax, yMax);
    RowBelowBound(v.x, v.y, xMax, yMax);
    MulMono(m, 1, v.z);
    DivOfIndex(To1D(v, xMax, yMax), m, v.z);
    DivOfIndex(r, xMax, v.y);
  }

  /** A position whose whole index is below 2^31 meets the conditions of
      the round trip. */
  lemma SmallIndexRoundTrips(v: V3, xMax: int, yMax: int)
    requires xMax > 0 && yMax > 0
    requires 0 <= v.x < xMax && 0 <= v.y < yMax && 0 <= v.z
    requires To1D(v, xMax, yMax) < TwoTo31
    ensures To3D(To1D(v, xMax, yMax), xMax, yMax) == v
  {
    SplitIndex(v, xMax, yMax);
    MulMono(v.y, 0, xMax);
    MulMono(xMax, 1, v.y);
    MulMono(xMax * yMax, 0, v.z);
    IndexRoundTrip(v, xMax, yMax);
  }

  lemma SplitIndex(v: V3, xMax: int, yMax: int)
    ensures To1D(v, xMax, yMax) == v.z * (xMax * yMax) + (v.y * xMax + v.x)
    ensures v.z * xMax * yMax == v.z * (xMax * yMax)
  {}

  /** With the default bounds of 111, every position inside them up to
      layer 174294 round-trips. */
  lemma DefaultIndexRoundTrip(v: V3)
    requires 0 <= v.x < DefaultMax && 0 <= v.y < DefaultMax && 0 <= v.z <= DefaultMaxZ
    ensures To3D(To1D(v, DefaultMax, DefaultMax), DefaultMax, DefaultMax) == v
  {
    var m := DefaultMax * DefaultMax;
    MulMono(DefaultMaxZ, v.z, m);
    IndexRoundTrip(v, DefaultMax, DefaultMax);
  }

  /** One layer further, `(z * 111 * 111) | 0` wraps to a negative number
      and the round trip fails. */
  lemma DefaultNextLayerFails()
    ensures To3D(To1D(V3(0, 0, DefaultMaxZ + 1), DefaultMax, DefaultMax), DefaultMax, DefaultMax)
         != V3(0, 0, DefaultMaxZ + 1)
  {
    var idx := To1D(V3(0, 0, DefaultMaxZ + 1), DefaultMax, DefaultMax);
    assert idx == 2147488695;
    DivOfIndex(idx, 12321, DefaultMaxZ + 1);
    assert ToInt32(idx) == idx - TwoTo32;
    DivOfIndex(TwoTo32, 111, 38693399);
  }

  /** Even bounds round-trip as well. */
  lemma EvenBoundsRoundTrip()
    ensures To3D(To1D(V3(1, 1, 1), 2, 2), 2, 2) == V3(1, 1, 1)
  {
    IndexRoundTrip(V3(1, 1, 1), 2, 2);
  }

  // World and grid coordinates.

  const OddGrid := "gridsize not dividable by 2."

  /** `worldToGridCoordinates`: throws for an odd grid size; otherwise
      each axis (z read as y in Unity mode) maps to the cell whose centre
      `c * g` lies within half a cell, the lower edge included. */
  function WorldToGrid(p: V3, g: int, unity: bool): (r: Result<V3>)
    requires g != 0
    ensures r.Err? <==> g % 2 != 0
    ensures r.Ok? ==> r.value.z == 0
    ensures r.Ok? && g > 0 ==>
      && r.value.x * g - g / 2 <= p.x < r.value.x * g + g / 2
      && r.value.y * g - g / 2 <= (if unity then p.z else p.y) < r.value.y * g + g / 2
    ensures r.Ok? && g < 0 ==>
      && r.value.x * g + g / 2 < p.x <= r.value.x * g - g / 2
      && r.value.y * g + g / 2 < (if unity then p.z else p.y) <= r.value.y * g - g / 2
  {
    if g % 2 != 0 then Err(OddGrid)
    else
      var half := g / 2;
      Ok(V3(FloorDiv(p.x + half, g), FloorDiv((if unity then p.z else p.y) + half, g), 0))
  }

  /** `gridToWorldCoordinates`: throws for an odd grid size; otherwise the
      centre of the cell in world units, with y written to z in Unity mode. */
  function GridToWorld(c: V3, g: int, unity: bool): (r: Result<V3>)
    ensures r.Err? <==> g % 2 != 0
    ensures r.Ok? ==> r.value.x == c.x * g
    ensures r.Ok? ==> if unity then r.value.y == 0 && r.value.z == c.y * g else r.value.y == c.y * g && r.value.z == 0
  {
    if g % 2 != 0 then Err(OddGrid)
    else if unity then Ok(V3(c.x * g, 0, c.y * g))
    else Ok(V3(c.x * g, c.y * g, 0))
  }

  lemma CellOfCorner(c: int, g: int)
    requires g != 0 && g % 2 == 0
    ensures FloorDiv(c * g + g / 2, g) == c
  {
    FloorFromBounds(c * g + g / 2, g, c);
  }

  /** A grid cell sent to world coordinates and back is the same cell,
      in either mode, for any even non-zero grid size. */
  lemma GridRoundTrip(c: V3, g: int, unity: bool)
    requires g != 0 && g % 2 == 0
    ensures GridToWorld(c, g, unity).Ok?
    ensures WorldToGrid(GridToWorld(c, g, unity).value, g, unity) == Ok(V3(c.x, c.y, 0))
  {
    CellOfCorner(c.x, g);
    CellOfCorner(c.y, g);
  }

  // Vector ids.

  const Digits := "0123456789"

  function DigitValue(ch: char): (d: nat)
    ensures d < 10
    ensures forall i :: 0 <= i < 10 && Digits[i] == ch ==> d == i
  {
    if '0' <= ch <= '9' then ch as int - '0' as int else 0
  }

  /** The decimal digits of a natural number. */
  function NatText(n: nat): (s: string)
    ensures |s| >= 1 && ':' !in s && s[0] != '-'
    ensures forall ch :: ch in s ==> ch in Digits
  {
    if n < 10 then [Digits[n]] else NatText(n / 10) + [Digits[n % 10]]
  }

  /** The value of a string of decimal digits. */
  function NatValue(s: string): nat {
    if s == [] then 0 else NatValue(s[..|s| - 1]) * 10 + DigitValue(s[|s| - 1])
  }

  lemma {:induction false} NatTextRoundTrip(n: nat)
    ensures NatValue(NatText(n)) == n
  {
    var s := NatText(n);
    if n < 10 {
      assert s[..0] == [];
    } else {
      assert s[..|s| - 1] == NatText(n / 10);
      NatTextRoundTrip(n / 10);
    }
  }

  /** An integer as JavaScript prints it (`-` then the digits). */
  function IntText(i: int): (s: string)
    ensures |s| >= 1 && ':' !in s
    ensures s[0] == '-' <==> i < 0
  {
    if i < 0 then "-" + NatText(-i) else NatText(i)
  }

  function IntValue(s: string): int {
    if s != [] && s[0] == '-' then -(NatValue(s[1..]) as int) else NatValue(s)
  }

  lemma IntTextRoundTrip(i: int)
    ensures IntValue(IntText(i)) == i
  {
    if i < 0 {
      NegativeTextRoundTrip(i);
    } else {
      NatTextRoundTrip(i);
      assert IntValue(NatText(i)) == NatValue(NatText(i));
    }
  }

  lemma NegativeTextRoundTrip(i: int)
    requires i < 0
    ensures IntValue(IntText(i)) == i
  {
    NatTextRoundTrip(-i);
    MinusValue(NatText(-i));
  }

  lemma MinusValue(t: string)
    ensures IntValue("-" + t) == -(NatValue(t) as int)
  {
    assert ("-" + t)[1..] == t;
  }

  /** A string cut at each `:`. */
  function Fields(s: string): (f: seq<string>)
    ensures |f| >= 1
    decreases |s|
  {
    var i := IndexOf(s, ':');
    if i == |s| then [s] else [s[..i]] + Fields(s[i + 1..])
  }

  lemma FieldsCons(a: string, rest: string)
    requires ':' !in a
    ensures Fields(a + ":" + rest) == [a] + Fields(rest)
  {
    var s := a + ":" + rest;
    assert s[|a|] == ':';
    assert forall j :: 0 <= j < |a| ==> s[j] == a[j];
    var i := IndexOf(s, ':');
    assert i == |a|;
    assert s[..i] == a;
    assert s[i + 1..] == rest;
  }

  /** `${x}:${y}:${z}` of a vector's coordinates. */
  function VectorId(v: V3): string {
    IntText(v.x) + ":" + IntText(v.y) + ":" + IntText(v.z)
  }

  function ParseId(s: string): Option<V3> {
    var f := Fields(s);
    if |f| == 3 then Some(V3(IntValue(f[0]), IntValue(f[1]), IntValue(f[2]))) else None
  }

  /** A vector id reads back as its vector. */
  lemma IdFields(v: V3)
    ensures Fields(VectorId(v)) == [IntText(v.x), IntText(v.y), IntText(v.z)]
  {
    var a, b, c := IntText(v.x), IntText(v.y), IntText(v.z);
    assert VectorId(v) == a + ":" + (b + ":" + c);
    FieldsCons(a, b + ":" + c);
    FieldsCons(b, c);
    FieldsSingle(c);
  }

  lemma FieldsSingle(c: string)
    requires ':' !in c
    ensures Fields(c) == [c]
  {
    assert IndexOf(c, ':') == |c|;
  }

  lemma IdRoundTrip(v: V3)
    ensures ParseId(VectorId(v)) == Some(v)
  {
    IdFields(v);
    IntTextRoundTrip(v.x);
    IntTextRoundTrip(v.y);
    IntTextRoundTrip(v.z);
  }

  /** Distinct vectors have distinct ids, so one cell map entry serves one
      cell. */
  lemma IdInjective(v: V3, w: V3)
    ensures VectorId(v) == VectorId(w) <==> v == w
  {
    if VectorId(v) == VectorId(w) {
      IdRoundTrip(v);
      IdRoundTrip(w);
    }
  }

  const NotAVector := "passed value is not a vector, cannot get vector id."

  /** `getVectorId`: throws for a non-vector; the id of a vector reads back
      as its coordinates. */
  function GetVectorId(v: Js): (r: Result<string>)
    ensures r.Err? <==> !IsVector(v)
    ensures r.Ok? ==> ParseId(r.value) == Some(FromJs(v))
  {
    if !IsVector(v) then Err(NotAVector)
    else
      IdRoundTrip(FromJs(v));
      Ok(VectorId(FromJs(v)))
  }
}

=== FILE: wire.dfy ===
/** What the server layers emit: internal messages to one client or to a
    list of clients, and events raised on the server object. Every message
    body the protocol layers build is one of `Body`'s shapes. */
module Wire {
  import opened JsValue
  import opened Wrappers

  datatype Body =
      /** `{successfull: true}`, with `groupId` when present. */
    | Ack(groupId: Option<Js>)
      /** `{failed: true, error}`, with `groupId` when present. */
    | Failure(error: string, groupId: Option<Js>)
      /** `{content: "PONG"}`. */
    | Pong
      /** `{clientId}`: a JOIN, LEAVE or DELETE notification. */
    | Notify(clientId: string)
      /** `{from, content, group}` (group broadcast) or `{from, message}`
          (queue broadcast, no group). */
    | Delivery(from: string, delivery: Js, group: Option<string>)
      /** `{message: {mm, matchId}}`: a matchmaking announcement. */
    | Match(mm: string, matchId: string)
      /** `{from, message: {mm: "MATCH-CONFIRMED", matchId}}`. */
    | Confirmed(from: string, matchId: string)
      /** `{error}` without the `failed` flag. */
    | Error(error: string)
      /** Content forwarded as it is. */
    | Payload(content: Js)

  datatype Out =
      /** `send(clientId, "internal", body, header)`. */
    | Send(to: string, header: string, body: Body)
      /** `sendList(clientIds, {type: "internal", header, ...body})`. */
    | SendList(recipients: seq<string>, header: string, body: Body)
      /** `emit(topic, action, {clientId, groupId})`; a missing client id is
          JavaScript's `null`. */
    | Event(topic: string, action: string, clientId: Option<string>, subject: string)
}

=== FILE: wrappers.dfy ===
/** Option and Result, used wherever the source returns null, rejects a
    promise or throws. */
module Wrappers {

  datatype Option<+T> = None | Some(value: T)

  /** `Ok` for a resolved promise or a normal return, `Err` for a rejection or
      a thrown error, carrying the error message. */
  datatype Result<+T> = Ok(value: T) | Err(error: string)
}
